=== FILE: README.md ===
# SimplyFly front end: a Dafny model

SimplyFly is a flight-booking single-page application. A passenger searches for flights,
picks seats on a 20-row seat map, enters passenger details, pays and receives a confirmation.
A flight owner and an administrator each have a dashboard over the same users, flights and
bookings. This project models the logic inside those pages and the route guards that connect
them. Everything is stated as pure functions over explicit state.

- **Browser state.** `localStorage` is a map from key to item; an item is text or a value
  written with `JSON.stringify`. `sessionStorage` is a map from key to text.
- **Server replies.** Every reply is an input: a status, its text and an optional JSON body, or
  a network failure. Operations return the requests they send (verb, path, body) beside their
  result, so each contract can say what is sent and in what order.
- **JavaScript values.** Values are JSON-shaped (`JsVal`). The `a || b || c` fallback chains
  are an explicit first-truthy function, in which `0`, `""`, `null` and `undefined` count as
  missing.
- **Modules.** There is one module per page or component: `Guards` (`RouteGuard`,
  `RoleProtectedRoute`, `AuthRoute`), `Routes` (`App.jsx`), `Flow` (the booking flow across
  pages), `Seats` (`Bookings.jsx`), `PassengerDetails`, `Payment`, `Confirmation`, `Flights`,
  `Home`, `DateUtils`, `BookingHistory`, `FlightOwnerRefunds`, `Login`, `Signup`,
  `FlightOwner`, `FlightOwnerNew` (`FlightOwner.new.jsx`) and `Admin`. The modules `Js`,
  `Strings`, `Dashboards` and `Wrappers` hold what the pages share.
- **Properties.** The proved properties cover:
  - round trips: date strings, seat lists joined and split again, `parseInt` of `String(n)`;
  - the 32-bit route hash, equal to the textbook 31-multiplier hash;
  - the seat cap and the seat counters;
  - the order of validation checks;
  - that every operation touches only what it names;
  - two defects in the booking flow and the second owner dashboard, each modelled both as written and corrected.

## Model

A stored entry is either text or a value written with `JSON.stringify` (`Json`). Text items stand for strings that `JSON.parse` rejects. A JSON text stored with `setItem` is therefore modelled as the value it encodes, not as `Text`, so `ParseItemOrEmpty` reads every `Text` item as unparsable.

| member | source | states |
|---|---|---|
| Guards.RouteGuard | src/components/RouteGuard.jsx:4-30 | without a token the user goes to `/login` with the session untouched; the page renders exactly when there is a token and either no flag is required or the flag is set in the session; a refused flag empties the session and sends the user to `/home` |
| Guards.FlagNotConsumed | src/components/RouteGuard.jsx:18-29 | passing a flag guard does not consume the flag: the same guard passes again on the session it leaves behind |
| Guards.RefusalClosesEveryGuard | src/components/RouteGuard.jsx:21-27 | one refusal clears the session, so every other flag guard then refuses too, with an empty session |
| Guards.RoleProtected | src/components/RoleProtectedRoute.jsx:3-24 | every refusal of the role gate sends the user to `/login`, never to `/home` |
| Guards.RoleProtectedSpec | src/components/RoleProtectedRoute.jsx:4-19 | the role gate admits exactly the users with a token whose stored user data parses and carries a non-empty `Role` string among the allowed roles |
| Guards.AuthRoute | src/components/AuthRoute.jsx:3-11 | the login pages either render or send the user to `/home` |
| Guards.AuthRouteComplementsGuard | src/components/AuthRoute.jsx:4-10 | the login pages render exactly for the users that the flag guard sends to `/login` |
| Guards.RolePassImpliesToken | src/components/RoleProtectedRoute.jsx:4-8 | whoever passes the role gate also passes the token check and is turned away from the login pages |
| Routes.RunGates | src/App.jsx:21-35 | running a route's wrappers never yields "no match", and a page that is shown is the route's own page |
| Routes.RootGoesToLogin | src/App.jsx:22 | `/` always redirects to `/login` with the session unchanged |
| Routes.FlowPageNeedsFlag | src/App.jsx:26-28 | each of the three flow pages is shown exactly when `ProtectedRoute` admits the user, there is a token, and that page's own session flag is set |
| Routes.ProtectedThenFlag | src/App.jsx:26-28 | a route wrapped in `ProtectedRoute` and a flag guard shows its page exactly when both admit the user |
| Routes.DashboardsNeedRole | src/App.jsx:31-32 | `/admin` and `/flight-owner` are shown exactly to users with a token whose stored role is `Admin`, respectively `Flightowner`; a refused `/admin` visit goes to `/login` |
| Routes.LoginPagesOnlyLoggedOut | src/App.jsx:33-34 | `/login` and `/signup` are shown exactly when there is no token |
| Routes.HistoryAlias | src/App.jsx:29-30 | `/my-bookings` behaves exactly like `/booking-history` |
| Routes.UnroutedPaths | src/App.jsx:21-35 | the paths of the other dashboard pages match no route |
| Flow.AsWrittenNeverHandsOff | src/pages/PassengerDetails.jsx:174 | as written, no sequence of page events ever sets `fromBookings` or `fromPayment`; only `fromPassengerDetails` is ever written |
| Flow.AsWrittenFlowUnreachable | src/App.jsx:26-28 | as written, the passenger-details page and the confirmation page are never shown, whatever happened before |
| Flow.CorrectedFlowReachesEachPage | src/components/RouteGuard.jsx:33-55 | once the seat map and the payment page write the flags their next guards require, a logged-in user reaches each flow page in turn |
| Flow.CorrectionOnlyAdds | src/pages/PassengerDetails.jsx:174 | the corrected flow sets every flag the written flow sets |
| Flow.SubmitIsDetailsStep | src/pages/PassengerDetails.jsx:170-177 | a passenger-details submission that moves on to `/payment` changes the session exactly as the `DetailsSaved` step does, and every other outcome leaves it as it was |
| Flow.ConfirmedSeatsRefused | src/pages/Bookings.jsx:244-302 | the seat map writes no session flag as written, so whenever its confirmation navigates, the page it navigates to is refused unless `fromBookings` was already set |
| Flow.PaidNavigationRefused | src/pages/Payment.jsx:197-209 | paying writes no session flag as written, so the confirmation page it navigates to is refused unless `fromPayment` was already set |
| Dashboards.Available | src/pages/FlightOwner.jsx:274-288 | the free-seat count is never negative, never more than 120 for a non-negative booking count, adds up to 120 with any booking count up to 120, and is 0 once 120 or more seats are booked |
| Dashboards.EmptyTermMatches | src/pages/FlightOwner.jsx:549-566 | an empty search term matches every text field and every truthy id |
| Dashboards.FieldMatchIgnoresCase | src/pages/FlightOwner.jsx:549-554 | a search term matches a field exactly when its lower-case form does |
| Dashboards.LoadWithFallback | src/pages/FlightOwner.jsx:105-142 | the primary endpoint is always asked first; the fallback is asked, with a `GET` of the fallback path, exactly when the primary answered with a status that is not OK; an OK primary reply's JSON is the data, and so is an OK fallback reply's JSON after a refused primary; any other outcome gives the empty array |
| Dashboards.RemoveById | src/pages/Admin.jsx:257 | what a delete leaves is a subsequence of the list that keeps exactly the records whose id differs from the deleted one |
| Dashboards.RemoveByIdSettles | src/pages/FlightOwnerRefunds.jsx:101-103 | removing an id no record carries changes nothing, and removing the same id twice is removing it once |
| Dashboards.SumAtLeastCount | src/pages/FlightOwner.jsx:273 | a sum whose every term is at least one is at least the number of terms |
| FlightOwnerRefunds.Mount | src/pages/FlightOwnerRefunds.jsx:12-73 | the page navigates away exactly when it sends no request; a failed load leaves an empty queue; an array reply holding a `null` booking shows the retry message, because reading its `status` throws; every queued booking has status `RequestedToCancel` |
| FlightOwnerRefunds.QueueIsRequests | src/pages/FlightOwnerRefunds.jsx:59-65 | a successful load came from an array reply without `null` or `undefined` elements, and the queue keeps exactly that array's `RequestedToCancel` bookings, in the reply's order |
| FlightOwnerRefunds.FetchNeedsOwner | src/pages/FlightOwnerRefunds.jsx:13-44 | the page asks for bookings only when a `userToken` is stored and the stored role is `Flightowner`, the same users the owner dashboard's role gate admits |
| FlightOwnerRefunds.Decide | src/pages/FlightOwnerRefunds.jsx:75-149 | a declined confirmation changes nothing; a confirmed one sends exactly one PUT to the booking's approve or reject path, marks that booking as processing while it is out and leaves `processingRefund` at `null` afterwards; a failure leaves the queue as it was; a `null` body where a field is read fails with the `TypeError` |
| FlightOwnerRefunds.DecisionRemovesOnlyThat | src/pages/FlightOwnerRefunds.jsx:97-103 | a settled decision removes exactly the bookings with the decided id, keeps every other request in order, and an approval reports the reply's `refundAmount` |
| FlightOwnerRefunds.RefusalKeepsQueue | src/pages/FlightOwnerRefunds.jsx:92-95 | a refused decision keeps the queue, and a refusal without its own message falls back to the action's text |
| FlightOwnerRefunds.DisabledWhileProcessing | src/pages/FlightOwnerRefunds.jsx:108-109 | while a decision is in flight exactly the bookings with that id are disabled; once it settles, whatever the outcome, exactly the bookings whose id is `null` stay disabled |
| Signup.TestConnection | src/pages/Signup.jsx:17-35 | the page counts as connected exactly when the probe of `/test` gets an OK reply |
| Signup.FirstProblem | src/pages/Signup.jsx:40-53 | nothing blocks the form exactly when the server is connected, the passwords agree and the password has at least 6 characters; otherwise the first failing check, in that order, names the message |
| Signup.Submit | src/pages/Signup.jsx:37-109 | a failed check sends nothing, sets its message and leaves the success line as it was; otherwise exactly one POST to `/Auth/register` is sent; the form is cleared, the success line set and `/login` scheduled exactly when the reply is OK; every other outcome keeps the form and shows a non-empty error unless the refusal's `message` is an array |
| Signup.RefusalText | src/pages/Signup.jsx:96-98 | the error shown for a refused registration is non-empty whenever its `message` is not an array, and empty for an empty-array `message` |
| Signup.CreatedIsOk | src/pages/Signup.jsx:77 | the extra test for status 201 accepts nothing that the OK test does not already accept |
| Signup.RefusalMessages | src/pages/Signup.jsx:91-101 | a refusal shows the body's `message` when it is truthy, else `Registration failed`; a refusal whose text is not JSON, or is `null`, names the status |
| Signup.StatusFailure | src/pages/Signup.jsx:99-101 | the catch branch's message is never empty and never the generic `Registration failed` |
| Signup.BodyIsTrimmed | src/pages/Signup.jsx:67-71 | white space around the name changes nothing in the body that is sent |
| Confirmation.SelectBookingData | src/pages/BookingConfirmation.jsx:17-38 | the booking in the navigation state wins when it is truthy; whatever is shown is truthy; with neither the state nor a stored booking the page goes home |
| Confirmation.ShowsStoredBooking | src/pages/BookingConfirmation.jsx:24-28 | without navigation state the page shows exactly the booking the passenger step stored |
| Confirmation.Pops | src/pages/BookingConfirmation.jsx:43-51 | one verdict per back press |
| Confirmation.PopsAfterward | src/pages/BookingConfirmation.jsx:44-50 | once the flag is down, no back press is blocked |
| Confirmation.OnlyFirstPopBlocked | src/pages/BookingConfirmation.jsx:41-55 | from mount, exactly the first back press is blocked |
| Confirmation.LastDigits | src/pages/BookingConfirmation.jsx:63 | the tail taken from the clock has exactly the requested length and is all digits |
| Confirmation.TakeLastDigits | src/pages/BookingConfirmation.jsx:63 | taking the last `k` characters of the clock's decimal rendering gives its last `k` digits, zero-padded, once the clock has more than `k` digits |
| Confirmation.LastDigitsPeriodic | src/pages/BookingConfirmation.jsx:63 | the last `k` digits forget multiples of `10^k` |
| Confirmation.TicketNumberRepeats | src/pages/BookingConfirmation.jsx:62-64 | from a 9-digit clock on, the ticket number is `SF` and eight digits, and it repeats every 10^8 milliseconds |
| Confirmation.PassengerCountShownSpec | src/pages/BookingConfirmation.jsx:245 | a non-empty passenger list shows its size, a number shows itself, and an empty list shows the list itself |
| Home.UpdatePassengers | src/pages/Home.jsx:272-279 | a counter click changes only the counter clicked |
| Home.UpdateKeepsValid | src/pages/Home.jsx:272-279 | from valid counts (at least one adult, nothing negative) every click keeps the counts valid; an increase adds exactly one traveller and a decrease removes at most one |
| Home.ClicksKeepValid | src/pages/Home.jsx:272-279 | no run of counter clicks from valid counts ever reaches zero adults or a negative count |
| Home.PassengerDisplayText | src/pages/Home.jsx:257-266 | the label is the total number of travellers followed by `Traveller` or `Travellers` |
| Home.DisplayTextSingular | src/pages/Home.jsx:257-266 | the label is singular exactly when there is one traveller |
| Home.FilteredCities | src/pages/Home.jsx:130-137 | an empty term lists every city; otherwise the list keeps the page's order and holds exactly the cities whose name, code or airport contains the term, ignoring case |
| Home.EmptyTermMatchesAll | src/pages/Home.jsx:130-137 | the empty term would match every city anyway, so the early return changes nothing |
| Home.SelectCity | src/pages/Home.jsx:139-149 | choosing a city stores its code on the chosen side and leaves the other side untouched |
| Home.SwapCities | src/pages/Home.jsx:151-159 | origin and destination trade both their codes and their texts |
| Home.SwapInvolution | src/pages/Home.jsx:151-159 | swapping twice restores the form |
| Home.FirstWeekday | src/pages/Home.jsx:170 | the weekday of the first of the month is between 0 and 6 |
| Home.GenerateCalendar | src/pages/Home.jsx:169-198 | the page has one blank per weekday before the first of the month, then, for each day of the month in order, that day's cell at its own position: its date string, today exactly on today's date, selected exactly on the departure or return date, past exactly before today |
| Home.Page | src/pages/Home.jsx:175-195 | the blanks come first, then the day cells 1 to the month's length, each at its own position |
| Home.CalendarDatesIncrease | src/pages/Home.jsx:182 | on a four-digit year, the date strings of any calendar page (blanks, then days 1 to the month's length, which is what `GenerateCalendar` builds) increase strictly down the page |
| Home.DaysIncrease | src/pages/Home.jsx:182 | within one month of a four-digit year, a later day has a strictly greater date string |
| Home.ReturnDayDisabled | src/pages/Home.jsx:318 | in the return calendar a day is disabled exactly when it is past or falls before the departure day on the calendar |
| Home.SelectDate | src/pages/Home.jsx:200-212 | a new departure is stored and the return date is dropped exactly when it is set and sorts before the new departure; a return choice changes only the return date |
| Home.DepartureClearsEarlierReturn | src/pages/Home.jsx:200-206 | on real dates a new departure drops the return date exactly when the return day is before the departure day |
| Home.SearchParams | src/pages/Home.jsx:227-243 | the search is refused exactly when a city or the departure date is missing |
| Home.ParamAt | src/pages/Home.jsx:233-240 | a parameter is read from its first occurrence |
| Home.ParamAbsent | src/pages/Home.jsx:233-240 | a name that no parameter carries is not found |
| Home.SearchCarriesForm | src/pages/Home.jsx:233-242 | a complete search carries the cities, the date and the class as given, a passenger count of adults plus children without the infants, and a return date exactly for round trips |
| Home.CheckUserRole | src/pages/Home.jsx:62-87 | without a token the page sends the user to `/login`, and so does stored user data that is `null`, since reading its `Role` throws into the catch |
| Home.RoleLinksMatchGates | src/pages/Home.jsx:73-76 | the admin and owner links appear exactly for the users that the dashboards' own role gates admit |
| Home.Logout | src/pages/Home.jsx:245-251 | log-out removes exactly `userToken`, `token` and `userData` and keeps every other stored entry as it was |
| Home.LogoutLocksGuardedPages | src/pages/Home.jsx:245-251 | after log-out the login page is open and every guarded page sends the user to `/login` |
| BookingHistory.LoadBookings | src/pages/BookingHistory.jsx:34-87 | only `userToken` is consulted: without it nothing is sent and the page goes to `/login`, with it exactly one GET of `/bookings` is sent; any error leaves the empty list; the stored entries are either kept or lose exactly the three login entries |
| BookingHistory.LoadOutcomes | src/pages/BookingHistory.jsx:62-77 | an OK reply with a truthy body is shown as it is, with no error; a 401 logs the user out, so every guarded page then sends them to `/login` |
| BookingHistory.GuardAndPageDisagreeOnToken | src/pages/BookingHistory.jsx:41-50 | a user holding only `token` passes the route's token check but is still sent to `/login` by the page |
| BookingHistory.AdminLinkMatchesGate | src/pages/BookingHistory.jsx:19-32 | for a logged-in user the Admin link shows exactly when the admin dashboard's role gate opens |
| BookingHistory.StatusLabel | src/pages/BookingHistory.jsx:350-353 | the status line is always one of the five labels |
| BookingHistory.LabelAndButton | src/pages/BookingHistory.jsx:349-410 | a `Confirmed` booking offers the cancel button and, without a `Status` field, reads `Confirmed`; a booking already requested, refunded or cancelled offers no button; a booking whose status is `CONFIRMED` offers the button but reads `Unknown` |
| BookingHistory.RequestCancel | src/pages/BookingHistory.jsx:118-153 | the modal always opens; a booking is selected exactly when no refusal is shown, and then it is the clicked one; the list and the storage are untouched |
| BookingHistory.CancelWindow | src/pages/BookingHistory.jsx:120-143 | on a real departure date a booking can be selected exactly when departure is at least three calendar days away, so never on or after the departure day |
| BookingHistory.MarkRequested | src/pages/BookingHistory.jsx:209-215 | a granted request keeps the list's length and order, leaves every other booking as it was, and gives each booking with that id the status `RequestedToCancel` with its other fields kept |
| BookingHistory.MarkRequestedSettles | src/pages/BookingHistory.jsx:209-215 | marking twice is marking once, and a marked booking no longer offers the cancel button |
| BookingHistory.ConfirmCancel | src/pages/BookingHistory.jsx:155-226 | without a selection nothing happens; the list changes only after an OK reply |
| BookingHistory.ConfirmCancelOutcomes | src/pages/BookingHistory.jsx:169-225 | with a selection and a token exactly one PUT is sent; a refusal keeps the list and the selection and shows a message; a 401 drops the login entries; 403 and 404 keep the storage; an OK JSON reply marks the selected booking, clears the selection, closes the modal and opens the refund notice |
| BookingHistory.CloseCancelModal | src/pages/BookingHistory.jsx:234-239 | closing hides both modals, drops the selection and its message, and keeps the list, the storage and the page error |
| BookingHistory.ClosedModalSendsNothing | src/pages/BookingHistory.jsx:155-156 | once the modal is closed, confirming sends nothing |
| Login.Base64FromUrl | src/pages/Login.jsx:15 | the conversion keeps the length and maps `-` to `+` and `_` to `/`, leaving every other character |
| Login.Base64FromUrlSettles | src/pages/Login.jsx:15 | the result holds no base64url-only character, and converting it again changes nothing |
| Login.DecodeJwt | src/pages/Login.jsx:12-24 | a token that is not a string decodes to `null` |
| Login.DecodeJwtPayload | src/pages/Login.jsx:14-19 | a token of the form `header.payload.signature` decodes exactly its payload segment, converted to standard base64 |
| Login.RoleClaimChain | src/pages/Login.jsx:53-57 | a truthy `role` claim wins; with no role claim at all the role is `User`; the role is always truthy |
| Login.NameEmailDefined | src/pages/Login.jsx:59-67 | the name and e-mail chains never yield `undefined` |
| Login.IdClaimUndefined | src/pages/Login.jsx:69-72 | the id is `undefined` exactly when `sub`, `id` and `Id` are all falsy and `nameid` is absent |
| Login.UserDataKeys | src/pages/Login.jsx:75-80 | the stored object always has `Role`, `Name` and `Email`, the role being the role claim, and it has `Id` exactly when the id chain is defined |
| Login.Submit | src/pages/Login.jsx:26-107 | exactly one POST of the e-mail and password to `/Auth/login` is sent; the page moves on exactly when no error is shown, only after an OK reply, and only to `/home`; a failed login leaves the storage as it was; a `null` reply body shows the connection message |
| Login.SignedIn | src/pages/Login.jsx:43-44 | after signing in `token` and `userToken` hold the same text, and, unless the token was written as the empty text, the user counts as logged in and the login page is closed |
| Login.StoredUserData | src/pages/Login.jsx:47-96 | the stored `userData` is the object built from the claims when the token decodes to something truthy, else the fallback object |
| Login.StoredRoleFromClaims | src/pages/Login.jsx:50-96 | the role the dashboards read back is `User` for an unreadable token or one without role claims, and `Admin` for a token whose `role` claim is `Admin` |
| Login.MissingTokenStillSignsIn | src/pages/Login.jsx:43-44 | an OK reply without a token stores the text `undefined`, which every token check then accepts |
| Login.RefusalMessage | src/pages/Login.jsx:99-106 | a refusal without its own message reads `Invalid credentials` (a `null` body throws and reads as the connection message), stores nothing and stays on the page |
| DateUtils.PadStart | src/utils/dateUtils.js:10-11 | padding reaches the width without truncating: the original text ends the result and only the pad character precedes it |
| DateUtils.Pad2Digits | src/utils/dateUtils.js:31 | a month or day field renders as exactly two digits denoting its value |
| DateUtils.YearDigits | src/utils/dateUtils.js:31 | a four-digit year renders as exactly four digits denoting its value |
| DateUtils.ParseDateString | src/utils/dateUtils.js:30-32 | only a ten-character text with dashes at positions 4 and 7 reads back as a date |
| DateUtils.CreateDateStringRoundTrip | src/utils/dateUtils.js:30-32 | an in-range date renders as ten characters that read back as its year, its 1-based month and its day |
| DateUtils.CreateDateStringInjective | src/utils/dateUtils.js:30-32 | two in-range dates with the same rendering are the same date |
| DateUtils.ShapeOrder | src/utils/dateUtils.js:8-13 | two renderings of the same shape compare as strings exactly as the dates they denote compare |
| DateUtils.DateStringOrder | src/utils/dateUtils.js:8-13 | on in-range dates, `<` on the rendered strings is calendar order, the order the pages' string comparisons rely on |
| DateUtils.DaysInMonth | src/pages/Home.jsx:171 | a month has between 28 and 31 days |
| DateUtils.Weekday | src/pages/Home.jsx:170 | the weekday is between 0 and 6 |
| DateUtils.EpochWasThursday | src/pages/Home.jsx:170 | the day count puts 1 January 1970 on a Thursday, as the JavaScript clock does |
| DateUtils.DayNumberOrder | src/pages/BookingHistory.jsx:125-130 | on valid dates the day numbers follow calendar order and differ for different dates, so subtracting two local midnights counts the days between them |
| DateUtils.YearsInOrder | src/pages/BookingHistory.jsx:125-130 | every day of an earlier year comes before the first day of a later one |
| DateUtils.MonthsInOrder | src/pages/BookingHistory.jsx:125-130 | the months of a year follow each other without overlap |
| Seats.GenerateSeatLayout | src/pages/Bookings.jsx:26-71 | the map has 20 rows, numbered from 7, each built the same way from the booked-seat list |
| Seats.LayoutShape | src/pages/Bookings.jsx:35-69 | every row is A, B, C, the aisle gap, D, E, F; a seat's id is its row number followed by its letter; its type follows the cabin plan (outer seats windows, seats beside the aisle aisle seats, the rest middle) |
| Seats.OccupiedIffBooked | src/pages/Bookings.jsx:40-47 | a seat is occupied exactly when the booked list contains its id |
| Seats.OutsideIdsIgnored | src/pages/Bookings.jsx:40-58 | booked ids that name no seat of the grid make no difference to the map |
| Seats.FailOpenSameShape | src/pages/Bookings.jsx:72-101 | when the booked-seat fetch fails the map is the one for an empty booked list: same shape, every seat available |
| Seats.SeatIdInjective | src/pages/Bookings.jsx:40 | two seats with the same id are the same seat |
| Seats.RowStatusSplit | src/pages/Bookings.jsx:436-437 | every seat of a row is either available or occupied |
| Seats.LayoutStatusSplit | src/pages/Bookings.jsx:436-437 | available plus occupied seats is every seat of the map |
| Seats.GeneratedRowSeats | src/pages/Bookings.jsx:36-68 | a generated row has six seats |
| Seats.GeneratedRowAvailable | src/pages/Bookings.jsx:76-98 | with no seat booked all six seats of a row are available |
| Seats.SixAvailable | src/pages/Bookings.jsx:76-98 | a row of seven cells whose fourth is the aisle and whose others are available seats counts six available seats |
| Seats.GeneratedTotal | src/pages/Bookings.jsx:35-71 | the first `n` generated rows hold `6n` seats |
| Seats.FailOpenAvailable | src/pages/Bookings.jsx:72-101 | without booked seats the first `n` rows offer `6n` available seats |
| Seats.AvailableCounter | src/pages/Bookings.jsx:436-437 | the map always holds 120 seats split between the available counter and the occupied seats, and after a failed fetch the counter reads 120 |
| Seats.Without | src/pages/Bookings.jsx:202 | deselecting removes the seat, keeps every other selected seat in its order, adds nothing, and shortens a selection that held it |
| Seats.WithoutKeepsNoDuplicates | src/pages/Bookings.jsx:202 | deselecting keeps a selection free of duplicates |
| Seats.ToggleSeat | src/pages/Bookings.jsx:195-209 | a click on an occupied seat changes nothing; a selected seat is deselected, which leaves exactly the other selected seats in their order; an unselected seat is appended while there is room, otherwise nothing changes |
| Seats.ToggleKeepsValid | src/pages/Bookings.jsx:195-209 | one click keeps the selection valid: no seat twice, no more seats than passengers, only available seats of the map |
| Seats.ClicksKeepValid | src/pages/Bookings.jsx:195-209 | no run of clicks on the map breaks a valid selection |
| Seats.PassengerCount | src/pages/Bookings.jsx:22 | the passenger count is never 0, and a non-zero count that parses is used as it is |
| Seats.PassengerCountOfRendered | src/pages/Bookings.jsx:22 | a count the search page rendered in decimal reads back unchanged |
| Seats.DepartureTime | src/pages/Bookings.jsx:251-264 | a chosen date that parses gives 10:30 on that day; with neither a chosen date nor a flight departure it is two hours from now |
| Seats.ConfirmBooking | src/pages/Bookings.jsx:244-308 | the booking goes ahead exactly when as many seats as passengers are chosen and the departure time is valid; then the total is price times passengers, arrival is three hours after departure, and the draft and the query both carry the seats joined with `, ` and the passenger count |
| Seats.DraftRoundTrip | src/pages/Bookings.jsx:270-286 | the stored draft reads back exactly as it was written |
| PassengerDetails.InitialForms | src/pages/PassengerDetails.jsx:47-56 | one form per passenger (none for a count below one), numbered from 1, every field empty except the seat, which is the matching entry of the seat list |
| PassengerDetails.LoadForms | src/pages/PassengerDetails.jsx:16-60 | the page fails exactly when `flightId` is missing; otherwise it holds one form per passenger of the count the seat map uses |
| PassengerDetails.SeatIdHasNoComma | src/pages/Bookings.jsx:40 | a seat id of the grid never contains a comma |
| PassengerDetails.SeatHandoff | src/pages/PassengerDetails.jsx:55 | the seats chosen on the seat map reach the forms in order: form `i` shows the `i`-th chosen seat |
| PassengerDetails.JoinNonEmpty | src/pages/Bookings.jsx:274 | joining a list whose first entry is non-empty gives a non-empty text |
| PassengerDetails.FirstProblemSpec | src/pages/PassengerDetails.jsx:68-94 | the checks find nothing exactly when the passenger is valid, and each field (first name, last name, age, gender, nationality) is reported exactly when it fails and every field checked before it passes |
| PassengerDetails.WholeAgeAccepted | src/pages/PassengerDetails.jsx:79 | a whole-number age passes exactly when it lies in 1 to 120 |
| PassengerDetails.AgeAcceptedValue | src/pages/PassengerDetails.jsx:79 | an age passes exactly when it is not empty and is either not a number (every comparison with `NaN` is false) or a number between 1 and 120, fractions included |
| PassengerDetails.ValidatePassengers | src/pages/PassengerDetails.jsx:68-94 | the scan succeeds exactly when every passenger is valid; otherwise the message names the first failing field of the first invalid passenger, by its 1-based number |
| PassengerDetails.FirstErrorNoneIffValid | src/pages/PassengerDetails.jsx:68-94 | no message exactly when every passenger from the given one on is valid |
| PassengerDetails.FirstErrorReports | src/pages/PassengerDetails.jsx:68-94 | the submit path reports the same message as the scan: that of the first invalid passenger |
| PassengerDetails.BookingBody | src/pages/PassengerDetails.jsx:110-120 | the booking request carries exactly the draft's defined fields among the nine it names, with the draft's values |
| PassengerDetails.PassengerPayloads | src/pages/PassengerDetails.jsx:132-140 | one record per form, in order, passenger `i` getting seat `i+1` A whatever seat was chosen |
| PassengerDetails.Submit | src/pages/PassengerDetails.jsx:96-185 | an invalid passenger stops the submit with its message, no request and nothing raised; a stored draft that is `null` fails with the `TypeError` before any request; the page moves on only to `/payment` and only after both requests were answered OK; otherwise both storages are left as they were |
| PassengerDetails.CreateBooking | src/pages/PassengerDetails.jsx:105-131 | the first request is a POST of the booking body to `/Bookings`; an OK reply whose body is `null` fails with the `TypeError` and sends nothing more; nothing is written unless both requests succeed |
| PassengerDetails.SaveDetails | src/pages/PassengerDetails.jsx:130-177 | the passenger save follows the booking request; the page moves on exactly when the save is answered OK with JSON, and then the complete record replaces the draft and the payment flag is set |
| PassengerDetails.InvalidSendsNothing | src/pages/PassengerDetails.jsx:96-101 | one invalid passenger means no request, no change to either storage, no navigation and `isSubmitting` never raised |
| PassengerDetails.AllValidPasses | src/pages/PassengerDetails.jsx:68-94 | when every passenger is valid the validation lets the submit through |
| PassengerDetails.CompleteRecordSpec | src/pages/PassengerDetails.jsx:163-168 | the complete record keeps every draft field except the three it sets: the booking id, the forms and the save reply |
| PassengerDetails.SuccessStoresCompleteRecord | src/pages/PassengerDetails.jsx:159-177 | for a draft and a created booking that are not `null`, on success two requests went out, the complete record is stored, the draft is removed and the payment flag is set before moving to `/payment` |
| PassengerDetails.SaveFailureLeavesBooking | src/pages/PassengerDetails.jsx:155-157 | for a draft and a created booking that are not `null`, when the passenger save is refused nothing is written and no flag is set, although the booking the first request created stays: no request undoes it |
| PassengerDetails.MissingDraftStillSubmits | src/pages/PassengerDetails.jsx:107 | a missing draft is read as `{}` and the booking request still goes out, with an empty body |
| Payment.RefreshPassenger | src/pages/Payment.jsx:54-62 | a rebuilt passenger always has a seat number, and it is the fetched `seatNo` whenever that is truthy |
| Payment.RefreshAll | src/pages/Payment.jsx:54-62 | the refresh keeps the fetched list's length and order, each entry rebuilt on its own, and fails exactly when some entry cannot be rebuilt |
| Payment.LoadBooking | src/pages/Payment.jsx:21-87 | without a stored booking the user is sent home; whatever is shown came from a stored booking that parses |
| Payment.LoadKeepsOtherFields | src/pages/Payment.jsx:52-63 | a stored booking is always shown, and every field except `passengers` is shown as stored, whatever the reply |
| Payment.LoadFallsBackToStored | src/pages/Payment.jsx:66-84 | a failed fetch, or a booking without an id, shows the booking exactly as stored; a stored `null` sends the user home |
| Payment.SanitizeCardNumber | src/pages/Payment.jsx:374 | the card number holds digits only, at most sixteen, and a number already in that form is kept as typed |
| Payment.SanitizeCvv | src/pages/Payment.jsx:403 | the CVV holds digits only, at most four, and one already in that form is kept as typed |
| Payment.FormatExpiry | src/pages/Payment.jsx:386-391 | the expiry text is never longer than five characters |
| Payment.SanitizersIdempotent | src/pages/Payment.jsx:374-403 | passing what the inputs show through their filters again changes nothing |
| Payment.ExpiryShape | src/pages/Payment.jsx:386-391 | the expiry is empty, one digit, or two digits, a slash and up to two more digits; two digits alone always get the slash appended |
| Payment.ValidatePayment | src/pages/Payment.jsx:154-181 | no method chosen is always the first complaint; the CVV is only blamed for a card payment whose number is long enough |
| Payment.ValidatePaymentSpec | src/pages/Payment.jsx:154-181 | validation lets a payment through exactly when a method is chosen, a card payment has every field filled with a number of at least 16 and a CVV of at least 3 characters, and a UPI payment has an id |
| Payment.AcceptedCardShape | src/pages/Payment.jsx:160-173 | through the input filters, an accepted card payment carries exactly sixteen card digits and a three- or four-digit CVV |
| Payment.Pay | src/pages/Payment.jsx:183-217 | processing starts exactly when validation passes; a refused payment keeps the completion flag and does not navigate; a payment that goes ahead sets the completion flag and moves to `/booking-confirmation` with the booking, `paymentSuccess` and the method in the navigation state |
| Payment.Abandon | src/pages/Payment.jsx:114-145 | with no stored booking nothing happens; the stored booking is either kept or removed and nothing else changes; every request sent is a DELETE |
| Payment.Leave | src/pages/Payment.jsx:92-103 | after payment, leaving the page changes nothing and sends nothing |
| Payment.AbandonDeletesInOrder | src/pages/Payment.jsx:121-139 | leaving an unpaid booking with an id deletes its passengers, then the booking, by that id, and forgets the stored copy while keeping every other stored entry |
| Payment.PaidBookingSurvivesLeaving | src/pages/Payment.jsx:92-103 | after an accepted payment leaving deletes nothing; after a refused one leaving still cleans up |
| Payment.FailedCleanupKeepsRecord | src/pages/Payment.jsx:121-144 | when the first DELETE fails on the network, the stored copy stays and the booking's own DELETE is never sent |
| Flights.ToInt32 | src/pages/Flights.jsx:221-226 | `hash & hash` brings a value into the signed 32-bit range and changes it only by a multiple of 2^32 |
| Flights.ToInt32Congruent | src/pages/Flights.jsx:221-226 | adding any multiple of 2^32 before the 32-bit truncation does not change the result |
| Flights.HashStepIs31 | src/pages/Flights.jsx:224-225 | one step `((hash << 5) - hash) + char` followed by `hash & hash` is the 31-multiplier string hash step taken modulo 2^32 |
| Flights.RouteHash | src/pages/Flights.jsx:221-226 | the route hash always stays a signed 32-bit integer |
| Flights.RouteHashIs31 | src/pages/Flights.jsx:221-226 | on every route, the hash as written equals the textbook 31-multiplier hash |
| Flights.ComputeRouteHash | src/pages/Flights.jsx:221-226 | the character loop computes the 31-multiplier hash of the route and never leaves 32 bits |
| Flights.FindAirline | src/pages/Flights.jsx:41-42 | a found airline is one of the seven and has the name searched for; no airline is found only when none of them has that name |
| Flights.AirlineInfo | src/pages/Flights.jsx:27-57 | a real airline name is kept; a missing name or `Unknown Airline` becomes the airline the route hash picks; the result is one of the seven airlines or has the plane logo and code `XX` |
| Flights.FlightNumberShape | src/pages/Flights.jsx:60-70 | a generated flight number is the airline code followed by four digits that read back as a number between 1000 and 9998 |
| Flights.GeneratedDetailsDependOnRouteOnly | src/pages/Flights.jsx:47-54 | for a flight without an airline, the airline and flight number depend only on the route |
| Flights.Code | src/pages/Flights.jsx:73-150 | every airport code in the duration table has three letters and no dash |
| Flights.AirportOf | src/pages/Flights.jsx:73-150 | a text names an airport exactly when it is that airport's code |
| Flights.KeyNamesPair | src/pages/Flights.jsx:148-149 | the key `${origin}-${destination}` equals a table key exactly when origin and destination are the two airports' codes |
| Flights.TableCoversPairs | src/pages/Flights.jsx:73-147 | the table has an entry for every ordered pair of different airports and none for an airport to itself |
| Flights.DurationSymmetric | src/pages/Flights.jsx:73-150 | a flight back takes as long as the flight out, including the default for pairs outside the table |
| Flights.DurationsWellFormed | src/pages/Flights.jsx:73-150 | every duration in the table, and the default, is at least one hour and has fewer than sixty minutes |
| Flights.DepartureClock | src/pages/Flights.jsx:203-210 | a generated departure falls between 06:00 and 21:45, on a quarter hour |
| Flights.Stops | src/pages/Flights.jsx:221-240 | a stops value the API sent is kept, even `null` or `0`; otherwise the flight gets 1 stop exactly when the route hash modulo 10 is below 3, and 0 stops otherwise |
| Flights.DurationParts | src/pages/Flights.jsx:350-380 | a duration is shown exactly when both times are present and the arrival is later; it is then whole hours plus whole minutes under 60 that together do not exceed the difference and come within one minute of it |
| Flights.GeneratedArrivalShowsTableDuration | src/pages/Flights.jsx:152-175 | an arrival generated from the table is shown as exactly the table's duration after departure |
| Flights.MultiplierTenths | src/pages/Flights.jsx:190-196 | no travel class costs less than the base price |
| Flights.AdjustedPrice | src/pages/Flights.jsx:197 | the price times the class multiplier, rounded half up to a whole number |
| Flights.ClassPricesOrdered | src/pages/Flights.jsx:190-197 | Economy and any unknown class keep the price; for a non-negative price, Premium Economy, Business and First Class each cost at least as much as the class before |
| Flights.Enhance | src/pages/Flights.jsx:184-245 | an enhanced flight keeps its id, origin and destination; it also keeps any departure, arrival or flight number the API sent, except an arrival equal to the departure; its display id starts with the route key and a dash, and a missing departure is generated from the route key |
| Flights.DisplayId | src/pages/Flights.jsx:234 | the display id starts with the route key and a dash |
| Flights.RouteWritesAbsentEnds | src/pages/Flights.jsx:185 | the route key writes both ends as template text: a flight without an origin gets a display id starting `undefined-`, and its generated departure is the clock of the route `undefined-{destination}` |
| Flights.AbsentOriginKey | src/pages/Flights.jsx:185 | without an origin the route key is `undefined-` followed by the destination's text |
| Flights.BareFlightGenerated | src/pages/Flights.jsx:199-218 | a flight with only a route gets a departure on a quarter hour between 06:00 and 21:45, and an arrival the table's duration later |
| Flights.FilterFlights | src/pages/Flights.jsx:383-404 | the filtered list keeps order, contains only flights that match the cities and the stops filter, and drops none that match |
| Flights.InsertByKey | src/pages/Flights.jsx:405-424 | inserting a flight adds exactly that flight to the list |
| Flights.InsertKeepsSorted | src/pages/Flights.jsx:405-424 | inserting into a list in key order keeps it in key order |
| Flights.InsertAbove | src/pages/Flights.jsx:405-424 | a lower bound of the inserted flight's key and of every listed key bounds every key after the insertion |
| Flights.SortByKeySorted | src/pages/Flights.jsx:405-424 | sorting by a key yields a list in non-decreasing key order |
| Flights.SortByKeyPermutes | src/pages/Flights.jsx:405-424 | sorting by a key keeps exactly the same flights, each as often as before |
| Flights.SortByKeySpec | src/pages/Flights.jsx:405-424 | sorting by a key returns the same flights, in non-decreasing key order |
| Flights.SortedUnchanged | src/pages/Flights.jsx:405-424 | the sort is stable: a list already in key order is returned unchanged |
| Flights.SortedByPrice | src/pages/Flights.jsx:407-411 | sorting by price lists the same flights, cheapest first |
| Flights.NoCriteriaKeepsAll | src/pages/Flights.jsx:386-400 | with no city terms and the `all` filter, every flight is listed, in order |
| Flights.FilterStable | src/pages/Flights.jsx:383-404 | filtering an already filtered list changes nothing |
| Flights.DirectAndStopsPartition | src/pages/Flights.jsx:401-402 | for a numeric stop count, each flight is in exactly one of the `direct` and `stops` filters |
| Flights.SearchIgnoresCase | src/pages/Flights.jsx:387-397 | a city term matches when the lower-cased city contains the lower-cased term |
| FlightOwner.CheckAccess | src/pages/FlightOwner.jsx:47-82 | the dashboard sends the visitor to `/login` exactly when there is no `userToken`; with a token it loads only for a `userData` whose `Role` is exactly `Flightowner`, and user data that is not JSON is denied |
| FlightOwner.AccessMatchesRouteGate | src/pages/FlightOwner.jsx:55-72 | when a `userToken` is present, the page admits exactly the users that the `Flightowner` role gate of its route admits |
| FlightOwner.NormalizeUserSpec | src/pages/FlightOwner.jsx:152-160 | a truthy camelCase field wins over its PascalCase spelling; every user ends up with a truthy role, `User` when neither spelling is truthy; fields the normalisation does not name are kept |
| FlightOwner.LoadUsers | src/pages/FlightOwner.jsx:98-175 | there is one user row per record loaded from `Admin/users`, or from `Auth/users` when that fails, built from that record and kept in order; data that is not an array, or an array holding `null` or `undefined`, leaves the table empty, since normalising such an element throws |
| FlightOwner.BookingDefaults | src/pages/FlightOwner.jsx:368-379 | a booking without any passenger count counts one passenger |
| FlightOwner.BookingStatusDefaults | src/pages/FlightOwner.jsx:368-379 | a booking without a status is `Confirmed`; a truthy status is kept |
| FlightOwner.LoadBookings | src/pages/FlightOwner.jsx:314-394 | there is one booking row per record loaded from `Admin/bookings`, or from `bookings` when that fails, built from that record and kept in order; data that is not an array, or an array holding `null` or `undefined`, leaves the table empty, since normalising such an element throws |
| FlightOwner.FlightBookingsMembers | src/pages/FlightOwner.jsx:271-272 | a booking is counted for a flight exactly when it was loaded and its flight id equals the flight's id |
| FlightOwner.NoBookingsListed | src/pages/FlightOwner.jsx:271-272 | a flight that no booking names has no bookings listed |
| FlightOwner.LoadFlights | src/pages/FlightOwner.jsx:176-311 | there is one flight row per loaded flight, in order, each computed from that flight and all loaded bookings; flight data that is not an array, or a `null` flight or booking whose fields the seat count reads, leaves the table empty |
| FlightOwner.SeatColumns | src/pages/FlightOwner.jsx:270-298 | capacity is 120; available seats are never negative; booked and available add up to 120 while the bookings fit; a flight without bookings shows 120 free seats, the name `Flight {id}` and its own departure time |
| FlightOwner.BookedAtLeastBookings | src/pages/FlightOwner.jsx:273 | when every booking books at least one seat, the booked column is at least the number of bookings for the flight |
| FlightOwner.ZeroCountIsOne | src/pages/FlightOwner.jsx:273 | a passenger count of `0` is falsy, so such a booking is counted as one seat |
| FlightOwner.FilterTables | src/pages/FlightOwner.jsx:550-566 | each table keeps its order and shows a row exactly when one of its searched fields contains the search text |
| FlightOwner.EmptySearchesShowAll | src/pages/FlightOwner.jsx:550-566 | empty searches show every row of every table, in order |
| FlightOwnerNew.CheckAccess | src/pages/FlightOwner.new.jsx:51-72 | the page sends the visitor to `/login` exactly when there is no `userToken`; it admits only user data that parses as JSON |
| FlightOwnerNew.LoginDataNeverAdmitted | src/pages/FlightOwner.new.jsx:61 | after any successful sign-in through the login page, the check as written never admits the user, whatever role the token claims, because the login page stores `Role` and never a lower-case `role` (see Findings) |
| FlightOwnerNew.CorrectedAccess | src/pages/FlightOwner.new.jsx:51-72 | the check with the key the login page writes still sends a visitor without `userToken` to `/login` |
| FlightOwnerNew.CorrectedAdmitsLoginOwner | src/pages/Login.jsx:75-80 | with the corrected key, a sign-in whose token claims the role `Flightowner` is admitted |
| FlightOwnerNew.IndexLastWins | src/pages/FlightOwner.new.jsx:146-156 | an object filled in a `forEach` has a key exactly when some element gives an entry for it, and holds the value from the last such element |
| FlightOwnerNew.ReadableItems | src/pages/FlightOwner.new.jsx:141-164 | items are read only from an OK reply whose JSON body is an array without `null` or `undefined` elements |
| FlightOwnerNew.LoadFlightNames | src/pages/FlightOwner.new.jsx:125-166 | the names are fetched with one `GET /Flights/names`; they are replaced exactly when the reply's items can be read, and otherwise the names shown before stay |
| FlightOwnerNew.LoadFlightTimings | src/pages/FlightOwner.new.jsx:168-200 | the timings are fetched with one `GET /Bookings/all`; they are replaced exactly when the reply's items can be read |
| FlightOwnerNew.NamesFromLastItem | src/pages/FlightOwner.new.jsx:145-156 | a flight has no name exactly when no item with a truthy id and name names it; otherwise its name comes from the last such item |
| FlightOwnerNew.TimingsFromLastBooking | src/pages/FlightOwner.new.jsx:183-191 | a flight's times come from the last booking for it that has both a departure and an arrival time |
| FlightOwnerNew.SeatsBookedSum | src/pages/FlightOwner.new.jsx:242-258 | the count kept for a flight is the sum of the seats listed in that flight's bookings |
| FlightOwnerNew.SeatAvailability | src/pages/FlightOwner.new.jsx:264-272 | every flight passed in, and nothing else, gets an entry, and each entry is the seats left out of 120 (which flights the page passes in is the second Findings row) |
| FlightOwnerNew.LoadSeatAvailability | src/pages/FlightOwner.new.jsx:202-281 | without a token nothing is fetched or changed; with one, the bookings are fetched once, and the seats are replaced exactly when both the bookings and the flights can be read |
| FlightOwnerNew.AsWrittenFirstLoadShowsLoading | src/pages/FlightOwner.new.jsx:107-112 | as written, the first load computes the seat map over the initial empty `flights`, so every loaded flight's seat column reads `Loading...` whatever the bookings say (see Findings) |
| FlightOwnerNew.CorrectedLoadShowsSeats | src/pages/FlightOwner.new.jsx:264-272 | computed over the flights just loaded, each of them shows `{seats left} / 120` once the token is present and the bookings and flights can be read |
| FlightOwnerNew.SeatsLeft | src/pages/FlightOwner.new.jsx:264-272 | each flight passed in shows between 0 and 120 seats left: 120 minus its bookings' seats while they fit, and 120 when none of its bookings lists a seat |
| FlightOwnerNew.SumOfZero | src/pages/FlightOwner.new.jsx:253 | bookings that all contribute no seats sum to zero |
| FlightOwnerNew.PaddedLabel | src/pages/FlightOwner.new.jsx:250 | a seat label with at most one leading space has no comma and trims back to the label |
| FlightOwnerNew.MapCons | src/pages/FlightOwner.new.jsx:250 | mapping over a list with a head maps the head, then the rest |
| FlightOwnerNew.JoinCons | src/pages/Bookings.jsx:274 | labels joined with `", "` are the first label, a comma, and the rest of the list after one space |
| FlightOwnerNew.CommaSpace | src/pages/Bookings.jsx:274 | the `", "` separator is a comma followed by one space |
| FlightOwnerNew.SplitJoinedLabels | src/pages/FlightOwner.new.jsx:250 | splitting a `", "`-joined list of seat labels at commas and trimming each piece gives back exactly the labels, in order |
| FlightOwnerNew.JoinedEnds | src/pages/Bookings.jsx:274 | a joined seat list starts with the first label's first character and ends with the last label's last character |
| FlightOwnerNew.JoinedSeatsCount | src/pages/FlightOwner.new.jsx:245-258 | a seat list written by the booking page counts exactly one seat per label |
| FlightOwnerNew.JoinedTrimmed | src/pages/FlightOwner.new.jsx:247-249 | a joined seat list is not blank and is unchanged by trimming |
| FlightOwnerNew.JoinedTokens | src/pages/FlightOwner.new.jsx:250 | the non-empty trimmed comma pieces of a joined seat list are exactly its labels |
| FlightOwnerNew.BlankSeatsCountNothing | src/pages/FlightOwner.new.jsx:247-249 | a blank seat list counts no seats |
| FlightOwnerNew.FilterTables | src/pages/FlightOwner.new.jsx:442-461 | each table keeps its order and shows a row exactly when one of its searched fields matches the search |
| FlightOwnerNew.EmptySearchesShowAll | src/pages/FlightOwner.new.jsx:442-461 | empty searches show every row of every table, in order |
| FlightOwnerNew.UsersWithoutTextHidden | src/pages/FlightOwner.new.jsx:449-454 | a non-empty search never shows a user whose name, email and role are all non-text |
| FlightOwnerNew.Logout | src/pages/FlightOwner.new.jsx:433-439 | logging out removes exactly `userToken`, `userData`, `token` and `user`, and leaves every other entry as it was |
| FlightOwnerNew.LogoutKeepsFlags | src/pages/FlightOwner.new.jsx:433-439 | after this logout every guarded page redirects to `/login`, but the session flags survive, so the next sign-in reopens exactly the pages whose flag was set |
| Admin.CheckAccess | src/pages/Admin.jsx:43-74 | the dashboard sends the visitor to `/login` exactly when there is no `userToken` |
| Admin.AccessMatchesRouteGate | src/pages/Admin.jsx:51-65 | when a `userToken` is present, the page admits exactly the users that the `Admin` role gate of `/admin` admits |
| Admin.LoadList | src/pages/Admin.jsx:87-115 | each list load sends one `GET`; the list is the reply's JSON when the reply is OK and that JSON is truthy, and it is the empty array when the request fails or the reply is not OK |
| Admin.LoadDashboard | src/pages/Admin.jsx:79-200 | the dashboard asks for users, flights and `Admin/bookings`, and asks the fallback `bookings` exactly when `Admin/bookings` answers with an error status |
| Admin.TotalsAddUp | src/pages/Admin.jsx:887-893 | each booking adds its own amount to the revenue card and its own count to the passengers card; a booking without an amount adds no revenue, and one with neither count adds no passengers |
| Admin.CancelBooking | src/pages/Admin.jsx:242-266 | without confirmation nothing happens; once confirmed, exactly one `DELETE Admin/booking/{id}` is sent and an alert is always shown; the list changes only on an OK reply; a refusal whose body is `null` shows the generic error, since reading its `message` throws |
| Admin.CancelBookingRemoves | src/pages/Admin.jsx:255-257 | an accepted delete keeps, in order, exactly the bookings with another id, and the revenue and passenger cards drop by exactly the removed bookings' figures |
| Admin.FailedCancelKeeps | src/pages/Admin.jsx:258-265 | a refused or failed delete keeps every booking; a failed request, or a refusal whose body is missing or `null`, shows `Error deleting booking. Please try again.`; any other refusal without a message reports `Unknown error` |
| Admin.EditFlight | src/pages/Admin.jsx:270-278 | editing remembers the flight's id and puts its text origin and its truthy price in the form |
| Admin.PriceNumber | src/pages/Admin.jsx:302 | the price sent is always a number or `null`, and a number already in the form is sent unchanged |
| Admin.PayloadKeepsOtherFields | src/pages/Admin.jsx:298-303 | the update payload is the original flight with only origin and destination (trimmed) and price (as a number) replaced |
| Admin.ThreeUpdates | src/pages/Admin.jsx:298-303 | setting origin, destination and price in a flight's fields changes those three keys and no other |
| Admin.FindFlight | src/pages/Admin.jsx:290-295 | a found flight is in the list and has the edited id; none is found only when no flight has that id |
| Admin.SaveSendsOnlyComplete | src/pages/Admin.jsx:280-358 | a request is sent exactly when every field is filled and the edited flight is still in the list; the request is `PUT Flights/{id}` carrying that flight with the form's fields; only an OK reply closes the editor and reloads |
| Admin.UnchangedEditSendsFlight | src/pages/Admin.jsx:270-303 | saving an edit without changing anything sends the flight exactly as it was loaded, when its places are trimmed text and its price a positive number |
| Admin.EditFilledFlight | src/pages/Admin.jsx:268-279 | a flight whose places are non-empty text and whose price is truthy opens the editor with exactly those fields |
| Admin.SaveSendsFound | src/pages/Admin.jsx:281-303 | a filled form for a flight in the list sends that flight with the form's fields in one `PUT Flights/{id}` |
| Admin.SameFieldsSameFlight | src/pages/Admin.jsx:298-303 | a form holding exactly the flight's own fields rebuilds the flight unchanged |
| Admin.FindFirst | src/pages/Admin.jsx:290 | `find` returns the first flight with the id |
| Admin.RewriteSame | src/pages/Admin.jsx:298-303 | spreading a field back with its own value leaves the object unchanged |
| Admin.TypedPriceSent | src/pages/Admin.jsx:302 | a price typed as the digits of a whole number is sent as that number |
| Admin.CancelledEditSendsNothing | src/pages/Admin.jsx:360-363 | after an edit is cancelled, saving sends nothing and asks for all fields |
| Admin.DeleteItem | src/pages/Admin.jsx:373-411 | a request is sent exactly when the delete is confirmed and the kind is `user` or `flight`; a list is reloaded exactly when that request succeeds; an alert is shown exactly when a request was sent |
| Admin.DeleteTargets | src/pages/Admin.jsx:381-399 | a user is deleted at `Auth/user/{id}` and the users are reloaded; a flight is deleted at `Flights/{id}` and the flights are reloaded |
| Admin.FilterTables | src/pages/Admin.jsx:422-442 | each table keeps its order and shows a row exactly when one of its searched fields matches the search |
| Admin.EmptySearchesShowAll | src/pages/Admin.jsx:422-442 | empty searches show every row of every table, in order |
| Js.OrSpec | src/pages/FlightOwner.jsx:154-159 | a chain of logical-or operands is truthy exactly when one of its operands is; it yields the first operand when that one is truthy, and the last operand when none is |
| Js.InterpolateTruthy | src/pages/FlightOwner.new.jsx:247 | a truthy value other than an array never interpolates to the empty text, while an empty array does |
| Js.ParseItemOrEmpty | src/pages/Admin.jsx:51 | parsing a stored entry, with `'{}'` standing in for a missing one, gives the empty object for a missing or empty entry and the stored value for a JSON entry; it throws exactly on a non-empty entry that is not JSON |
| Js.StoreThenParse | src/pages/PassengerDetails.jsx:107 | an entry written with `JSON.stringify` reads back with `JSON.parse` as the same value |
| Strings.Trim | src/pages/Admin.jsx:300-301 | trimming never lengthens a text, leaves no white space at either end, and leaves a text without white space unchanged; white space is JavaScript's set, with the ASCII spaces, the byte-order mark, the line separators and every Unicode space separator |
| Strings.TrimPaddedWord | src/pages/Admin.jsx:300-301 | white space around a word that neither starts nor ends with white space is exactly what trimming removes |
| Strings.TrimsSpaceSeparators | src/pages/Admin.jsx:300-301 | an ideographic space on either side of `Delhi` is trimmed away, as JavaScript trims every Unicode space separator |
| Strings.TrimIsMiddle | src/pages/Admin.jsx:300-301 | the trimmed text is a slice of the text with only white space before it and after it |
| Strings.TrimMiddle | src/pages/Admin.jsx:300-301 | a prefix of a suffix is a slice at the suffix's offset, and white space after the prefix stays white space in the whole text |
| Strings.TrimEmptyMeansBlank | src/pages/Signup.jsx:68-69 | a text that trims to nothing was white space only |
| Strings.ParseIntOfNat | src/pages/Bookings.jsx:271 | `parseInt` of a natural number's decimal text gives back the number |
| Strings.SplitJoin | src/pages/FlightOwner.new.jsx:250 | splitting a joined list at its separator gives back the list, when no element contains the separator's first character |
| DateUtils.ShapeRoundTrip | src/utils/dateUtils.js:30-32 | four digits, a dash, two digits, a dash and two digits form a ten-character date text that reads back as those three values |
| DateUtils.DayOfYear | src/pages/BookingHistory.jsx:125-130 | a valid date falls on a day between the first and the last of its year |

## Left out

- Network I/O: `fetch` and the `api.js` wrappers are not modelled. Each reply is a parameter, and a thrown `response.json()` on a non-JSON body is a reply without a body.
- React: hooks, re-render timing and effect ordering are not modelled. The one place where this matters, the stale `flights` list that `loadSeatAvailability` in `FlightOwner.new.jsx` reads on the first load, is the second Findings row. Its effect is modelled by `FlightOwnerNew.SeatsAfterLoad`.
- Browser history and event listeners: `popstate`, `beforeunload` and `pushState` are explicit events on explicit state.
- `ProtectedRoute`: the component is not part of this model. Its verdict is an input to route resolution.
- Dates and time zones: `new Date`, `toISOString`, `toLocale*` and daylight-saving effects are not modelled. Calendar dates are integer day numbers and instants are integer milliseconds; parsing a date text is a parameter.
- Floating point: prices are whole rupees. Class multipliers are exact tenths with half-up rounding, and `parseFloat` reads whole numbers.
- `Number` and `parseFloat`: exponent notation and `Infinity` are not recognised.
- JWT decoding: `atob`, the UTF-8 percent-decoding and `JSON.parse` are one decoding parameter. The model only fixes which segment is decoded.
- Character handling: `toLowerCase` folds ASCII letters only, and lengths count characters rather than UTF-16 code units.
- Js.Fields: spreading a string or an array into an object (`{...v}`) copies nothing in the model; JavaScript copies their index keys. The pages spread stored booking records, which they write as objects.
- Interpolation: `${v}` and `toString()` join an array's elements with commas and write any other object as `[object Object]`. A user-defined `toString` is not modelled.
- Reads of a field of `null`: a `null` reply body, stored value or list element is the thrown `TypeError` it is on Login, Signup, Payment, PassengerDetails, Home's role check, Admin's booking cancellation, FlightOwnerRefunds and the `FlightOwner.jsx` loads. In the role checks of Admin, BookingHistory, `FlightOwner.jsx`, `FlightOwner.new.jsx` and `RoleProtectedRoute`, a stored `null` user reads as having no role. Each of those catch branches denies access in the same way, so the model keeps the simpler reading there. A `null` element inside a flight or booking list that the Flights, BookingHistory or Admin pages only render shows blank fields in the model; in JavaScript the render itself throws.
- FlightOwner.BookedCount: a truthy `passengerCount` or `passengers` held as text counts as 0 seats. JavaScript would concatenate it into the sum, so one booking with `"21"` shows `021` booked and 99 free, where the model shows 0 and 120.
- Admin.EditFlight: an origin or destination that is not text is put in the form as the empty text, so saving shows the fill-in message. In JavaScript, `.trim()` on it throws and the alert reports a network error.
- Seats.ConfirmBooking: prices are whole numbers, so the `NaN` total of a price that is not a number is not modelled.
- Strings.ParseInt: `parseInt` without a radix reads a `0x` prefix as hexadecimal. The model reads only decimal digits, so `"0x1A"` gives 0.
- Flights.CityText: a truthy origin or destination that is not text is searched through its text. In JavaScript, `.toLowerCase()` on it throws.
- Searches: a search over a field that is not text (`v?.toLowerCase()` on a number) is treated as no match rather than as a thrown error.
- Clock and randomness: the millisecond clock behind ticket numbers and the `Math.random` calendar prices on the home page are not modelled; the clock is a parameter and the prices are presentation.
- Number formatting: the `en-IN` formatting of amounts is not modelled; the messages carry the numeric value.
- Presentation: ticket printing, colour thresholds, the simulated payment delay and the navigation bar are not modelled.
- `FlightOwner.jsx` flight editing: adding, updating and deleting flights (`src/pages/FlightOwner.jsx:395-531`) is a set of request wrappers with no logic of its own beyond what `Admin` models for its edit and delete.
- `FlightOwner.new.jsx` lists and edits: its `loadFlights`, `loadUsers`, `loadBookings` and its flight edit/add/delete handlers are plain request wrappers and are not modelled; its index loads, seat counts, searches and logout are modelled.
- `Admin.jsx` booking view: `handleViewBooking` only fetches and displays one booking, so it is not modelled.
- Logout on `FlightOwner.jsx` and `Admin.jsx`: both remove the same entries as `Home.Logout`, which models them.
- Identity: `===` on ids is modelled as value equality of JSON values, so two distinct objects with equal contents compare equal. The pages only compare numbers and strings this way.
- Admin.TotalsAddUp: amounts and counts are read as numbers. A text amount, which JavaScript would concatenate, is not modelled.
- Flights.SortFlights: the duration and departure keys are differences of `Date` values and are passed in as key functions. Only the price key is computed by the model.
- Unrouted duplicate dashboards (`FlightOwner_new.jsx`, `FlightOwnerClean.jsx`, `FlightOwner.backup.jsx`, `FlightOwnerSimple.jsx`) and `PaymentTest.jsx` are not modelled. The route table mounts none of them.

## Findings

| source | as written | input that shows it | evidently intended | confidence | as-written member | corrected member |
|---|---|---|---|---|---|---|
| src/components/RouteGuard.jsx:33-55 | The passenger-details guard requires the session flag `fromBookings`, and the confirmation guard requires `fromPayment`. No page ever writes either flag: the seat map navigates at `src/pages/Bookings.jsx:302`, and the payment page at `src/pages/Payment.jsx:203`, without setting them. Only `fromPassengerDetails` is written (`src/pages/PassengerDetails.jsx:174`). | A logged-in user confirms seats on the seat map and is sent to `/passenger-details`; the guard redirects to `/home`. | The seat map sets `fromBookings` and the payment page sets `fromPayment` before navigating, so each guarded flow page opens in turn. | high, not executed | Flow.AsWrittenFlowUnreachable | Flow.CorrectedFlowReachesEachPage |
| src/pages/FlightOwner.new.jsx:61 | The role check reads the lower-case key `userData.role`, but the login page stores the role under `Role` (`src/pages/Login.jsx:75-80`). | A successful sign-in whose token carries the role claim `Flightowner`, followed by a visit to this dashboard, which shows the access-denied alert. | Read `userData.Role`, as `src/pages/FlightOwner.jsx:58` does. | high, not executed | FlightOwnerNew.LoginDataNeverAdmitted | FlightOwnerNew.CorrectedAdmitsLoginOwner |
| src/pages/FlightOwner.new.jsx:264-272 | On the first load, `loadSeatAvailability` runs right after `setFlights` (lines 107 and 112). It reads the `flights` of the render that started the load, which is still the initial empty list, so the seat map it builds is empty. The table shows `Loading...` for a flight without an entry (line 711). | The owner opens the flights tab for the first time with one flight and no bookings; its seat column reads `Loading...` rather than `120 / 120`. | Pass the flights just loaded to `loadSeatAvailability`, so each flight shows its seats left. | high, not executed | FlightOwnerNew.AsWrittenFirstLoadShowsLoading | FlightOwnerNew.CorrectedLoadShowsSeats |

=== FILE: admin.dfy ===
/** `pages/Admin.jsx`, the admin dashboard mounted at `/admin`: its role check, the three list
    loads, the booking totals, deleting a booking, editing a flight, deleting a user or a flight,
    and the three table searches. */
module Admin {
  import opened Wrappers
  import opened Strings
  import opened Js
  import opened Dashboards
  import Guards

  // ---------------------------------------------------------------------------
  // Access and loading
  // ---------------------------------------------------------------------------

  /** `checkAdminRole`: `userToken` is required, then `userData.Role` must be exactly `Admin`;
      user data that is not JSON is denied. */
  function CheckAccess(local: Storage): (r: Access)
    ensures !ItemTruthy(local, "userToken") <==> r == ToLogin
  {
    if !ItemTruthy(local, "userToken") then ToLogin
    else match ParseItemOrEmpty(local, "userData")
      case None => Denied
      case Some(userData) => if Get(userData, "Role") == Str("Admin") then Granted else Denied
  }

  /** With `userToken` present the page admits exactly the users the `/admin` route admits. */
  lemma AccessMatchesRouteGate(local: Storage)
    requires ItemTruthy(local, "userToken")
    ensures CheckAccess(local) == Granted <==> Guards.RoleProtected(local, ["Admin"]) == Guards.Render
  {
  }

  /** `data || []` from one `GET`: the reply's JSON when it is OK and truthy, else the empty
      array (a failed request, a reply that is not OK or not JSON). */
  function LoadList(path: string, reply: Response): (r: (JsVal, seq<Call>))
    ensures r.1 == [Call("GET", path, Undefined)]
    ensures Truthy(r.0)
    ensures Ok(reply) && reply.body.Some? && Truthy(reply.body.value) ==> r.0 == reply.body.value
    ensures !(Ok(reply) && reply.body.Some?) ==> r.0 == Arr([])
  {
    var calls := [Call("GET", path, Undefined)];
    if Ok(reply) && reply.body.Some? && Truthy(reply.body.value) then (reply.body.value, calls)
    else (Arr([]), calls)
  }

  /** `loadUsers`, `loadFlights` and `loadBookings`; bookings fall back to `bookings` when
      `Admin/bookings` answers with an error. */
  function LoadDashboard(users: Response, flights: Response, bookings: Response, fallback: Response): (r: (JsVal, JsVal, JsVal, seq<Call>))
    ensures |r.3| >= 3 && r.3[..3] == [Call("GET", "/Auth/users", Undefined), Call("GET", "/Flights", Undefined),
                                       Call("GET", "/Admin/bookings", Undefined)]
    ensures |r.3| == 4 <==> bookings.Reply? && !Ok(bookings)
  {
    var (u, c1) := LoadList("/Auth/users", users);
    var (f, c2) := LoadList("/Flights", flights);
    var (b, c3) := LoadWithFallback("/Admin/bookings", "/bookings", bookings, fallback);
    (u, f, if Truthy(b) then b else Arr([]), c1 + c2 + c3)
  }

  // ---------------------------------------------------------------------------
  // Booking totals
  // ---------------------------------------------------------------------------

  /** `booking.totalAmount || 0`, amounts being numbers. */
  function Amount(b: JsVal): int {
    AsNum(Or([Get(b, "totalAmount"), Num(0)]))
  }

  /** `booking.passengerCount || booking.passengers || 0`. */
  function PassengerCount(b: JsVal): int {
    AsNum(Or([Get(b, "passengerCount"), Get(b, "passengers"), Num(0)]))
  }

  /** The revenue card. */
  function Revenue(bookings: seq<JsVal>): int {
    SumOf(bookings, Amount)
  }

  /** The passengers card. */
  function Passengers(bookings: seq<JsVal>): int {
    SumOf(bookings, PassengerCount)
  }

  /** Each card adds the booking's own figure for one more booking; a booking with neither count
      adds no passengers, and one without an amount adds no revenue. */
  lemma TotalsAddUp(bookings: seq<JsVal>, b: JsVal)
    ensures Revenue(bookings + [b]) == Revenue(bookings) + Amount(b)
    ensures Passengers(bookings + [b]) == Passengers(bookings) + PassengerCount(b)
    ensures !Truthy(Get(b, "totalAmount")) ==> Amount(b) == 0
    ensures (!Truthy(Get(b, "passengerCount")) && !Truthy(Get(b, "passengers"))) ==> PassengerCount(b) == 0
    ensures Truthy(Get(b, "passengerCount")) ==> PassengerCount(b) == AsNum(Get(b, "passengerCount"))
  {
    SumOfAppend(bookings, [b], Amount);
    SumOfAppend(bookings, [b], PassengerCount);
    assert SumOf([b], Amount) == Amount(b);
    assert SumOf([b], PassengerCount) == PassengerCount(b);
    OrSpec([Get(b, "totalAmount"), Num(0)]);
    OrSpec([Get(b, "passengerCount"), Get(b, "passengers"), Num(0)]);
  }

  // ---------------------------------------------------------------------------
  // Deleting a booking
  // ---------------------------------------------------------------------------

  /** The bookings list, the requests sent and the alert shown. */
  datatype Removal = Removal(bookings: seq<JsVal>, calls: seq<Call>, alert: Option<string>)

  const Deleted: string := "Booking deleted successfully"
  const DeleteError: string := "Error deleting booking. Please try again."

  /** `handleCancelBooking`: after the confirmation, `DELETE Admin/booking/{id}`; an OK reply
      drops every booking with that id; a refusal shows its `message` (or `Unknown error`); a
      failed request, a refusal that is not JSON, or a `null` refusal body (reading its `message`
      throws) shows the generic error. */
  function CancelBooking(bookings: seq<JsVal>, id: JsVal, confirmed: bool, reply: Response): (r: Removal)
    ensures !confirmed ==> r == Removal(bookings, [], None)
    ensures confirmed ==> r.calls == [Call("DELETE", "/Admin/booking/" + Interpolate(id), Undefined)] && r.alert.Some?
    ensures r.bookings != bookings ==> Ok(reply)
  {
    if !confirmed then Removal(bookings, [], None)
    else
      var calls := [Call("DELETE", "/Admin/booking/" + Interpolate(id), Undefined)];
      match reply
      case NetworkError => Removal(bookings, calls, Some(DeleteError))
      case Reply(_, _, body) =>
        if Ok(reply) then Removal(RemoveById(bookings, "bookingId", id), calls, Some(Deleted))
        else match body
          case None => Removal(bookings, calls, Some(DeleteError))
          case Some(Null) => Removal(bookings, calls, Some(DeleteError))
          case Some(v) => Removal(bookings, calls, Some("Failed to delete booking: " + Interpolate(Or([Get(v, "message"), Str("Unknown error")]))))
  }

  /** The bookings a delete of `id` removes. */
  function WithId(bookings: seq<JsVal>, id: JsVal): seq<JsVal> {
    Filter(bookings, b => Get(b, "bookingId") == id)
  }

  /** A confirmed delete the server accepts keeps, in order, exactly the bookings with another
      id, and the revenue and passenger cards drop by exactly the removed bookings' figures. */
  lemma CancelBookingRemoves(bookings: seq<JsVal>, id: JsVal, reply: Response)
    requires Ok(reply)
    ensures var r := CancelBooking(bookings, id, true, reply).bookings;
            && IsSubseq(r, bookings)
            && (forall b :: b in bookings ==> (b in r <==> Get(b, "bookingId") != id))
            && Revenue(bookings) == Revenue(r) + Revenue(WithId(bookings, id))
            && Passengers(bookings) == Passengers(r) + Passengers(WithId(bookings, id))
  {
    var p := b => Get(b, "bookingId") != id;
    var q := b => Get(b, "bookingId") == id;
    SumOfPartition(bookings, Amount, p, q);
    SumOfPartition(bookings, PassengerCount, p, q);
  }

  /** A delete that fails keeps every booking; a refusal without a message says `Unknown error`,
      and one whose body is `null` or missing, or a failed request, shows the generic error. */
  lemma FailedCancelKeeps(bookings: seq<JsVal>, id: JsVal, reply: Response)
    requires !Ok(reply)
    ensures CancelBooking(bookings, id, true, reply).bookings == bookings
    ensures (reply.NetworkError? || reply.body.None? || reply.body == Some(Null)) ==>
              CancelBooking(bookings, id, true, reply).alert == Some(DeleteError)
    ensures reply.Reply? && reply.body.Some? && !reply.body.value.Null? && !Truthy(Get(reply.body.value, "message")) ==>
              CancelBooking(bookings, id, true, reply).alert == Some("Failed to delete booking: " + "Unknown error")
  {
    if reply.Reply? && reply.body.Some? {
      OrSpec([Get(reply.body.value, "message"), Str("Unknown error")]);
    }
  }

  // ---------------------------------------------------------------------------
  // Editing a flight
  // ---------------------------------------------------------------------------

  /** The edit row: origin and destination as typed, and the price as typed (text) or as
      loaded (a number). */
  datatype EditForm = EditForm(origin: string, destination: string, price: JsVal)

  const EmptyForm: EditForm := EditForm("", "", Str(""))

  /** `handleEditFlight`: the flight being edited and its fields in the form, blank when absent. */
  function EditFlight(flight: JsVal): (r: (JsVal, EditForm))
    ensures r.0 == Get(flight, "id")
    ensures Get(flight, "origin").Str? ==> r.1.origin == Get(flight, "origin").s
    ensures Truthy(Get(flight, "price")) ==> r.1.price == Get(flight, "price")
  {
    (Get(flight, "id"),
     EditForm(AsStr(Or([Get(flight, "origin"), Str("")])),
              AsStr(Or([Get(flight, "destination"), Str("")])),
              Or([Get(flight, "price"), Str("")])))
  }

  /** `handleCancelEdit`: nothing is being edited and the form is blank. */
  function CancelEdit(): (JsVal, EditForm) {
    (Null, EmptyForm)
  }

  /** `parseFloat(price)` on whole rupees: a number stays, text is read as a number, and `NaN`
      is written as `null` by `JSON.stringify`. */
  function PriceNumber(price: JsVal): (r: JsVal)
    ensures r.Num? || r == Null
    ensures price.Num? ==> r == price
  {
    match price
    case Num(n) => Num(n)
    case Str(s) => (match ParseInt(s) case Some(n) => Num(n) case None => Null)
    case _ => Null
  }

  /** `{...originalFlight, origin, destination, price}`. */
  function UpdatePayload(original: JsVal, form: EditForm): JsVal {
    Obj(Fields(original)["origin" := Str(Trim(form.origin))]["destination" := Str(Trim(form.destination))]
                        ["price" := PriceNumber(form.price)])
  }

  /** The payload is the original flight with only origin, destination and price replaced:
      the two places trimmed, the price as a number (or `null`). */
  lemma PayloadKeepsOtherFields(original: JsVal, form: EditForm, k: string)
    ensures var r := UpdatePayload(original, form);
            && (k != "origin" && k != "destination" && k != "price" ==> Get(r, k) == Get(original, k))
            && Get(r, "origin") == Str(Trim(form.origin)) && Get(r, "destination") == Str(Trim(form.destination))
            && Get(r, "price") == PriceNumber(form.price)
  {
    ThreeUpdates(Fields(original), Str(Trim(form.origin)), Str(Trim(form.destination)), PriceNumber(form.price), k);
  }

  /** Setting origin, destination and price in a field map changes those three keys only. */
  lemma ThreeUpdates(m: map<string, JsVal>, o: JsVal, d: JsVal, p: JsVal, k: string)
    ensures var r := Obj(m["origin" := o]["destination" := d]["price" := p]);
            && (k != "origin" && k != "destination" && k != "price" ==> Get(r, k) == Get(Obj(m), k))
            && Get(r, "origin") == o && Get(r, "destination") == d && Get(r, "price") == p
  {
  }

  /** The first flight whose `id` is the edited one: `flights.find(f => f.id === editingFlight)`. */
  function FindFlight(flights: seq<JsVal>, id: JsVal): (r: Option<JsVal>)
    ensures r.Some? ==> r.value in flights && Get(r.value, "id") == id
    ensures r.None? ==> forall f :: f in flights ==> Get(f, "id") != id
  {
    if |flights| == 0 then None
    else if Get(flights[0], "id") == id then Some(flights[0])
    else FindFlight(flights[1..], id)
  }

  /** What saving leaves: the requests, the alert, what is being edited and the form, and
      whether the flights are loaded again. */
  datatype Saved = Saved(calls: seq<Call>, alert: string, editing: JsVal, form: EditForm, reload: bool)

  const FillAll: string := "Please fill in all fields"
  const NoOriginal: string := "Original flight data not found"

  /** The alert for a refused update. */
  function UpdateRefused(status: int, text: string): string {
    if status == 400 then "Bad Request: Please check your input data format"
    else if status == 401 then "Unauthorized: Please login again"
    else if status == 404 then "Flight not found"
    else if status == 500 then "Server error: Please try again later"
    else "Failed to update flight (" + IntToString(status) + "): " + text
  }

  /** `handleSaveEdit`: a blank field, or an edited flight no longer in the list, stops with an
      alert and no request; otherwise the payload is sent with `PUT Flights/{id}`, and an OK
      reply closes the editor and reloads the flights. */
  function SaveEdit(flights: seq<JsVal>, editing: JsVal, form: EditForm, reply: Response): (r: Saved)
  {
    if form.origin == "" || form.destination == "" || !Truthy(form.price) then Saved([], FillAll, editing, form, false)
    else match FindFlight(flights, editing)
      case None => Saved([], NoOriginal, editing, form, false)
      case Some(original) =>
        var calls := [Call("PUT", "/Flights/" + Interpolate(editing), UpdatePayload(original, form))];
        match reply
        case NetworkError => Saved(calls, "Network error: " + FetchFailed, editing, form, false)
        case Reply(status, text, _) =>
          if Ok(reply) then Saved(calls, "Flight updated successfully!", Null, EmptyForm, true)
          else Saved(calls, UpdateRefused(status, text), editing, form, false)
  }

  /** A request is sent exactly when every field is filled and the edited flight is in the
      list; the request carries that flight with the form's fields, and only an OK reply closes
      the editor. */
  lemma SaveSendsOnlyComplete(flights: seq<JsVal>, editing: JsVal, form: EditForm, reply: Response)
    ensures var r := SaveEdit(flights, editing, form, reply);
            && (r.calls != [] <==> form.origin != "" && form.destination != "" && Truthy(form.price)
                                    && exists f :: f in flights && Get(f, "id") == editing)
            && (r.calls != [] ==> exists f :: f in flights && Get(f, "id") == editing
                                    && r.calls == [Call("PUT", "/Flights/" + Interpolate(editing), UpdatePayload(f, form))])
            && (r.editing == Null && r.form == EmptyForm && r.reload <==> r.calls != [] && Ok(reply))
  {
    var r := SaveEdit(flights, editing, form, reply);
    if form.origin != "" && form.destination != "" && Truthy(form.price) {
      match FindFlight(flights, editing)
      case None =>
      case Some(f) =>
        assert f in flights && Get(f, "id") == editing;
    }
  }

  /** Editing and saving a flight without changing anything sends the flight as it was, when
      its origin and destination are already trimmed text and its price a positive number. */
  lemma UnchangedEditSendsFlight(flights: seq<JsVal>, i: int, reply: Response)
    requires 0 <= i < |flights| && flights[i].Obj?
    requires forall j :: 0 <= j < i ==> Get(flights[j], "id") != Get(flights[i], "id")
    requires var f := flights[i];
             && Get(f, "origin").Str? && Get(f, "origin").s != "" && Trim(Get(f, "origin").s) == Get(f, "origin").s
             && Get(f, "destination").Str? && Get(f, "destination").s != ""
             && Trim(Get(f, "destination").s) == Get(f, "destination").s
             && Get(f, "price").Num? && Get(f, "price").n > 0
    ensures var (editing, form) := EditFlight(flights[i]);
            SaveEdit(flights, editing, form, reply).calls
              == [Call("PUT", "/Flights/" + Interpolate(Get(flights[i], "id")), flights[i])]
  {
    var f := flights[i];
    var editing := Get(f, "id");
    var form := EditForm(Get(f, "origin").s, Get(f, "destination").s, Get(f, "price"));
    EditFilledFlight(f);
    assert FindFlight(flights, editing) == Some(f) by {
      FindFirst(flights, i);
    }
    assert UpdatePayload(f, form) == f by {
      SameFieldsSameFlight(f, form);
    }
    assert form.origin != "" && form.destination != "" && Truthy(form.price);
    SaveSendsFound(flights, editing, form, reply, f);
  }

  /** A filled form for a flight in the list sends that flight with the form's fields. */
  lemma SaveSendsFound(flights: seq<JsVal>, editing: JsVal, form: EditForm, reply: Response, original: JsVal)
    requires form.origin != "" && form.destination != "" && Truthy(form.price)
    requires FindFlight(flights, editing) == Some(original)
    ensures SaveEdit(flights, editing, form, reply).calls
            == [Call("PUT", "/Flights/" + Interpolate(editing), UpdatePayload(original, form))]
  {
  }

  /** A flight whose places are non-empty text and whose price is truthy opens the editor
      with exactly those fields. */
  lemma EditFilledFlight(f: JsVal)
    requires Get(f, "origin").Str? && Get(f, "origin").s != ""
    requires Get(f, "destination").Str? && Get(f, "destination").s != ""
    requires Truthy(Get(f, "price"))
    ensures EditFlight(f) == (Get(f, "id"), EditForm(Get(f, "origin").s, Get(f, "destination").s, Get(f, "price")))
  {
    OrFirst([Get(f, "origin"), Str("")]);
    OrFirst([Get(f, "destination"), Str("")]);
    OrFirst([Get(f, "price"), Str("")]);
  }

  /** A form holding exactly the flight's own fields rebuilds the flight. */
  lemma SameFieldsSameFlight(original: JsVal, form: EditForm)
    requires original.Obj?
    requires Get(original, "origin") == Str(Trim(form.origin)) && Get(original, "destination") == Str(Trim(form.destination))
    requires Get(original, "price") == PriceNumber(form.price)
    ensures UpdatePayload(original, form) == original
  {
    var m := original.fields;
    var o, d, p := Str(Trim(form.origin)), Str(Trim(form.destination)), PriceNumber(form.price);
    assert "origin" in m && m["origin"] == o;
    assert "destination" in m && m["destination"] == d;
    assert "price" in m && m["price"] == p;
    RewriteSame(m, "origin", o);
    RewriteSame(m, "destination", d);
    RewriteSame(m, "price", p);
  }

  /** `find` stops at the first flight with the id. */
  lemma {:induction false} FindFirst(flights: seq<JsVal>, i: int)
    requires 0 <= i < |flights|
    requires forall j :: 0 <= j < i ==> Get(flights[j], "id") != Get(flights[i], "id")
    ensures FindFlight(flights, Get(flights[i], "id")) == Some(flights[i])
    decreases i
  {
    if i > 0 {
      FindFirst(flights[1..], i - 1);
    }
  }

  /** Writing a field's own value back changes nothing. */
  lemma RewriteSame(m: map<string, JsVal>, k: string, v: JsVal)
    requires k in m && m[k] == v
    ensures m[k := v] == m
  {
  }

  /** A price typed as the digits of a whole number is sent as that number. */
  lemma TypedPriceSent(n: nat)
    ensures PriceNumber(Str(NatToString(n))) == Num(n)
  {
    ParseIntOfNat(n);
  }

  /** After cancelling an edit, saving sends nothing and asks for the fields. */
  lemma CancelledEditSendsNothing(flights: seq<JsVal>, reply: Response)
    ensures var (editing, form) := CancelEdit();
            SaveEdit(flights, editing, form, reply) == Saved([], FillAll, editing, form, false)
  {
  }

  // ---------------------------------------------------------------------------
  // Deleting a user or a flight
  // ---------------------------------------------------------------------------

  /** What to reload after a delete. */
  datatype Kind = Users | Flights

  /** The requests sent, the alert shown, and the list reloaded. */
  datatype DeleteOutcome = DeleteOutcome(calls: seq<Call>, alert: Option<string>, reload: Option<Kind>)

  /** The endpoint for a kind of item: `user` and `flight` have one, anything else none. */
  function DeletePath(kind: string, id: JsVal): Option<(string, Kind)> {
    if kind == "user" then Some(("/Auth/user/" + Interpolate(id), Users))
    else if kind == "flight" then Some(("/Flights/" + Interpolate(id), Flights))
    else None
  }

  /** `handleDelete`: after the confirmation, `DELETE` on the item's endpoint; an OK reply
      reloads that list; an unknown kind returns without a request or an alert. */
  function DeleteItem(kind: string, id: JsVal, confirmed: bool, reply: Response): (r: DeleteOutcome)
    ensures r.calls != [] <==> confirmed && (kind == "user" || kind == "flight")
    ensures r.reload.Some? <==> r.calls != [] && Ok(reply)
    ensures r.alert.Some? <==> r.calls != []
  {
    if !confirmed then DeleteOutcome([], None, None)
    else match DeletePath(kind, id)
      case None => DeleteOutcome([], None, None)
      case Some((path, list)) =>
        var calls := [Call("DELETE", path, Undefined)];
        if reply.NetworkError? then DeleteOutcome(calls, Some("Error deleting item. Please try again."), None)
        else if Ok(reply) then DeleteOutcome(calls, Some("Item deleted successfully!"), Some(list))
        else DeleteOutcome(calls, Some("Failed to delete item. Please try again."), None)
  }

  /** A user is deleted at `Auth/user/{id}` and reloads the users; a flight at `Flights/{id}`
      and reloads the flights. */
  lemma DeleteTargets(id: JsVal, reply: Response)
    requires Ok(reply)
    ensures DeleteItem("user", id, true, reply)
              == DeleteOutcome([Call("DELETE", "/Auth/user/" + Interpolate(id), Undefined)], Some("Item deleted successfully!"), Some(Users))
    ensures DeleteItem("flight", id, true, reply)
              == DeleteOutcome([Call("DELETE", "/Flights/" + Interpolate(id), Undefined)], Some("Item deleted successfully!"), Some(Flights))
  {
  }

  // ---------------------------------------------------------------------------
  // Searching the tables
  // ---------------------------------------------------------------------------

  predicate UserShown(u: JsVal, term: string) {
    FieldMatches(Get(u, "name"), term) || FieldMatches(Get(u, "email"), term) || FieldMatches(Get(u, "role"), term)
  }

  /** The price is searched through its text, with case. */
  predicate FlightShown(f: JsVal, term: string) {
    FieldMatches(Get(f, "origin"), term) || FieldMatches(Get(f, "destination"), term) || IdMatches(Get(f, "price"), term)
  }

  predicate BookingShown(b: JsVal, term: string) {
    IdMatches(Get(b, "bookingId"), term) || FieldMatches(Get(b, "userName"), term)
    || FieldMatches(Get(b, "userEmail"), term) || FieldMatches(Get(b, "flightOrigin"), term)
    || FieldMatches(Get(b, "flightDestination"), term)
    || FieldMatches(Or([Get(b, "seatNumbers"), Get(b, "selectedSeats"), Str("")]), term)
    || FieldMatches(Get(b, "route"), term)
  }

  /** The three filtered tables. */
  function FilterTables(users: seq<JsVal>, flights: seq<JsVal>, bookings: seq<JsVal>,
                        userSearch: string, flightSearch: string, bookingSearch: string): (r: (seq<JsVal>, seq<JsVal>, seq<JsVal>))
    ensures IsSubseq(r.0, users) && IsSubseq(r.1, flights) && IsSubseq(r.2, bookings)
    ensures forall u :: u in users ==> (u in r.0 <==> UserShown(u, userSearch))
    ensures forall f :: f in flights ==> (f in r.1 <==> FlightShown(f, flightSearch))
    ensures forall b :: b in bookings ==> (b in r.2 <==> BookingShown(b, bookingSearch))
  {
    (Filter(users, u => UserShown(u, userSearch)),
     Filter(flights, f => FlightShown(f, flightSearch)),
     Filter(bookings, b => BookingShown(b, bookingSearch)))
  }

  /** Empty searches show every row of every table, in order. */
  lemma EmptySearchesShowAll(users: seq<JsVal>, flights: seq<JsVal>, bookings: seq<JsVal>)
    ensures FilterTables(users, flights, bookings, "", "", "") == (users, flights, bookings)
  {
    forall v: JsVal { EmptyTermMatches(v); }
    KeepAll(users, u => UserShown(u, ""));
    KeepAll(flights, f => FlightShown(f, ""));
    KeepAll(bookings, b => BookingShown(b, ""));
  }
}

=== FILE: confirmation.dfy ===
/** `pages/BookingConfirmation.jsx`: where the confirmed booking is read from, the one-shot block
    on the back button, the ticket number and the passenger count shown. */
module Confirmation {
  import opened Wrappers
  import opened Strings
  import opened Js

  const CompleteKey: string := "completeBookingInfo"

  /** What the page does on mount: go home, show a booking, or fail on a stored booking that is
      not JSON (the exception is not caught). */
  datatype Mount = GoHome | Show(info: JsVal) | ParseError

  /** The booking comes from the navigation state when it carries one, else from the stored
      complete booking; without either the page goes home. */
  function SelectBookingData(navState: JsVal, local: Storage): (r: Mount)
    ensures Truthy(Get(navState, "bookingInfo")) ==> r == Show(Get(navState, "bookingInfo"))
    ensures r.Show? ==> Truthy(r.info)
    ensures !Truthy(Get(navState, "bookingInfo")) && !ItemTruthy(local, CompleteKey) ==> r == GoHome
  {
    var fromState := Get(navState, "bookingInfo");
    if Truthy(fromState) then Show(fromState)
    else if !ItemTruthy(local, CompleteKey) then GoHome
    else match local[CompleteKey]
      case Text(_) => ParseError
      case Json(v) => if Truthy(v) then Show(v) else GoHome
  }

  /** Without navigation state, the page shows exactly what the passenger step stored. */
  lemma ShowsStoredBooking(local: Storage, info: JsVal)
    requires CompleteKey in local && local[CompleteKey] == Json(info) && info.Obj?
    ensures SelectBookingData(Undefined, local) == Show(info)
  {
  }

  /** `handleLogout`: both storages are cleared and the page moves to `/login`. */
  function Logout(local: Storage, session: Session): (Storage, Session, string) {
    (map[], map[], "/login")
  }

  // ---------------------------------------------------------------------------
  // The back button
  // ---------------------------------------------------------------------------

  /** One `popstate`: while `isFromPayment` holds, the event is answered by pushing the page
      again and the flag drops; afterwards the event passes. Returns (blocked, new flag). */
  function PopState(isFromPayment: bool): (bool, bool) {
    if isFromPayment then (true, false) else (false, isFromPayment)
  }

  /** Which of `n` successive back presses are blocked, starting from flag `flag`. */
  function Pops(flag: bool, n: nat): (blocked: seq<bool>)
    ensures |blocked| == n
  {
    if n == 0 then []
    else
      var (b, next) := PopState(flag);
      [b] + Pops(next, n - 1)
  }

  /** Once the flag is down, no press is blocked. */
  lemma {:induction false} PopsAfterward(n: nat)
    ensures forall i :: 0 <= i < n ==> !Pops(false, n)[i]
  {
    if n > 0 {
      PopsAfterward(n - 1);
      assert Pops(false, n) == [false] + Pops(false, n - 1);
    }
  }

  /** From mount, exactly the first back press is blocked. */
  lemma OnlyFirstPopBlocked(n: nat)
    ensures forall i :: 0 <= i < n ==> (Pops(true, n)[i] <==> i == 0)
  {
    if n > 0 {
      PopsAfterward(n - 1);
      assert Pops(true, n) == [true] + Pops(false, n - 1);
    }
  }

  // ---------------------------------------------------------------------------
  // Ticket number
  // ---------------------------------------------------------------------------

  /** The last `k` decimal digits of `n`, zero-padded. */
  function LastDigits(n: nat, k: nat): (r: string)
    ensures |r| == k && AllDigits(r)
  {
    if k == 0 then "" else LastDigits(n / 10, k - 1) + [DigitChar(n % 10)]
  }

  /** `generateTicketNumber`: `SF` and the last eight characters of the millisecond clock. */
  function TicketNumber(nowMs: nat): string {
    "SF" + TakeLast(NatToString(nowMs), 8)
  }

  /** Taking the last `k` characters of a long enough rendering gives its last `k` digits. */
  lemma {:induction false} TakeLastDigits(n: nat, k: nat)
    requires n >= Pow10(k)
    ensures TakeLast(NatToString(n), k) == LastDigits(n, k)
    decreases k
  {
    if k > 0 {
      var a := NatToString(n / 10);
      var c := DigitChar(n % 10);
      var s := a + [c];
      assert NatToString(n) == s by {
        assert n >= 10;
      }
      assert n / 10 >= Pow10(k - 1) by {
        assert Pow10(k) == 10 * Pow10(k - 1);
      }
      TakeLastDigits(n / 10, k - 1);
      assert |a| >= k - 1 && TakeLast(a, k - 1) == a[|a| - (k - 1)..];
      assert TakeLast(s, k) == s[|s| - k..];
      assert s[|s| - k..] == a[|a| - (k - 1)..] + [c];
      assert LastDigits(n, k) == LastDigits(n / 10, k - 1) + [c];
    }
  }

  /** `LastDigits` forgets multiples of `10^k`. */
  lemma {:induction false} LastDigitsPeriodic(n: nat, k: nat)
    ensures LastDigits(n + Pow10(k), k) == LastDigits(n, k)
    decreases k
  {
    if k > 0 {
      var p := Pow10(k - 1);
      assert (n + 10 * p) % 10 == n % 10;
      assert (n + 10 * p) / 10 == n / 10 + p;
      LastDigitsPeriodic(n / 10, k - 1);
    }
  }

  /** From a 9-digit clock on, the ticket number is `SF` and eight digits, and it repeats for
      bookings exactly 10^8 ms (about 28 hours) apart: ticket numbers are not unique. */
  lemma TicketNumberRepeats(t: nat)
    requires t >= 100000000
    ensures |TicketNumber(t)| == 10 && TicketNumber(t)[..2] == "SF" && AllDigits(TicketNumber(t)[2..])
    ensures TicketNumber(t + 100000000) == TicketNumber(t)
  {
    assert Pow10(8) == 100000000;
    TakeLastDigits(t, 8);
    TakeLastDigits(t + 100000000, 8);
    LastDigitsPeriodic(t, 8);
    assert TicketNumber(t)[2..] == LastDigits(t, 8);
  }

  // ---------------------------------------------------------------------------
  // Passenger count
  // ---------------------------------------------------------------------------

  /** `v?.length`: arrays and strings have one, an object may have a `length` field. */
  function Length(v: JsVal): JsVal {
    match v
    case Arr(items) => Num(|items|)
    case Str(s) => Num(|s|)
    case Obj(_) => Get(v, "length")
    case _ => Undefined
  }

  /** The count shown: `passengers?.length || passengers`. */
  function PassengerCountShown(booking: JsVal): JsVal {
    var ps := Get(booking, "passengers");
    Or([Length(ps), ps])
  }

  /** A list of passengers shows its size, a number shows itself, and an empty list falls back
      to the list itself. */
  lemma PassengerCountShownSpec(booking: JsVal)
    ensures var ps := Get(booking, "passengers");
            && (ps.Arr? && |ps.items| > 0 ==> PassengerCountShown(booking) == Num(|ps.items|))
            && (ps.Num? ==> PassengerCountShown(booking) == ps)
            && (ps.Arr? && |ps.items| == 0 ==> PassengerCountShown(booking) == ps)
  {
    var ps := Get(booking, "passengers");
    OrSpec([Length(ps), ps]);
  }
}

=== FILE: dashboards.dfy ===
/** What the three dashboards (`pages/FlightOwner.jsx`, `pages/FlightOwner.new.jsx`,
    `pages/Admin.jsx`) share: the outcome of the access check, the 120-seat capacity, the search tests their tables use, loading
    a list with a fallback endpoint, and removing a record by id. */
module Dashboards {
  import opened Wrappers
  import opened Strings
  import opened Js

  /** What a dashboard's mount-time check decides: go to `/login`, load the dashboard, or show
      the access-denied alert. */
  datatype Access = ToLogin | Granted | Denied

  /** Every flight has 120 seats. */
  const TotalSeats: int := 120

  /** `Math.max(0, 120 - booked)`. */
  function Available(booked: int): (r: int)
    ensures r >= 0
    ensures booked >= 0 ==> r <= TotalSeats
    ensures 0 <= booked <= TotalSeats ==> r + booked == TotalSeats
    ensures booked >= TotalSeats ==> r == 0
  {
    if TotalSeats - booked > 0 then TotalSeats - booked else 0
  }

  /** `(v || '').toLowerCase()`. A truthy value that is not a string would throw there; it reads
      as the empty string in this model. */
  function LowerText(v: JsVal): string {
    if v.Str? then Lower(v.s) else ""
  }

  /** `(v || '').toLowerCase().includes(term.toLowerCase())`. */
  predicate FieldMatches(v: JsVal, term: string) {
    Contains(LowerText(v), Lower(term))
  }

  /** `v ? v.toString().includes(term) : false`: an id is searched as written, with case. */
  predicate IdMatches(v: JsVal, term: string) {
    Truthy(v) && Contains(Interpolate(v), term)
  }

  /** An empty search term matches every field and every truthy id. */
  lemma EmptyTermMatches(v: JsVal)
    ensures FieldMatches(v, "")
    ensures Truthy(v) ==> IdMatches(v, "")
  {
    ContainsEmpty(LowerText(v));
    ContainsEmpty(Interpolate(v));
    assert Lower("") == "";
  }

  /** The field test ignores case on both sides: a term matches exactly as its lower-case form
      does. */
  lemma FieldMatchIgnoresCase(v: JsVal, term: string)
    ensures FieldMatches(v, term) <==> FieldMatches(v, Lower(term))
  {
    assert Lower(Lower(term)) == Lower(term);
  }

  /** A list load with a fallback: the primary endpoint is asked first; only a reply that is not
      OK (not a network failure) sends the fallback request. The data is the JSON of whichever
      of the two replies is OK; otherwise, including when that reply is not JSON or the fallback
      request fails, it stays the empty array. */
  function LoadWithFallback(primaryPath: string, fallbackPath: string, primary: Response, fallback: Response): (r: (JsVal, seq<Call>))
    ensures |r.1| >= 1 && r.1[0] == Call("GET", primaryPath, Undefined)
    ensures |r.1| == 2 <==> primary.Reply? && !Ok(primary)
    ensures |r.1| == 2 ==> r.1[1] == Call("GET", fallbackPath, Undefined)
    ensures Ok(primary) && primary.body.Some? ==> r.0 == primary.body.value
    ensures primary.Reply? && !Ok(primary) && Ok(fallback) && fallback.body.Some? ==> r.0 == fallback.body.value
    ensures (primary.NetworkError? || (Ok(primary) && primary.body.None?)
             || (primary.Reply? && !Ok(primary) && !(Ok(fallback) && fallback.body.Some?))) ==> r.0 == Arr([])
  {
    var first := Call("GET", primaryPath, Undefined);
    if primary.NetworkError? then (Arr([]), [first])
    else if Ok(primary) then (primary.body.GetOr(Arr([])), [first])
    else
      var calls := [first, Call("GET", fallbackPath, Undefined)];
      if Ok(fallback) then (fallback.body.GetOr(Arr([])), calls) else (Arr([]), calls)
  }

  /** The records of a loaded list: only a non-empty array is used. */
  function Records(data: JsVal): seq<JsVal> {
    if data.Arr? then data.items else []
  }

  /** `xs.filter(x => x[key] !== id)`: what a successful delete leaves. */
  function RemoveById(xs: seq<JsVal>, key: string, id: JsVal): (r: seq<JsVal>)
    ensures IsSubseq(r, xs)
    ensures forall x :: x in r ==> Get(x, key) != id
    ensures forall x :: x in xs && Get(x, key) != id ==> x in r
  {
    Filter(xs, x => Get(x, key) != id)
  }

  /** Removing an id that no record carries changes nothing, and removing twice is removing once. */
  lemma RemoveByIdSettles(xs: seq<JsVal>, key: string, id: JsVal)
    ensures (forall i :: 0 <= i < |xs| ==> Get(xs[i], key) != id) ==> RemoveById(xs, key, id) == xs
    ensures RemoveById(RemoveById(xs, key, id), key, id) == RemoveById(xs, key, id)
  {
    if forall i :: 0 <= i < |xs| ==> Get(xs[i], key) != id {
      KeepAll(xs, x => Get(x, key) != id);
    }
    FilterIdempotent(xs, x => Get(x, key) != id);
  }

  /** A sum of terms each at least one is at least the number of terms. */
  lemma {:induction false} SumAtLeastCount<T>(xs: seq<T>, f: T -> int)
    requires forall i :: 0 <= i < |xs| ==> f(xs[i]) >= 1
    ensures SumOf(xs, f) >= |xs|
    decreases |xs|
  {
    if |xs| > 0 {
      SumAtLeastCount(xs[..|xs| - 1], f);
    }
  }
}

=== FILE: dates.dfy ===
/** `utils/dateUtils.js`: calendar dates rendered as `YYYY-MM-DD` strings, and why the pages
    may compare those strings with `<`. */
module DateUtils {
  import opened Wrappers
  import opened Strings

  /** A calendar date the way a JavaScript `Date` reports it: full year, month index 0-11,
      day of month. */
  datatype Date = Date(year: int, monthIndex: int, day: int)

  /** A date inside the range the pages produce: four-digit year, real month index, day 1-31. */
  predicate InRange(y: int, m: int, d: int) {
    1000 <= y <= 9999 && 0 <= m <= 11 && 1 <= d <= 31
  }

  /** `s.padStart(width, c)`: left-pads, never truncates. */
  function PadStart(s: string, width: nat, c: char): (r: string)
    ensures |r| == if |s| < width then width else |s|
    ensures r[|r| - |s|..] == s
    ensures forall i :: 0 <= i < |r| - |s| ==> r[i] == c
  {
    if |s| >= width then s else seq(width - |s|, _ => c) + s
  }

  /** `String(n).padStart(2, '0')`. */
  function Pad2(n: int): string {
    PadStart(IntToString(n), 2, '0')
  }

  /** Two pieces with a dash between them. */
  function Dashed(a: string, b: string): string {
    a + ['-'] + b
  }

  /** `createDateString(year, month, day)` with a 0-based month. */
  function CreateDateString(year: int, month: int, day: int): string {
    Dashed(Dashed(IntToString(year), Pad2(month + 1)), Pad2(day))
  }

  /** `formatDateToString(date)`: the same rendering, read off a `Date`. */
  function FormatDateToString(date: Date): string {
    CreateDateString(date.year, date.monthIndex, date.day)
  }

  /** Reads a `YYYY-MM-DD` string back into (year, month 1-12, day); `None` for any other shape. */
  function ParseDateString(s: string): (r: Option<(int, int, int)>)
    ensures r.Some? ==> |s| == 10 && s[4] == '-' && s[7] == '-'
  {
    if |s| == 10 && s[4] == '-' && s[7] == '-'
       && AllDigits(s[..4]) && AllDigits(s[5..7]) && AllDigits(s[8..])
    then Some((DigitsValue(s[..4]), DigitsValue(s[5..7]), DigitsValue(s[8..])))
    else None
  }

  // ---------------------------------------------------------------------------
  // The pieces of a rendered date
  // ---------------------------------------------------------------------------

  /** A two-digit field renders as exactly two digits denoting its value. */
  lemma Pad2Digits(k: int)
    requires 0 <= k <= 99
    ensures |Pad2(k)| == 2 && AllDigits(Pad2(k)) && DigitsValue(Pad2(k)) == k
  {
    var s := NatToString(k);
    DigitsValueOfNat(k);
    if k < 10 {
      assert Pad2(k) == "0" + s;
      assert Pad2(k)[..1] == "0";
    } else {
      assert s == NatToString(k / 10) + [DigitChar(k % 10)];
    }
  }

  /** A four-digit year renders as exactly four digits. */
  lemma YearDigits(y: int)
    requires 1000 <= y <= 9999
    ensures |IntToString(y)| == 4 && AllDigits(IntToString(y)) && DigitsValue(IntToString(y)) == y
  {
    assert NatToString(y) == NatToString(y / 10) + [DigitChar(y % 10)];
    assert NatToString(y / 10) == NatToString(y / 100) + [DigitChar((y / 10) % 10)];
    assert NatToString(y / 100) == NatToString(y / 1000) + [DigitChar((y / 100) % 10)];
    DigitsValueOfNat(y);
  }

  /** Four digits, a dash, two digits, a dash and two digits read back as their three values. */
  lemma ShapeRoundTrip(ys: string, ms: string, ds: string)
    requires |ys| == 4 && |ms| == 2 && |ds| == 2
    requires AllDigits(ys) && AllDigits(ms) && AllDigits(ds)
    ensures |Dashed(Dashed(ys, ms), ds)| == 10
    ensures ParseDateString(Dashed(Dashed(ys, ms), ds))
            == Some((DigitsValue(ys), DigitsValue(ms), DigitsValue(ds)))
  {
    var s := Dashed(Dashed(ys, ms), ds);
    assert s[..4] == ys && s[5..7] == ms && s[8..] == ds;
    assert s[4] == '-' && s[7] == '-';
  }

  /** The rendering is ten characters: four year digits, a dash, two month digits, a dash and
      two day digits, and it reads back as (year, month + 1, day). */
  lemma CreateDateStringRoundTrip(y: int, m: int, d: int)
    requires InRange(y, m, d)
    ensures |CreateDateString(y, m, d)| == 10
    ensures ParseDateString(CreateDateString(y, m, d)) == Some((y, m + 1, d))
  {
    YearDigits(y);
    Pad2Digits(m + 1);
    Pad2Digits(d);
    ShapeRoundTrip(IntToString(y), Pad2(m + 1), Pad2(d));
  }

  /** Reading a date back gives the rendering it came from: two in-range dates render to the
      same string only when they are the same date. */
  lemma CreateDateStringInjective(y1: int, m1: int, d1: int, y2: int, m2: int, d2: int)
    requires InRange(y1, m1, d1) && InRange(y2, m2, d2)
    requires CreateDateString(y1, m1, d1) == CreateDateString(y2, m2, d2)
    ensures y1 == y2 && m1 == m2 && d1 == d2
  {
    CreateDateStringRoundTrip(y1, m1, d1);
    CreateDateStringRoundTrip(y2, m2, d2);
  }

  // ---------------------------------------------------------------------------
  // String order is date order
  // ---------------------------------------------------------------------------

  /** `a` comes strictly before `b` on the calendar. */
  predicate DateBefore(a: Date, b: Date) {
    a.year < b.year
    || (a.year == b.year && (a.monthIndex < b.monthIndex
                             || (a.monthIndex == b.monthIndex && a.day < b.day)))
  }

  /** The date a rendering's three digit fields denote (month field as written, 1-12). */
  function FieldsDate(Y: string, M: string, D: string): Date
    requires AllDigits(Y) && AllDigits(M) && AllDigits(D)
  {
    Date(DigitsValue(Y), DigitsValue(M), DigitsValue(D))
  }

  /** Comparing two equal-length digit strings compares their values, and equal strings
      are equal values. */
  lemma DigitFieldOrder(s: string, t: string)
    requires AllDigits(s) && AllDigits(t) && |s| == |t|
    ensures StrLess(s, t) <==> DigitsValue(s) < DigitsValue(t)
    ensures s == t ==> DigitsValue(s) == DigitsValue(t)
  {
    DigitStringOrder(s, t);
  }

  /** Equal-length digit strings with equal values are the same string. */
  lemma {:induction false} DigitFieldEqual(s: string, t: string)
    requires AllDigits(s) && AllDigits(t) && |s| == |t|
    requires DigitsValue(s) == DigitsValue(t)
    ensures s == t
  {
    if s != t {
      StrLessTotal(s, t);
      DigitStringOrder(s, t);
      DigitStringOrder(t, s);
    }
  }

  /** `"-" + x < "-" + y` exactly when `x < y`. */
  lemma DashLess(x: string, y: string)
    ensures StrLess(['-'] + x, ['-'] + y) <==> StrLess(x, y)
  {
    StrLessConcat(['-'], x, ['-'], y);
    StrLessIrreflexive(['-']);
  }

  /** Comparing `a + "-" + b` with `c + "-" + d`, where `a` and `c` have the same length,
      compares `a` with `c` and, on a tie, `b` with `d`. */
  lemma DashedOrder(a: string, b: string, c: string, d: string)
    requires |a| == |c|
    ensures StrLess(Dashed(a, b), Dashed(c, d)) <==> StrLess(a, c) || (a == c && StrLess(b, d))
  {
    assert Dashed(a, b) == a + (['-'] + b);
    assert Dashed(c, d) == c + (['-'] + d);
    StrLessConcat(a, ['-'] + b, c, ['-'] + d);
    DashLess(b, d);
  }

  /** `a + "-" + b` and `c + "-" + d` with `|a| == |c|` are equal only when both parts are. */
  lemma DashedEqual(a: string, b: string, c: string, d: string)
    requires |a| == |c|
    ensures Dashed(a, b) == Dashed(c, d) <==> a == c && b == d
  {
    if Dashed(a, b) == Dashed(c, d) {
      assert a == Dashed(a, b)[..|a|];
      assert b == Dashed(a, b)[|a| + 1..];
      assert Dashed(c, d)[..|a|] == c;
      assert Dashed(c, d)[|a| + 1..] == d;
    }
  }

  /** Two renderings of the same shape compare field by field, as strings. */
  lemma ShapeStringOrder(Y1: string, M1: string, D1: string, Y2: string, M2: string, D2: string)
    requires |Y1| == |Y2| && |M1| == |M2|
    ensures StrLess(Dashed(Dashed(Y1, M1), D1), Dashed(Dashed(Y2, M2), D2))
            <==> StrLess(Y1, Y2) || (Y1 == Y2 && (StrLess(M1, M2) || (M1 == M2 && StrLess(D1, D2))))
  {
    DashedOrder(Dashed(Y1, M1), D1, Dashed(Y2, M2), D2);
    DashedEqual(Y1, M1, Y2, M2);
    DashedOrder(Y1, M1, Y2, M2);
  }

  /** Equal-length digit fields compare, and are equal, exactly as their values do. */
  lemma DigitFieldCompare(s: string, t: string)
    requires AllDigits(s) && AllDigits(t) && |s| == |t|
    ensures StrLess(s, t) <==> DigitsValue(s) < DigitsValue(t)
    ensures s == t <==> DigitsValue(s) == DigitsValue(t)
  {
    DigitFieldOrder(s, t);
    if DigitsValue(s) == DigitsValue(t) { DigitFieldEqual(s, t); }
  }

  /** Two renderings of the same shape compare as the dates they denote. */
  lemma ShapeOrder(Y1: string, M1: string, D1: string, Y2: string, M2: string, D2: string)
    requires |Y1| == |Y2| && |M1| == |M2| && |D1| == |D2|
    requires AllDigits(Y1) && AllDigits(M1) && AllDigits(D1)
    requires AllDigits(Y2) && AllDigits(M2) && AllDigits(D2)
    ensures StrLess(Dashed(Dashed(Y1, M1), D1), Dashed(Dashed(Y2, M2), D2))
            <==> DateBefore(FieldsDate(Y1, M1, D1), FieldsDate(Y2, M2, D2))
  {
    ShapeStringOrder(Y1, M1, D1, Y2, M2, D2);
    DigitFieldCompare(Y1, Y2);
    DigitFieldCompare(M1, M2);
    DigitFieldCompare(D1, D2);
  }

  /** On in-range dates, `<` on the rendered strings is calendar order, which is what makes
      `returnDate < date` and the return-calendar's `date < departDate` meaningful. */
  lemma DateStringOrder(a: Date, b: Date)
    requires InRange(a.year, a.monthIndex, a.day) && InRange(b.year, b.monthIndex, b.day)
    ensures StrLess(FormatDateToString(a), FormatDateToString(b)) <==> DateBefore(a, b)
  {
    var Y1, M1, D1 := FormatFields(a);
    var Y2, M2, D2 := FormatFields(b);
    ShapeOrder(Y1, M1, D1, Y2, M2, D2);
  }

  /** An in-range date renders as three digit fields of widths 4, 2 and 2 that denote it, the
      month shifted to 1-12. */
  lemma FormatFields(d: Date) returns (Y: string, M: string, D: string)
    requires InRange(d.year, d.monthIndex, d.day)
    ensures |Y| == 4 && |M| == 2 && |D| == 2 && AllDigits(Y) && AllDigits(M) && AllDigits(D)
    ensures FormatDateToString(d) == Dashed(Dashed(Y, M), D)
    ensures FieldsDate(Y, M, D) == Date(d.year, d.monthIndex + 1, d.day)
  {
    Y, M, D := IntToString(d.year), Pad2(d.monthIndex + 1), Pad2(d.day);
    YearDigits(d.year);
    Pad2Digits(d.monthIndex + 1);
    Pad2Digits(d.day);
  }

  // ---------------------------------------------------------------------------
  // Day numbers: what `Date` arithmetic on local midnights computes
  // ---------------------------------------------------------------------------

  predicate IsLeapYear(y: int) {
    (y % 4 == 0 && y % 100 != 0) || y % 400 == 0
  }

  /** `new Date(year, month + 1, 0).getDate()` for a month index 0-11. */
  function DaysInMonth(year: int, month: int): (n: int)
    requires 0 <= month <= 11
    ensures 28 <= n <= 31
  {
    if month == 1 then (if IsLeapYear(year) then 29 else 28)
    else if month == 3 || month == 5 || month == 8 || month == 10 then 30
    else 31
  }

  /** A date that exists on the proleptic Gregorian calendar. */
  predicate ValidDate(d: Date) {
    0 <= d.monthIndex <= 11 && 1 <= d.day <= DaysInMonth(d.year, d.monthIndex)
  }

  function YearLength(y: int): int {
    if IsLeapYear(y) then 366 else 365
  }

  /** Days in the months before `month` of `year`. */
  function DaysBeforeMonth(year: int, month: int): int
    requires 0 <= month <= 11
  {
    [0, 31, 59, 90, 120, 151, 181, 212, 243, 273, 304, 334][month]
      + (if month >= 2 && IsLeapYear(year) then 1 else 0)
  }

  /** Days in the years before `year`, counted from 1 January of year 1. */
  function YearStart(y: int): int {
    365 * (y - 1) + (y - 1) / 4 - (y - 1) / 100 + (y - 1) / 400
  }

  /** The day's serial number: 1 January of year 1 is day 1. A local-midnight `getTime()` is
      this number times a day's milliseconds, plus a constant. */
  function DayNumber(d: Date): int
    requires 0 <= d.monthIndex <= 11
  {
    YearStart(d.year) + DaysBeforeMonth(d.year, d.monthIndex) + d.day
  }

  /** `getDay()`: 0 for Sunday. Day 1 was a Monday. */
  function Weekday(d: Date): (w: int)
    requires 0 <= d.monthIndex <= 11
    ensures 0 <= w < 7
  {
    DayNumber(d) % 7
  }

  /** The epoch of `getTime()`, 1 January 1970, falls on a Thursday. */
  lemma EpochWasThursday()
    ensures Weekday(Date(1970, 0, 1)) == 4
  {
  }

  /** Each year is as long as its leap status says. */
  lemma YearStep(y: int)
    ensures YearStart(y + 1) == YearStart(y) + YearLength(y)
  {
    QuotientStep4(y);
    QuotientStep100(y);
    QuotientStep400(y);
    MultiplesNest(y);
    var x := y - 1;
    assert YearStart(y + 1) - YearStart(y) == 365 + (y / 4 - x / 4) - (y / 100 - x / 100) + (y / 400 - x / 400);
  }

  /** A multiple of 400 is a multiple of 100, and a multiple of 100 a multiple of 4. */
  lemma MultiplesNest(y: int)
    ensures y % 400 == 0 ==> y % 100 == 0
    ensures y % 100 == 0 ==> y % 4 == 0
  {
  }

  /** Stepping to `y` adds one to `y / 4` exactly when `y` is a multiple of 4. */
  lemma QuotientStep4(y: int)
    ensures y / 4 - (y - 1) / 4 == if y % 4 == 0 then 1 else 0
  {
  }

  /** Stepping to `y` adds one to `y / 100` exactly when `y` is a multiple of 100. */
  lemma QuotientStep100(y: int)
    ensures y / 100 - (y - 1) / 100 == if y % 100 == 0 then 1 else 0
  {
  }

  /** Stepping to `y` adds one to `y / 400` exactly when `y` is a multiple of 400. */
  lemma QuotientStep400(y: int)
    ensures y / 400 - (y - 1) / 400 == if y % 400 == 0 then 1 else 0
  {
  }

  /** Every day of an earlier year comes before the first day of a later one. */
  lemma {:induction false} YearsInOrder(y1: int, y2: int)
    requires y1 < y2
    ensures YearStart(y1) + YearLength(y1) <= YearStart(y2)
    decreases y2 - y1
  {
    YearStep(y1);
    if y1 + 1 < y2 {
      YearsInOrder(y1 + 1, y2);
    }
  }

  /** The days of a year's months follow each other without overlap. */
  lemma MonthsInOrder(y: int, m1: int, m2: int)
    requires 0 <= m1 < m2 <= 11
    ensures DaysBeforeMonth(y, m1) + DaysInMonth(y, m1) <= DaysBeforeMonth(y, m2)
  {
  }

  /** A valid date's place inside its year. */
  lemma DayOfYear(d: Date)
    requires ValidDate(d)
    ensures 1 <= DaysBeforeMonth(d.year, d.monthIndex) + d.day <= YearLength(d.year)
  {
  }

  /** On valid dates, day numbers are in calendar order, so subtracting two local midnights
      counts the days between them. */
  lemma DayNumberOrder(a: Date, b: Date)
    requires ValidDate(a) && ValidDate(b)
    ensures DayNumber(a) < DayNumber(b) <==> DateBefore(a, b)
    ensures DayNumber(a) == DayNumber(b) <==> a == b
  {
    DayOfYear(a);
    DayOfYear(b);
    if a.year < b.year {
      YearsInOrder(a.year, b.year);
    } else if b.year < a.year {
      YearsInOrder(b.year, a.year);
    } else if a.monthIndex < b.monthIndex {
      MonthsInOrder(a.year, a.monthIndex, b.monthIndex);
    } else if b.monthIndex < a.monthIndex {
      MonthsInOrder(a.year, b.monthIndex, a.monthIndex);
    }
  }
}

=== FILE: flights.dfy ===
/** `pages/Flights.jsx`: the details generated for each fetched flight (airline, flight number,
    departure clock, stops, duration, class-adjusted price), the duration display and the
    search/stops filter. */
module Flights {
  import opened Wrappers
  import opened Strings
  import opened Js
  import DateUtils

  // ---------------------------------------------------------------------------
  // The route hash
  // ---------------------------------------------------------------------------

  const TwoTo31: int := 0x8000_0000
  const TwoTo32: int := 0x1_0000_0000

  /** JavaScript's ToInt32: the integer taken modulo 2^32 into the signed 32-bit range. */
  function ToInt32(x: int): (r: int)
    ensures -TwoTo31 <= r < TwoTo31
    ensures (r - x) % TwoTo32 == 0
  {
    (x + TwoTo31) % TwoTo32 - TwoTo31
  }

  /** ToInt32 only sees its argument modulo 2^32. */
  lemma ToInt32Congruent(x: int, k: int)
    ensures ToInt32(x + k * TwoTo32) == ToInt32(x)
  {
    assert (x + k * TwoTo32 + TwoTo31) % TwoTo32 == (x + TwoTo31) % TwoTo32;
  }

  /** One step of the hash as written: `((hash << 5) - hash) + char`, then `hash & hash`. The
      shift works on 32 bits; the subtraction and addition do not. */
  function HashStep(h: int, c: char): int {
    ToInt32(ToInt32(h * 32) - h + c as int)
  }

  /** The route hash folded over the route's characters from the left. */
  function RouteHash(route: string): (h: int)
    ensures -TwoTo31 <= h < TwoTo31
  {
    if |route| == 0 then 0 else HashStep(RouteHash(route[..|route| - 1]), route[|route| - 1])
  }

  /** The textbook form of the same hash: `h' = ToInt32(31 * h + c)`. */
  function Hash31(route: string): int {
    if |route| == 0 then 0 else ToInt32(31 * Hash31(route[..|route| - 1]) + route[|route| - 1] as int)
  }

  /** The step as written is the textbook step. */
  lemma HashStepIs31(h: int, c: char)
    ensures HashStep(h, c) == ToInt32(31 * h + c as int)
  {
    var t := ToInt32(h * 32);
    var k := (t - h * 32) / TwoTo32;
    assert t == h * 32 + k * TwoTo32;
    ToInt32Congruent(31 * h + c as int, k);
  }

  /** The hash as written equals the textbook 31-multiplier hash on every route. */
  lemma {:induction false} RouteHashIs31(route: string)
    ensures RouteHash(route) == Hash31(route)
    decreases |route|
  {
    if |route| > 0 {
      RouteHashIs31(route[..|route| - 1]);
      HashStepIs31(RouteHash(route[..|route| - 1]), route[|route| - 1]);
    }
  }

  /** The page's loop, one character at a time. */
  method ComputeRouteHash(route: string) returns (h: int)
    ensures h == Hash31(route)
    ensures -TwoTo31 <= h < TwoTo31
  {
    h := 0;
    var i := 0;
    while i < |route|
      invariant 0 <= i <= |route|
      invariant h == Hash31(route[..i])
    {
      HashStepIs31(h, route[i]);
      assert route[..i + 1][..i] == route[..i];
      h := HashStep(h, route[i]);
      i := i + 1;
    }
    assert route[..|route|] == route;
  }

  function Abs(x: int): nat {
    if x < 0 then -x else x
  }

  // ---------------------------------------------------------------------------
  // Airline and flight number
  // ---------------------------------------------------------------------------

  datatype Airline = Airline(name: string, logo: string, code: string)

  /** The seven airlines, in the page's order. */
  const Airlines: seq<Airline> := [
    Airline("IndiGo", "\U{1F535}", "6E"),
    Airline("Air India", "\U{1F1EE}\U{1F1F3}", "AI"),
    Airline("SpiceJet", "\U{1F336}\U{FE0F}", "SG"),
    Airline("Vistara", "\U{2728}", "UK"),
    Airline("GoFirst", "\U{1F7E2}", "G8"),
    Airline("AirAsia India", "\U{1F534}", "I5"),
    Airline("Akasa Air", "\U{1F7E3}", "QP")
  ]

  const PlaneLogo: string := "\U{2708}\U{FE0F}"

  /** The first airline with this name, as `airlines.find` returns it. */
  function FindAirline(name: string, from: nat): (r: Option<Airline>)
    requires from <= |Airlines|
    ensures r.Some? ==> r.value in Airlines && r.value.name == name
    ensures r.None? ==> forall i :: from <= i < |Airlines| ==> Airlines[i].name != name
    decreases |Airlines| - from
  {
    if from == |Airlines| then None
    else if Airlines[from].name == name then Some(Airlines[from])
    else FindAirline(name, from + 1)
  }

  /** `getAirlineInfo`: a known airline name is kept (with its logo and code, or the plane and
      `XX` when it is not one of the seven); a missing one or `Unknown Airline` is replaced by
      one of the seven chosen by the route hash. `original` is `""` when absent. */
  function AirlineInfo(original: string, route: string): (a: Airline)
    ensures original != "" && original != "Unknown Airline" ==> a.name == original
    ensures original == "" || original == "Unknown Airline" ==>
              a == Airlines[Abs(RouteHash(route)) % |Airlines|]
    ensures a in Airlines || (a.logo == PlaneLogo && a.code == "XX")
  {
    if original != "" && original != "Unknown Airline" then
      match FindAirline(original, 0)
      case Some(known) => Airline(original, known.logo, known.code)
      case None => Airline(original, PlaneLogo, "XX")
    else Airlines[Abs(RouteHash(route)) % |Airlines|]
  }

  /** `generateFlightNumber`: the airline code and a number from the route hash. */
  function FlightNumber(code: string, route: string): string {
    code + IntToString(FlightNumberValue(route))
  }

  function FlightNumberValue(route: string): int {
    1000 + Abs(RouteHash(route)) % 8999
  }

  /** The number part is four digits between 1000 and 9998 (the code promises 9999, which the
      modulus never reaches), and reads back as the value. */
  lemma FlightNumberShape(code: string, route: string)
    ensures 1000 <= FlightNumberValue(route) <= 9998
    ensures var f := FlightNumber(code, route);
            |f| == |code| + 4 && f[..|code|] == code
            && AllDigits(f[|code|..]) && DigitsValue(f[|code|..]) == FlightNumberValue(route)
  {
    var n := FlightNumberValue(route);
    DateUtils.YearDigits(n);
    assert FlightNumber(code, route)[|code|..] == IntToString(n);
  }

  /** The same route always gets the same airline and flight number. */
  lemma GeneratedDetailsDependOnRouteOnly(original: string, route: string, code: string)
    requires original == "" || original == "Unknown Airline"
    ensures AirlineInfo(original, route) == AirlineInfo("", route)
    ensures FlightNumber(code, route) == code + IntToString(1000 + Abs(Hash31(route)) % 8999)
  {
    RouteHashIs31(route);
  }

  // ---------------------------------------------------------------------------
  // Durations
  // ---------------------------------------------------------------------------

  /** The eight airports of the duration table. */
  datatype Airport = DEL | BOM | BLR | MAA | CCU | HYD | COK | GOI

  function Code(a: Airport): (s: string)
    ensures |s| == 3 && '-' !in s
  {
    match a
    case DEL => "DEL"
    case BOM => "BOM"
    case BLR => "BLR"
    case MAA => "MAA"
    case CCU => "CCU"
    case HYD => "HYD"
    case COK => "COK"
    case GOI => "GOI"
  }

  /** The airport a code names. */
  function AirportOf(s: string): (r: Option<Airport>)
    ensures r.Some? ==> Code(r.value) == s
    ensures r.None? ==> forall a: Airport :: Code(a) != s
  {
    if s == "DEL" then Some(DEL)
    else if s == "BOM" then Some(BOM)
    else if s == "BLR" then Some(BLR)
    else if s == "MAA" then Some(MAA)
    else if s == "CCU" then Some(CCU)
    else if s == "HYD" then Some(HYD)
    else if s == "COK" then Some(COK)
    else if s == "GOI" then Some(GOI)
    else None
  }

  datatype Duration = Duration(hours: nat, minutes: nat)

  const DefaultDuration: Duration := Duration(2, 30)

  /** The page's table: an entry for each ordered pair of different airports, keyed
      `ORIGIN-DEST`. */
  function TableEntry(a: Airport, b: Airport): Option<Duration> {
    match a
      case DEL => (match b
        case BOM => Some(Duration(2, 20))
        case BLR => Some(Duration(2, 45))
        case MAA => Some(Duration(2, 50))
        case CCU => Some(Duration(2, 30))
        case HYD => Some(Duration(2, 35))
        case COK => Some(Duration(3, 15))
        case GOI => Some(Duration(2, 45))
        case DEL => None)
      case BOM => (match b
        case DEL => Some(Duration(2, 20))
        case BLR => Some(Duration(1, 35))
        case MAA => Some(Duration(1, 50))
        case CCU => Some(Duration(2, 45))
        case HYD => Some(Duration(1, 25))
        case COK => Some(Duration(1, 30))
        case GOI => Some(Duration(1, 15))
        case BOM => None)
      case BLR => (match b
        case DEL => Some(Duration(2, 45))
        case BOM => Some(Duration(1, 35))
        case MAA => Some(Duration(1, 15))
        case CCU => Some(Duration(2, 30))
        case HYD => Some(Duration(1, 20))
        case COK => Some(Duration(1, 25))
        case GOI => Some(Duration(1, 10))
        case BLR => None)
      case MAA => (match b
        case DEL => Some(Duration(2, 50))
        case BOM => Some(Duration(1, 50))
        case BLR => Some(Duration(1, 15))
        case CCU => Some(Duration(2, 15))
        case HYD => Some(Duration(1, 30))
        case COK => Some(Duration(1, 25))
        case GOI => Some(Duration(1, 45))
        case MAA => None)
      case CCU => (match b
        case DEL => Some(Duration(2, 30))
        case BOM => Some(Duration(2, 45))
        case BLR => Some(Duration(2, 30))
        case MAA => Some(Duration(2, 15))
        case HYD => Some(Duration(2, 10))
        case COK => Some(Duration(2, 50))
        case GOI => Some(Duration(2, 30))
        case CCU => None)
      case HYD => (match b
        case DEL => Some(Duration(2, 35))
        case BOM => Some(Duration(1, 25))
        case BLR => Some(Duration(1, 20))
        case MAA => Some(Duration(1, 30))
        case CCU => Some(Duration(2, 10))
        case COK => Some(Duration(1, 45))
        case GOI => Some(Duration(1, 30))
        case HYD => None)
      case COK => (match b
        case DEL => Some(Duration(3, 15))
        case BOM => Some(Duration(1, 30))
        case BLR => Some(Duration(1, 25))
        case MAA => Some(Duration(1, 25))
        case CCU => Some(Duration(2, 50))
        case HYD => Some(Duration(1, 45))
        case GOI => Some(Duration(1, 20))
        case COK => None)
      case GOI => (match b
        case DEL => Some(Duration(2, 45))
        case BOM => Some(Duration(1, 15))
        case BLR => Some(Duration(1, 10))
        case MAA => Some(Duration(1, 45))
        case CCU => Some(Duration(2, 30))
        case HYD => Some(Duration(1, 30))
        case COK => Some(Duration(1, 20))
        case GOI => None)
  }

  /** `getFlightDuration`: the entry for `${origin}-${destination}`, or 2h30 when there is none. */
  function FlightDuration(origin: string, destination: string): Duration {
    match (AirportOf(origin), AirportOf(destination))
    case (Some(a), Some(b)) => TableEntry(a, b).GetOr(DefaultDuration)
    case _ => DefaultDuration
  }

  /** The key `${origin}-${destination}` names the entry of two airports exactly when origin and
      destination are their codes, so reading the table by airport pair is reading it by key. */
  lemma KeyNamesPair(origin: string, destination: string, a: Airport, b: Airport)
    ensures DateUtils.Dashed(origin, destination) == DateUtils.Dashed(Code(a), Code(b))
            <==> origin == Code(a) && destination == Code(b)
  {
    if |origin| == 3 {
      DateUtils.DashedEqual(origin, destination, Code(a), Code(b));
    } else if |origin| < 7 {
      var key := DateUtils.Dashed(Code(a), Code(b));
      assert DateUtils.Dashed(origin, destination)[|origin|] == '-';
      if |origin| < 3 {
        assert key[|origin|] == Code(a)[|origin|];
      } else {
        assert key[|origin|] == Code(b)[|origin| - 4];
      }
    }
  }

  /** The table has an entry for every pair of different airports and none for an airport to
      itself: fifty-six entries. */
  lemma TableCoversPairs(a: Airport, b: Airport)
    ensures TableEntry(a, b).Some? <==> a != b
  {
  }

  /** The table is symmetric: the way back takes as long as the way out, and so does any pair
      outside the table. */
  lemma DurationSymmetric(origin: string, destination: string)
    ensures FlightDuration(origin, destination) == FlightDuration(destination, origin)
  {
  }

  // ---------------------------------------------------------------------------
  // Departure, arrival and stops
  // ---------------------------------------------------------------------------

  /** The departure-clock hash: the same fold without the final `hash & hash`, so the value is
      not brought back into 32 bits (only the shift works on 32 bits). */
  function DepartureHash(route: string): int {
    if |route| == 0 then 0
    else
      var h := DepartureHash(route[..|route| - 1]);
      ToInt32(h * 32) - h + route[|route| - 1] as int
  }

  /** The clock a flight without a departure time is given: hour `6 + |h| mod 16`, minute
      `(|h| mod 4) * 15`. */
  function DepartureClock(route: string): (hm: (int, int))
    ensures 6 <= hm.0 <= 21
    ensures hm.1 in {0, 15, 30, 45}
  {
    var h := Abs(DepartureHash(route));
    (6 + h % 16, (h % 4) * 15)
  }

  /** Whether a generated flight has a stop: `|h| mod 10 < 3` on the truncated route hash. */
  predicate HasStops(route: string) {
    Abs(RouteHash(route)) % 10 < 3
  }

  /** `stops`: a value the flight already has is kept, even `null` or `0`; otherwise 1 or 0. */
  function Stops(given: JsVal, route: string): (r: JsVal)
    ensures given != Undefined ==> r == given
    ensures given == Undefined ==> (r == Num(1) <==> HasStops(route)) && (r == Num(0) <==> !HasStops(route))
  {
    if given != Undefined then given else Num(if HasStops(route) then 1 else 0)
  }

  const HourMs: int := 3600000
  const MinuteMs: int := 60000

  /** `generateRealisticArrivalTime` on a departure instant: the table's duration later. */
  function ArrivalMs(departureMs: int, origin: string, destination: string): int {
    var d := FlightDuration(origin, destination);
    departureMs + (d.hours * 60 + d.minutes) * MinuteMs
  }

  /** `calculateDuration` on two instants (`None` for a missing or unparsable time): `None`
      stands for `--h --m`; otherwise whole hours and the whole minutes left over. */
  function DurationParts(departureMs: Option<int>, arrivalMs: Option<int>): (r: Option<(int, int)>)
    ensures r.Some? <==> departureMs.Some? && arrivalMs.Some? && arrivalMs.value > departureMs.value
    ensures r.Some? ==>
              var diff := arrivalMs.value - departureMs.value;
              r.value.0 >= 0 && 0 <= r.value.1 < 60
              && r.value.0 * HourMs + r.value.1 * MinuteMs <= diff < r.value.0 * HourMs + (r.value.1 + 1) * MinuteMs
  {
    if departureMs.None? || arrivalMs.None? then None
    else
      var diff := arrivalMs.value - departureMs.value;
      if diff <= 0 then None
      else Some((diff / HourMs, (diff % HourMs) / MinuteMs))
  }

  /** The text shown for a duration. */
  function DurationText(parts: Option<(int, int)>): string {
    match parts
    case None => "--h --m"
    case Some((h, m)) => IntToString(h) + "h " + IntToString(m) + "m"
  }

  /** A generated arrival is displayed as exactly the table's duration. */
  lemma GeneratedArrivalShowsTableDuration(departureMs: int, origin: string, destination: string)
    requires FlightDuration(origin, destination).minutes < 60
    ensures var d := FlightDuration(origin, destination);
            DurationParts(Some(departureMs), Some(ArrivalMs(departureMs, origin, destination)))
              == Some((d.hours, d.minutes))
  {
    var d := FlightDuration(origin, destination);
    var diff := (d.hours * 60 + d.minutes) * MinuteMs;
    assert diff == d.hours * HourMs + d.minutes * MinuteMs;
    assert diff > 0 by {
      assert d.hours >= 1;
    }
    assert diff / HourMs == d.hours;
    assert diff % HourMs == d.minutes * MinuteMs;
  }

  /** Every duration in the table, and the default, has fewer than sixty minutes and at least
      one hour. */
  lemma DurationsWellFormed(origin: string, destination: string)
    ensures FlightDuration(origin, destination).minutes < 60
    ensures FlightDuration(origin, destination).hours >= 1
  {
  }

  // ---------------------------------------------------------------------------
  // Price by class
  // ---------------------------------------------------------------------------

  /** The class multiplier in tenths: 1.0, 1.4, 2.2, 3.5, and 1.0 for any other class. */
  function MultiplierTenths(travelClass: string): (m: int)
    ensures m >= 10
  {
    if travelClass == "Premium Economy" then 14
    else if travelClass == "Business" then 22
    else if travelClass == "First Class" then 35
    else 10
  }

  /** `Math.round(price * multiplier)`: rounding half up. */
  function AdjustedPrice(price: int, travelClass: string): (r: int)
    ensures 10 * r <= price * MultiplierTenths(travelClass) + 5 < 10 * r + 10
  {
    (price * MultiplierTenths(travelClass) + 5) / 10
  }

  /** Economy, and any class the page does not know, keeps the price; for a non-negative
      price the dearer classes never cost less. */
  lemma ClassPricesOrdered(price: int, unknown: string)
    requires unknown != "Premium Economy" && unknown != "Business" && unknown != "First Class"
    ensures AdjustedPrice(price, "Economy") == price
    ensures AdjustedPrice(price, unknown) == price
    ensures price >= 0 ==>
              AdjustedPrice(price, "Economy") <= AdjustedPrice(price, "Premium Economy")
              <= AdjustedPrice(price, "Business") <= AdjustedPrice(price, "First Class")
  {
  }

  // ---------------------------------------------------------------------------
  // The listing
  // ---------------------------------------------------------------------------

  /** A flight as the API returns it; `""` marks an absent airline, time or flight number, while
      origin and destination are kept as sent, since the route key writes them out. */
  datatype ApiFlight = ApiFlight(
    id: JsVal, airline: string, origin: JsVal, destination: JsVal, price: int,
    departureTime: string, arrivalTime: string, flightNumber: string, stops: JsVal)

  /** When a flight leaves: the time the API gave, or the generated clock on the searched day. */
  datatype Departure = GivenDeparture(text: string) | AtClock(hour: int, minute: int)

  /** When it arrives: the time the API gave, the table's duration after departure, or none. */
  datatype Arrival = GivenArrival(text: string) | AfterDuration(duration: Duration) | NoArrival

  /** A flight as the page lists it. */
  datatype Listing = Listing(
    id: JsVal, displayId: string, airline: string, airlineLogo: string, flightNumber: string,
    origin: JsVal, destination: JsVal, departure: Departure, arrival: Arrival, stops: JsVal, price: int)

  /** `${flight.origin}-${flight.destination}`: both ends as template text, so an absent end is
      written `undefined`. */
  function RouteKey(f: ApiFlight): string {
    DateUtils.Dashed(Interpolate(f.origin), Interpolate(f.destination))
  }

  /** `${route}-${airlineInfo.code}`: the display id starts with the route key. */
  function DisplayId(route: string, airline: string): (d: string)
    ensures route + "-" <= d
  {
    var d := DateUtils.Dashed(route, AirlineInfo(airline, route).code);
    assert d == (route + "-") + AirlineInfo(airline, route).code;
    d
  }

  /** The enhancement of one fetched flight. `departureParses` says whether a given departure
      text is a valid date (`generateRealisticArrivalTime` returns `null` when it is not). */
  function Enhance(f: ApiFlight, travelClass: string, departureParses: bool): (l: Listing)
    ensures l.id == f.id && l.origin == f.origin && l.destination == f.destination
    ensures f.departureTime != "" ==> l.departure == GivenDeparture(f.departureTime)
    ensures f.arrivalTime != "" && f.arrivalTime != f.departureTime ==> l.arrival == GivenArrival(f.arrivalTime)
    ensures f.flightNumber != "" ==> l.flightNumber == f.flightNumber
    ensures RouteKey(f) + "-" <= l.displayId
    ensures f.departureTime == "" ==> l.departure == AtClock(DepartureClock(RouteKey(f)).0, DepartureClock(RouteKey(f)).1)
  {
    var route := RouteKey(f);
    var info := AirlineInfo(f.airline, route);
    var departure :=
      if f.departureTime != "" then GivenDeparture(f.departureTime)
      else var (h, m) := DepartureClock(route); AtClock(h, m);
    var arrival :=
      if f.arrivalTime != "" && f.arrivalTime != f.departureTime then GivenArrival(f.arrivalTime)
      else if !Truthy(f.origin) || !Truthy(f.destination) || (departure.GivenDeparture? && !departureParses) then NoArrival
      else AfterDuration(FlightDuration(Interpolate(f.origin), Interpolate(f.destination)));
    Listing(f.id, DisplayId(route, f.airline), info.name, info.logo,
            if f.flightNumber != "" then f.flightNumber else FlightNumber(info.code, route),
            f.origin, f.destination, departure, arrival, Stops(f.stops, route),
            AdjustedPrice(f.price, travelClass))
  }

  /** A flight with nothing but its route gets a generated departure within 06:00-21:45 on a
      quarter hour, and a generated arrival the table's duration later. */
  lemma BareFlightGenerated(f: ApiFlight, travelClass: string, parses: bool)
    requires f.departureTime == "" && f.arrivalTime == "" && Truthy(f.origin) && Truthy(f.destination)
    ensures var l := Enhance(f, travelClass, parses);
            && l.departure.AtClock? && 6 <= l.departure.hour <= 21 && l.departure.minute in {0, 15, 30, 45}
            && l.arrival == AfterDuration(FlightDuration(Interpolate(f.origin), Interpolate(f.destination)))
  {
  }

  /** The route key writes both ends as template text: the display id starts with it, and a
      flight without an origin is keyed and timed as the route `undefined-{destination}`. */
  lemma RouteWritesAbsentEnds(f: ApiFlight, travelClass: string, parses: bool)
    ensures DateUtils.Dashed(Interpolate(f.origin), Interpolate(f.destination)) + "-" <= Enhance(f, travelClass, parses).displayId
    ensures f.origin == Undefined ==> "undefined-" <= Enhance(f, travelClass, parses).displayId
    ensures f.origin == Undefined && f.departureTime == "" ==>
              Enhance(f, travelClass, parses).departure
              == AtClock(DepartureClock("undefined-" + Interpolate(f.destination)).0,
                         DepartureClock("undefined-" + Interpolate(f.destination)).1)
  {
    if f.origin == Undefined {
      AbsentOriginKey(f, Enhance(f, travelClass, parses).displayId);
    }
  }

  /** Without an origin the route key is `undefined-{destination}`, so every text the key and
      a dash start also starts with `undefined-`. */
  lemma AbsentOriginKey(f: ApiFlight, id: string)
    requires f.origin == Undefined && RouteKey(f) + "-" <= id
    ensures RouteKey(f) == "undefined-" + Interpolate(f.destination)
    ensures "undefined-" <= id
  {
    var key := RouteKey(f);
    assert key == "undefined-" + Interpolate(f.destination);
    assert id[..|key| + 1] == key + "-";
    assert id[..10] == (key + "-")[..10] == "undefined-";
  }


  // ---------------------------------------------------------------------------
  // Filtering
  // ---------------------------------------------------------------------------

  /** `(flight.origin || '')`: the text a city is searched in, empty when the city is absent. */
  function CityText(v: JsVal): string {
    if Truthy(v) then Interpolate(v) else ""
  }

  /** A search term only filters when it is given and is not `Any`. */
  predicate CityMatches(city: string, term: string) {
    term == "" || term == "Any" || ContainsIgnoreCase(city, term)
  }

  /** The `direct` filter: no stops (`!stops`, `0` or `'0'`). */
  predicate IsDirect(stops: JsVal) {
    !Truthy(stops) || stops == Num(0) || stops == Str("0")
  }

  /** The `stops` filter: `stops && stops > 0`; any value other than a number or a boolean is
      compared as the number its text spells (an array through its joined elements). */
  predicate HasStopsValue(stops: JsVal) {
    Truthy(stops) && match stops
      case Num(n) => n > 0
      case Bool(b) => b
      case Str(_) => StopsText(Interpolate(stops))
      case Arr(_) => StopsText(Interpolate(stops))
      case Obj(_) => StopsText(Interpolate(stops))
      case _ => false
  }

  /** `text > 0` for a text: it is read as a number, and a text that is not one compares false. */
  predicate StopsText(t: string) {
    ToNumber(t).Some? && AboveWhole(ToNumber(t).value, 0)
  }

  predicate StopsFilter(stops: JsVal, filterBy: string) {
    if filterBy == "direct" then IsDirect(stops)
    else if filterBy == "stops" then HasStopsValue(stops)
    else true
  }

  /** The listing's filter predicate. */
  predicate Shown(l: Listing, fromCity: string, toCity: string, filterBy: string) {
    CityMatches(CityText(l.origin), fromCity) && CityMatches(CityText(l.destination), toCity) && StopsFilter(l.stops, filterBy)
  }

  /** The filter step of `sortedAndFilteredFlights`: an in-order selection of exactly the
      listings that match the search and the stops filter. */
  function FilterFlights(ls: seq<Listing>, fromCity: string, toCity: string, filterBy: string): (r: seq<Listing>)
    ensures IsSubseq(r, ls)
    ensures forall i :: 0 <= i < |r| ==> Shown(r[i], fromCity, toCity, filterBy)
    ensures forall l :: l in ls && Shown(l, fromCity, toCity, filterBy) ==> l in r
  {
    Filter(ls, l => Shown(l, fromCity, toCity, filterBy))
  }

  // ---------------------------------------------------------------------------
  // Sorting
  // ---------------------------------------------------------------------------

  /** The list is in non-decreasing order of the key. */
  predicate SortedBy(s: seq<Listing>, key: Listing -> int) {
    forall i, j :: 0 <= i < j < |s| ==> key(s[i]) <= key(s[j])
  }

  /** Puts `x` before the first listing whose key is not below its own. */
  function InsertByKey(x: Listing, s: seq<Listing>, key: Listing -> int): (r: seq<Listing>)
    ensures multiset(r) == multiset(s) + multiset{x}
  {
    if |s| == 0 || key(x) <= key(s[0]) then [x] + s
    else
      assert s == [s[0]] + s[1..];
      [s[0]] + InsertByKey(x, s[1..], key)
  }

  /** The stable sort `Array.prototype.sort` performs with the comparator `key(a) - key(b)`:
      each listing, taken from the back, goes before every later listing with an equal key. */
  function SortByKey(ls: seq<Listing>, key: Listing -> int): seq<Listing> {
    if |ls| == 0 then [] else InsertByKey(ls[0], SortByKey(ls[1..], key), key)
  }

  /** Inserting into a sorted list keeps it sorted. */
  lemma {:induction false} InsertKeepsSorted(x: Listing, s: seq<Listing>, key: Listing -> int)
    requires SortedBy(s, key)
    ensures SortedBy(InsertByKey(x, s, key), key)
    decreases |s|
  {
    if |s| > 0 && key(x) > key(s[0]) {
      var tail := InsertByKey(x, s[1..], key);
      InsertKeepsSorted(x, s[1..], key);
      InsertAbove(x, s[1..], key, key(s[0]));
      assert InsertByKey(x, s, key) == [s[0]] + tail;
    }
  }

  /** A bound below the inserted listing and every listed one stays below the result. */
  lemma {:induction false} InsertAbove(x: Listing, s: seq<Listing>, key: Listing -> int, b: int)
    requires b <= key(x) && forall i :: 0 <= i < |s| ==> b <= key(s[i])
    ensures forall i :: 0 <= i < |InsertByKey(x, s, key)| ==> b <= key(InsertByKey(x, s, key)[i])
    decreases |s|
  {
    if |s| > 0 && key(x) > key(s[0]) {
      InsertAbove(x, s[1..], key, b);
      var r := InsertByKey(x, s, key);
      assert r == [s[0]] + InsertByKey(x, s[1..], key);
      forall i | 0 < i < |r|
        ensures b <= key(r[i])
      {
        assert r[i] == InsertByKey(x, s[1..], key)[i - 1];
      }
    }
  }

  /** The sorted list holds the same listings, in key order. */
  lemma SortByKeySpec(ls: seq<Listing>, key: Listing -> int)
    ensures SortedBy(SortByKey(ls, key), key)
    ensures multiset(SortByKey(ls, key)) == multiset(ls)
  {
    SortByKeySorted(ls, key);
    SortByKeyPermutes(ls, key);
  }

  lemma {:induction false} SortByKeySorted(ls: seq<Listing>, key: Listing -> int)
    ensures SortedBy(SortByKey(ls, key), key)
    decreases |ls|
  {
    if |ls| > 0 {
      SortByKeySorted(ls[1..], key);
      InsertKeepsSorted(ls[0], SortByKey(ls[1..], key), key);
    }
  }

  lemma {:induction false} SortByKeyPermutes(ls: seq<Listing>, key: Listing -> int)
    ensures multiset(SortByKey(ls, key)) == multiset(ls)
    decreases |ls|
  {
    if |ls| > 0 {
      SortByKeyPermutes(ls[1..], key);
      assert ls == [ls[0]] + ls[1..];
    }
  }


  /** A list already in key order is left exactly as it is: equal keys are never swapped. */
  lemma {:induction false} SortedUnchanged(ls: seq<Listing>, key: Listing -> int)
    requires SortedBy(ls, key)
    ensures SortByKey(ls, key) == ls
    decreases |ls|
  {
    if |ls| > 0 {
      SortedUnchanged(ls[1..], key);
      if |ls| > 1 {
        assert key(ls[0]) <= key(ls[1]);
      }
    }
  }

  /** The sort step of `sortedAndFilteredFlights`: by price, by duration or by departure;
      any other choice keeps the filtered order. Duration and departure are differences of
      `Date` values and are given as key functions. */
  function SortFlights(ls: seq<Listing>, sortBy: string, durationOf: Listing -> int, departureOf: Listing -> int): (r: seq<Listing>)
  {
    if sortBy == "price" then SortByKey(ls, PriceOf)
    else if sortBy == "duration" then SortByKey(ls, durationOf)
    else if sortBy == "departure" then SortByKey(ls, departureOf)
    else ls
  }

  /** The price key. */
  function PriceOf(l: Listing): int {
    l.price
  }

  /** Sorting by price lists the same flights, cheapest first. */
  lemma SortedByPrice(ls: seq<Listing>, durationOf: Listing -> int, departureOf: Listing -> int)
    ensures var r := SortFlights(ls, "price", durationOf, departureOf);
            multiset(r) == multiset(ls) && forall i, j :: 0 <= i < j < |r| ==> r[i].price <= r[j].price
  {
    SortByKeySpec(ls, PriceOf);
  }

  /** With no search terms and the `all` filter, every flight is listed, in order. */
  lemma NoCriteriaKeepsAll(ls: seq<Listing>)
    ensures FilterFlights(ls, "", "", "all") == ls
  {
    KeepAll(ls, l => Shown(l, "", "", "all"));
  }

  /** Filtering the filtered list again changes nothing. */
  lemma FilterStable(ls: seq<Listing>, fromCity: string, toCity: string, filterBy: string)
    ensures FilterFlights(FilterFlights(ls, fromCity, toCity, filterBy), fromCity, toCity, filterBy)
            == FilterFlights(ls, fromCity, toCity, filterBy)
  {
    FilterIdempotent(ls, l => Shown(l, fromCity, toCity, filterBy));
  }

  /** For a numeric stop count, the `direct` and `stops` filters split the flights: each
      flight with a count of zero or more is in exactly one of them. */
  lemma DirectAndStopsPartition(n: nat)
    ensures IsDirect(Num(n)) != HasStopsValue(Num(n))
  {
  }

  /** A search term matches regardless of letter case. */
  lemma SearchIgnoresCase(city: string, term: string)
    requires term != "" && term != "Any"
    ensures CityMatches(city, term) <==> Contains(Lower(city), Lower(term))
  {
  }
}

=== FILE: flow.dfy ===
/** The booking flow across pages: which session flags the pages write, and which flow pages
    their guards then let the user reach. As written, the seat map and the payment page
    navigate without writing the flags the next guards require; the corrected flow writes them. */
module Flow {
  import opened Wrappers
  import opened Js
  import opened Guards
  import opened Routes
  import PassengerDetails
  import Seats
  import Payment
  import DateUtils

  /** The events that write the session: seats confirmed on the seat map, passenger details
      saved, payment made, and every `sessionStorage.clear()` (log-outs and refused guards). */
  datatype Step = SeatsConfirmed | DetailsSaved | Paid | Cleared

  /** The session after one step. `corrected` adds the two hand-off flags the guards expect. */
  function Apply(session: Session, step: Step, corrected: bool): Session {
    match step
    case SeatsConfirmed => if corrected then session[FromBookings := "true"] else session
    case DetailsSaved => session[FromPassengerDetails := "true"]
    case Paid => if corrected then session[FromPayment := "true"] else session
    case Cleared => map[]
  }

  /** The session after a run of steps from a fresh one. */
  function Run(steps: seq<Step>, corrected: bool): Session
    decreases |steps|
  {
    if |steps| == 0 then map[] else Apply(Run(steps[..|steps| - 1], corrected), steps[|steps| - 1], corrected)
  }

  /** As written, no sequence of steps ever sets the flag of the passenger-details guard or of
      the confirmation guard. */
  lemma {:induction false} AsWrittenNeverHandsOff(steps: seq<Step>)
    ensures !SessionFlag(Run(steps, false), FromBookings)
    ensures !SessionFlag(Run(steps, false), FromPayment)
    decreases |steps|
  {
    if |steps| > 0 {
      AsWrittenNeverHandsOff(steps[..|steps| - 1]);
    }
  }

  /** Hence, as written, the passenger-details page and the confirmation page are never shown,
      whatever the user did before and whatever `ProtectedRoute` decides. */
  lemma AsWrittenFlowUnreachable(steps: seq<Step>, local: Storage, pv: Verdict)
    ensures !Resolve("/passenger-details", local, Run(steps, false), pv).Show?
    ensures !Resolve("/booking-confirmation", local, Run(steps, false), pv).Show?
  {
    AsWrittenNeverHandsOff(steps);
    FlowPageNeedsFlag(local, Run(steps, false), pv);
  }

  /** With the hand-off flags written, a logged-in user admitted by `ProtectedRoute` reaches
      each page of the flow in turn. */
  lemma CorrectedFlowReachesEachPage(local: Storage)
    requires HasToken(local)
    ensures Resolve("/passenger-details", local, Run([SeatsConfirmed], true), Render).Show?
    ensures Resolve("/payment", local, Run([SeatsConfirmed, DetailsSaved], true), Render).Show?
    ensures Resolve("/booking-confirmation", local, Run([SeatsConfirmed, DetailsSaved, Paid], true), Render).Show?
  {
    var s1 := Run([SeatsConfirmed], true);
    assert [SeatsConfirmed][..0] == [];
    assert [SeatsConfirmed, DetailsSaved][..1] == [SeatsConfirmed];
    assert [SeatsConfirmed, DetailsSaved, Paid][..2] == [SeatsConfirmed, DetailsSaved];
    FlowPageNeedsFlag(local, s1, Render);
    FlowPageNeedsFlag(local, Run([SeatsConfirmed, DetailsSaved], true), Render);
    FlowPageNeedsFlag(local, Run([SeatsConfirmed, DetailsSaved, Paid], true), Render);
  }

  /** The correction only adds flags: every flag the pages write as written is written by the
      corrected flow too. */
  lemma {:induction false} CorrectionOnlyAdds(steps: seq<Step>, key: string)
    requires SessionFlag(Run(steps, false), key)
    ensures SessionFlag(Run(steps, true), key)
    decreases |steps|
  {
    if |steps| > 0 {
      var init := steps[..|steps| - 1];
      var last := steps[|steps| - 1];
      if last != Cleared && !(last == DetailsSaved && key == FromPassengerDetails) {
        CorrectionOnlyAdds(init, key);
      }
    }
  }

  // ---------------------------------------------------------------------------
  // The steps as the pages take them
  // ---------------------------------------------------------------------------

  /** `DetailsSaved` is what a submission of the passenger-details page does to the session:
      one that moves on to the payment page sets exactly that page's flag (in both flows), and
      every other outcome leaves the session as it was. */
  lemma SubmitIsDetailsStep(forms: seq<PassengerDetails.PassengerForm>, local: Storage, session: Session,
                            createReply: Response, saveReply: Response, corrected: bool)
    ensures var r := PassengerDetails.Submit(forms, local, session, createReply, saveReply);
            r.session == if r.navigateTo.Some? then Apply(session, DetailsSaved, corrected) else session
  {
  }

  /** The seat map's confirmation carries no session (`handleConfirmBooking` writes none), so
      as written `SeatsConfirmed` leaves the session as it was and the passenger-details page it
      moves on to is refused unless its flag was already set. */
  lemma ConfirmedSeatsRefused(sel: seq<string>, passengers: int, flightIdParam: string, price: int,
                              flight: Seats.FlightData, dateParam: string, today: DateUtils.Date,
                              now: int, parseDate: string -> Option<int>,
                              local: Storage, session: Session, pv: Verdict)
    requires !SessionFlag(session, FromBookings)
    ensures var out := Seats.ConfirmBooking(sel, passengers, flightIdParam, price, flight, dateParam, today, now, parseDate);
            Seats.NavigatePath(out).Some? ==>
              !Resolve(Seats.NavigatePath(out).value, local, Apply(session, SeatsConfirmed, false), pv).Show?
  {
    FlowPageNeedsFlag(local, session, pv);
  }

  /** Likewise for paying: `Pay` carries no session, so as written `Paid` leaves it as it was,
      and the confirmation page `Pay` navigates to is refused unless its flag was already set. */
  lemma PaidNavigationRefused(payMethod: string, card: Payment.CardDetails, upiId: string,
                              bookingInfo: JsVal, completed: bool,
                              local: Storage, session: Session, pv: Verdict)
    requires !SessionFlag(session, FromPayment)
    ensures var r := Payment.Pay(payMethod, card, upiId, bookingInfo, completed);
            r.navigateTo.Some? ==> !Resolve(r.navigateTo.value, local, Apply(session, Paid, false), pv).Show?
  {
    FlowPageNeedsFlag(local, session, pv);
  }
}

=== FILE: guards.dfy ===
/** `components/RouteGuard.jsx`, `components/RoleProtectedRoute.jsx` and
    `components/AuthRoute.jsx`: the decisions that wrap pages in the route table. */
module Guards {
  import opened Wrappers
  import opened Js

  /** What a wrapper renders: its children, or a redirect. */
  datatype Verdict = Render | RedirectTo(path: string)

  /** `localStorage.getItem('userToken') || localStorage.getItem('token')` is truthy. */
  predicate HasToken(local: Storage) {
    ItemTruthy(local, "userToken") || ItemTruthy(local, "token")
  }

  /** `RouteGuard`: no token sends the user to `/login`; no required flag renders; a missing
      flag clears the whole session and sends the user to `/home`; a present flag renders and is
      left in place. `requiredAuth` is `""` for none. Returns the verdict and the session after. */
  function RouteGuard(local: Storage, session: Session, requiredAuth: string): (r: (Verdict, Session))
    ensures !HasToken(local) ==> r == (RedirectTo("/login"), session)
    ensures r.0 == Render <==> HasToken(local) && (requiredAuth == "" || SessionFlag(session, requiredAuth))
    ensures r.0 == Render ==> r.1 == session
    ensures r.0 == RedirectTo("/home") ==> r.1 == map[]
  {
    if !HasToken(local) then (RedirectTo("/login"), session)
    else if requiredAuth == "" then (Render, session)
    else if !SessionFlag(session, requiredAuth) then (RedirectTo("/home"), map[])
    else (Render, session)
  }

  const FromPassengerDetails: string := "fromPassengerDetails"
  const FromPayment: string := "fromPayment"
  const FromBookings: string := "fromBookings"

  /** The three named guards and the flag each requires. */
  function PaymentGuard(local: Storage, session: Session): (Verdict, Session) {
    RouteGuard(local, session, FromPassengerDetails)
  }

  function BookingConfirmationGuard(local: Storage, session: Session): (Verdict, Session) {
    RouteGuard(local, session, FromPayment)
  }

  function PassengerDetailsGuard(local: Storage, session: Session): (Verdict, Session) {
    RouteGuard(local, session, FromBookings)
  }

  /** A flag is not consumed: passing a guard once lets the same session pass it again, so a
      page reached once can be re-entered by its address for as long as the session lasts. */
  lemma FlagNotConsumed(local: Storage, session: Session, flag: string)
    requires flag != "" && RouteGuard(local, session, flag).0 == Render
    ensures RouteGuard(local, RouteGuard(local, session, flag).1, flag).0 == Render
  {
  }

  /** A failed guard wipes every flag, so one refused page also closes the others. */
  lemma RefusalClosesEveryGuard(local: Storage, session: Session, flag: string, other: string)
    requires HasToken(local) && flag != "" && !SessionFlag(session, flag) && other != ""
    ensures RouteGuard(local, RouteGuard(local, session, flag).1, other) == (RedirectTo("/home"), map[])
  {
  }

  /** `RoleProtectedRoute`: a token, stored user data that parses, and a `Role` that is one of
      the allowed ones (compared exactly); every refusal goes to `/login`. */
  function RoleProtected(local: Storage, allowedRoles: seq<string>): (r: Verdict)
    ensures r.RedirectTo? ==> r.path == "/login"
  {
    if !HasToken(local) then RedirectTo("/login")
    else match ParseItemOrEmpty(local, "userData")
      case None => RedirectTo("/login")
      case Some(userData) =>
        var role := Get(userData, "Role");
        if !Truthy(role) || !(role.Str? && role.s in allowedRoles) then RedirectTo("/login")
        else Render
  }

  /** The stored user's role, when the stored user data parses and carries a string role. */
  function StoredRole(local: Storage): Option<string> {
    match ParseItemOrEmpty(local, "userData")
    case None => None
    case Some(userData) =>
      var role := Get(userData, "Role");
      if role.Str? && role.s != "" then Some(role.s) else None
  }

  /** The role gate lets a user through exactly when there is a token and the stored role is
      one of the allowed ones. */
  lemma RoleProtectedSpec(local: Storage, allowedRoles: seq<string>)
    ensures RoleProtected(local, allowedRoles) == Render
            <==> HasToken(local) && StoredRole(local).Some? && StoredRole(local).value in allowedRoles
  {
  }

  /** `AuthRoute`: a logged-in user is sent to `/home`, anyone else sees the page. */
  function AuthRoute(local: Storage): (r: Verdict)
    ensures r == Render || r == RedirectTo("/home")
  {
    if HasToken(local) then RedirectTo("/home") else Render
  }

  /** The login pages and the guarded pages split the users between them: for any storage,
      `AuthRoute` renders exactly when `RouteGuard` sends the user to `/login`. */
  lemma AuthRouteComplementsGuard(local: Storage, session: Session, requiredAuth: string)
    ensures AuthRoute(local) == Render <==> RouteGuard(local, session, requiredAuth).0 == RedirectTo("/login")
  {
  }

  /** The role gate is stricter than the token check: whoever passes it has a token, and so
      would be turned away from the login pages. */
  lemma RolePassImpliesToken(local: Storage, allowedRoles: seq<string>)
    requires RoleProtected(local, allowedRoles) == Render
    ensures RouteGuard(local, map[], "").0 == Render
    ensures AuthRoute(local) == RedirectTo("/home")
  {
  }
}

=== FILE: history.dfy ===
/** `pages/BookingHistory.jsx`: the list of the user's bookings, their status labels, and the
    request to cancel one — refused within two days of departure. */
module BookingHistory {
  import opened Wrappers
  import opened Strings
  import opened Js
  import opened DateUtils
  import Guards

  // ---------------------------------------------------------------------------
  // Loading the list
  // ---------------------------------------------------------------------------

  /** The storage entries a rejected session takes away. */
  const LoginKeys: set<string> := {"userToken", "token", "userData"}

  const LoadFailed: string := "Failed to load booking history. Please try again."
  const SessionExpired: string := "Session expired. Please log in again."

  /** What the page holds once `fetchUserBookings` settles. */
  datatype Loaded = Loaded(local: Storage, calls: seq<Call>, bookings: JsVal, error: Option<string>, navigateTo: Option<string>)

  /** `fetchUserBookings`: only `userToken` is read; without it the page goes to `/login`.
      A 401 also drops the login entries; any other failure, or a body that is not JSON,
      leaves the empty list with a retry message. A falsy body becomes the empty list. */
  function LoadBookings(local: Storage, reply: Response): (r: Loaded)
    ensures r.navigateTo.Some? ==> r.navigateTo.value == "/login" && r.error.Some?
    ensures r.error.Some? ==> r.bookings == Arr([])
    ensures !ItemTruthy(local, "userToken") ==> r.calls == [] && r.navigateTo == Some("/login")
    ensures ItemTruthy(local, "userToken") ==> r.calls == [Call("GET", "/bookings", Undefined)]
    ensures r.local == local || r.local == local - LoginKeys
  {
    if !ItemTruthy(local, "userToken") then
      Loaded(local, [], Arr([]), Some("Please log in to view your bookings"), Some("/login"))
    else
      var calls := [Call("GET", "/bookings", Undefined)];
      match reply
      case NetworkError => Loaded(local, calls, Arr([]), Some(LoadFailed), None)
      case Reply(status, _, body) =>
        if !Ok(reply) then
          if status == 401 then Loaded(local - LoginKeys, calls, Arr([]), Some(SessionExpired), Some("/login"))
          else Loaded(local, calls, Arr([]), Some(LoadFailed), None)
        else match body
          case None => Loaded(local, calls, Arr([]), Some(LoadFailed), None)
          case Some(v) => Loaded(local, calls, Or([v, Arr([])]), None, None)
  }

  /** A successful load shows the reply's list, and a rejected session is logged out: no
      guarded page opens afterwards. */
  lemma LoadOutcomes(local: Storage, reply: Response, flag: string)
    requires ItemTruthy(local, "userToken")
    ensures Ok(reply) && reply.body.Some? && Truthy(reply.body.value)
            ==> LoadBookings(local, reply).bookings == reply.body.value && LoadBookings(local, reply).error.None?
    ensures reply.Reply? && reply.status == 401
            ==> var r := LoadBookings(local, reply);
                !Guards.HasToken(r.local) && Guards.RouteGuard(r.local, map[], flag).0 == Guards.RedirectTo("/login")
  {
    if Ok(reply) && reply.body.Some? {
      OrSpec([reply.body.value, Arr([])]);
    }
  }

  /** The list reads `userToken` only, while the route guard accepts `token` too: a user
      holding only `token` passes the guard and is then sent to `/login` by the page. */
  lemma GuardAndPageDisagreeOnToken(local: Storage, reply: Response)
    requires ItemTruthy(local, "token") && !ItemTruthy(local, "userToken")
    ensures Guards.RouteGuard(local, map[], "").0 == Guards.Render
    ensures LoadBookings(local, reply).navigateTo == Some("/login")
  {
  }

  /** `checkUserRole` here: only the admin flag, no redirect, and user data that is not JSON
      counts as not an admin. */
  function IsAdmin(local: Storage): bool {
    match ParseItemOrEmpty(local, "userData")
    case None => false
    case Some(userData) => Get(userData, "Role") == Str("Admin")
  }

  /** For a logged-in user the Admin link shows exactly when the admin dashboard's gate opens. */
  lemma AdminLinkMatchesGate(local: Storage)
    requires Guards.HasToken(local)
    ensures IsAdmin(local) <==> Guards.RoleProtected(local, ["Admin"]) == Guards.Render
  {
  }

  // ---------------------------------------------------------------------------
  // What each booking card shows
  // ---------------------------------------------------------------------------

  /** The status line: either spelling of the field, checked in a fixed order, with exact
      case; anything else is `Unknown`. */
  function StatusLabel(b: JsVal): (text: string)
    ensures text in {"Cancellation Requested", "Refunded", "Cancelled", "Confirmed", "Unknown"}
  {
    var upper, lower := Get(b, "Status"), Get(b, "status");
    if upper == Str("RequestedToCancel") || lower == Str("RequestedToCancel") then "Cancellation Requested"
    else if upper == Str("Refunded") || lower == Str("Refunded") then "Refunded"
    else if upper == Str("Cancelled") || lower == Str("Cancelled") then "Cancelled"
    else if upper == Str("Confirmed") || lower == Str("Confirmed") then "Confirmed"
    else "Unknown"
  }

  /** The cancellation button: the lower-case `status` field, compared without case. */
  predicate CancelButtonShown(b: JsVal) {
    match Get(b, "status")
    case Str(s) => Lower(s) == "confirmed"
    case _ => false
  }

  /** A confirmed booking offers the button, a booking already in any later state does not,
      and the two tests disagree: the label also reads `Status`, and it is case-sensitive, so
      `CONFIRMED` offers the button under the label `Unknown`. */
  lemma LabelAndButton(b: JsVal)
    ensures Get(b, "status") == Str("Confirmed") ==> CancelButtonShown(b)
    ensures Get(b, "status") == Str("Confirmed") && Get(b, "Status") == Undefined ==> StatusLabel(b) == "Confirmed"
    ensures Get(b, "status") in {Str("RequestedToCancel"), Str("Refunded"), Str("Cancelled")} ==> !CancelButtonShown(b)
    ensures b == Obj(map["status" := Str("CONFIRMED")]) ==> CancelButtonShown(b) && StatusLabel(b) == "Unknown"
  {
    LowerStatuses();
  }

  /** How the status words lower-case: both spellings of confirmed agree, the later states differ. */
  lemma LowerStatuses()
    ensures Lower("Confirmed") == "confirmed" && Lower("CONFIRMED") == "confirmed"
    ensures Lower("RequestedToCancel") != "confirmed" && Lower("Refunded") != "confirmed"
    ensures Lower("Cancelled") != "confirmed"
  {
    assert Lower("Confirmed") == "confirmed";
    assert Lower("CONFIRMED") == "confirmed";
    assert Lower("RequestedToCancel")[0] == 'r';
    assert Lower("Refunded")[1] == 'e';
    assert Lower("Cancelled")[0] == 'c' && Lower("Cancelled")[1] == 'a';
  }

  // ---------------------------------------------------------------------------
  // Requesting a cancellation
  // ---------------------------------------------------------------------------

  /** The page state the cancellation touches. */
  datatype Page = Page(local: Storage, bookings: seq<JsVal>, error: Option<string>,
                       showCancelModal: bool, selected: Option<JsVal>, cancelError: string,
                       showRefundModal: bool)

  const TooLate: string := "Sorry, you cannot cancel this booking. Tickets cannot be cancelled within 2 days of departure."

  /** The whole days from today's midnight to the departure day's midnight; `None` is the
      `NaN` an unparseable departure time produces. */
  function DaysUntil(departure: Option<Date>, today: Date): Option<int>
    requires departure.Some? ==> ValidDate(departure.value)
    requires ValidDate(today)
  {
    match departure
    case None => None
    case Some(d) => Some(DayNumber(d) - DayNumber(today))
  }

  /** `handleCancelBooking`: within two days the modal opens with the refusal and nothing
      selected; otherwise the booking is selected for confirmation. `NaN <= 2` is false, so an
      unparseable departure time is selected too. */
  function RequestCancel(p: Page, b: JsVal, departure: Option<Date>, today: Date): (r: Page)
    requires departure.Some? ==> ValidDate(departure.value)
    requires ValidDate(today)
    ensures r.showCancelModal
    ensures r.selected.Some? <==> r.cancelError == ""
    ensures r.selected.Some? ==> r.selected.value == b
    ensures r.bookings == p.bookings && r.local == p.local
  {
    var days := DaysUntil(departure, today);
    if days.Some? && days.value <= 2 then p.(cancelError := TooLate, showCancelModal := true, selected := None)
    else p.(cancelError := "", selected := Some(b), showCancelModal := true)
  }

  /** On a real departure date the booking can be selected exactly when departure is at least
      three calendar days away; in particular never on or after the day of departure. */
  lemma CancelWindow(p: Page, b: JsVal, departure: Date, today: Date)
    requires ValidDate(departure) && ValidDate(today)
    ensures RequestCancel(p, b, Some(departure), today).selected.Some?
            <==> DayNumber(departure) >= DayNumber(today) + 3
    ensures !DateBefore(today, departure) ==> RequestCancel(p, b, Some(departure), today).selected.None?
  {
    DayNumberOrder(today, departure);
  }

  /** `{...booking, status: 'RequestedToCancel'}` for the booking whose id matches. */
  function MarkOne(b: JsVal, id: JsVal): JsVal {
    if Get(b, "bookingId") == id then Obj(Fields(b)["status" := Str("RequestedToCancel")]) else b
  }

  /** The list after a granted request: same length and order; every booking with the id
      now reads `RequestedToCancel` and keeps its other fields; the rest are untouched. */
  function MarkRequested(bs: seq<JsVal>, id: JsVal): (r: seq<JsVal>)
    ensures |r| == |bs|
    ensures forall i :: 0 <= i < |bs| && Get(bs[i], "bookingId") != id ==> r[i] == bs[i]
    ensures forall i :: 0 <= i < |bs| && Get(bs[i], "bookingId") == id ==>
              && Get(r[i], "status") == Str("RequestedToCancel")
              && forall k :: k != "status" ==> Get(r[i], k) == Get(bs[i], k)
  {
    Map(bs, b => MarkOne(b, id))
  }

  /** Marking twice is marking once, and a marked booking no longer offers the button. */
  lemma MarkRequestedSettles(bs: seq<JsVal>, id: JsVal)
    ensures MarkRequested(MarkRequested(bs, id), id) == MarkRequested(bs, id)
    ensures forall i :: 0 <= i < |bs| && Get(bs[i], "bookingId") == id ==> !CancelButtonShown(MarkRequested(bs, id)[i])
  {
    var once := MarkRequested(bs, id);
    assert Lower("RequestedToCancel")[0] == 'r';
    forall i | 0 <= i < |bs|
      ensures MarkOne(once[i], id) == once[i]
    {
      if Get(bs[i], "bookingId") == id {
        assert Fields(once[i]) == Fields(bs[i])["status" := Str("RequestedToCancel")];
      }
    }
  }

  /** `confirmCancelBooking` with the reply the PUT gets. Nothing happens without a selection;
      without `userToken` the page error is set and nothing is sent. Otherwise the refusals
      each have their own message, a 401 also drops the login entries, and a granted request
      marks the booking, closes the modal and opens the refund notice. */
  function ConfirmCancel(p: Page, reply: Response): (r: (Page, seq<Call>))
    ensures p.selected.None? ==> r == (p, [])
    ensures r.0.bookings != p.bookings ==> Ok(reply)
  {
    match p.selected
    case None => (p, [])
    case Some(sel) =>
      if !ItemTruthy(p.local, "userToken") then (p.(error := Some("Please log in to cancel bookings")), [])
      else
        var id := Get(sel, "bookingId");
        var calls := [Call("PUT", "/bookings/" + Interpolate(id) + "/request-cancel", Undefined)];
        match reply
        case NetworkError => (p.(cancelError := "Failed to cancel booking: " + FetchFailed), calls)
        case Reply(status, text, body) =>
          if !Ok(reply) then
            if status == 401 then (p.(cancelError := SessionExpired, local := p.local - LoginKeys), calls)
            else (p.(cancelError := CancelRefusal(status, text)), calls)
          else if body.None? then (p.(cancelError := "Failed to cancel booking: " + NotJson), calls)
          else
            (p.(bookings := MarkRequested(p.bookings, id), showCancelModal := false, selected := None,
                cancelError := "", showRefundModal := true), calls)
  }

  /** The message for a refused cancellation other than a 401. */
  function CancelRefusal(status: int, text: string): (m: string)
    ensures m != ""
  {
    if status == 403 then "You are not authorized to cancel this booking."
    else if status == 404 then "Booking not found. It may have already been cancelled."
    else "Failed to cancel booking: " + IntToString(status) + " - " + text
  }

  /** A refused request changes only the message (and, on a 401, drops the login entries
      without leaving the page); a granted one changes only the selected booking's status. */
  lemma ConfirmCancelOutcomes(p: Page, reply: Response)
    requires p.selected.Some? && ItemTruthy(p.local, "userToken")
    ensures var (q, calls) := ConfirmCancel(p, reply);
            && |calls| == 1 && calls[0].verb == "PUT"
            && (!Ok(reply) ==> q.bookings == p.bookings && q.selected == p.selected && q.cancelError != "")
            && (reply.Reply? && reply.status == 401 ==> q.local == p.local - LoginKeys && !Guards.HasToken(q.local))
            && (reply.Reply? && reply.status in {403, 404} ==> q.local == p.local)
            && (Ok(reply) && reply.body.Some? ==>
                  && q.bookings == MarkRequested(p.bookings, Get(p.selected.value, "bookingId"))
                  && q.selected.None? && q.showRefundModal && !q.showCancelModal)
  {
  }

  /** `closeCancelModal`: the modal, the selection, its message and the refund notice go. */
  function CloseCancelModal(p: Page): (r: Page)
    ensures !r.showCancelModal && r.selected.None? && r.cancelError == "" && !r.showRefundModal
    ensures r.bookings == p.bookings && r.local == p.local && r.error == p.error
  {
    p.(showCancelModal := false, selected := None, cancelError := "", showRefundModal := false)
  }

  /** After closing, confirming does nothing: no request can go out for a dismissed booking. */
  lemma ClosedModalSendsNothing(p: Page, reply: Response)
    ensures ConfirmCancel(CloseCancelModal(p), reply).1 == []
  {
  }
}

=== FILE: home.dfy ===
/** `pages/Home.jsx`: the search form — passenger counts, city search and swap, the two
    calendars, date selection and the search that opens the flight list. */
module Home {
  import opened Wrappers
  import opened Strings
  import opened Js
  import opened DateUtils
  import Guards

  // ---------------------------------------------------------------------------
  // Passengers
  // ---------------------------------------------------------------------------

  datatype Passengers = Passengers(adults: int, children: int, infants: int)

  datatype Kind = Adults | Children | Infants

  /** The counts the form starts with. */
  const InitialPassengers: Passengers := Passengers(1, 0, 0)

  /** At least one adult, and no negative count. */
  predicate ValidCounts(p: Passengers) {
    p.adults >= 1 && p.children >= 0 && p.infants >= 0
  }

  /** `updatePassengers`: `increase` adds one; anything else takes one away, but never below
      one adult or zero children or infants. Only the chosen count changes. */
  function UpdatePassengers(p: Passengers, kind: Kind, increase: bool): (r: Passengers)
    ensures kind != Adults ==> r.adults == p.adults
    ensures kind != Children ==> r.children == p.children
    ensures kind != Infants ==> r.infants == p.infants
  {
    var floor := if kind == Adults then 1 else 0;
    var old_ := match kind case Adults => p.adults case Children => p.children case Infants => p.infants;
    var new_ := if increase then old_ + 1 else if old_ - 1 > floor then old_ - 1 else floor;
    match kind
    case Adults => p.(adults := new_)
    case Children => p.(children := new_)
    case Infants => p.(infants := new_)
  }

  /** Every update keeps the counts valid, so the form never shows zero adults. */
  lemma UpdateKeepsValid(p: Passengers, kind: Kind, increase: bool)
    requires ValidCounts(p)
    ensures ValidCounts(UpdatePassengers(p, kind, increase))
    ensures increase ==> Total(UpdatePassengers(p, kind, increase)) == Total(p) + 1
    ensures !increase ==> Total(p) - 1 <= Total(UpdatePassengers(p, kind, increase)) <= Total(p)
  {
  }

  /** A run of clicks on the counters. */
  function Clicks(p: Passengers, clicks: seq<(Kind, bool)>): Passengers
    decreases |clicks|
  {
    if |clicks| == 0 then p else Clicks(UpdatePassengers(p, clicks[0].0, clicks[0].1), clicks[1..])
  }

  /** From the initial counts, no sequence of clicks reaches an invalid state. */
  lemma {:induction false} ClicksKeepValid(p: Passengers, clicks: seq<(Kind, bool)>)
    requires ValidCounts(p)
    ensures ValidCounts(Clicks(p, clicks))
    decreases |clicks|
  {
    if |clicks| > 0 {
      UpdateKeepsValid(p, clicks[0].0, clicks[0].1);
      ClicksKeepValid(UpdatePassengers(p, clicks[0].0, clicks[0].1), clicks[1..]);
    }
  }

  /** `getTotalPassengers`. */
  function Total(p: Passengers): int {
    p.adults + p.children + p.infants
  }

  /** `getPassengerDisplayText`. */
  function PassengerDisplayText(p: Passengers): (s: string)
    ensures s == IntToString(Total(p)) + " Traveller" || s == IntToString(Total(p)) + " Travellers"
  {
    if Total(p) == 1 then IntToString(Total(p)) + " Traveller" else IntToString(Total(p)) + " Travellers"
  }

  /** The label is singular exactly when there is one traveller. */
  lemma DisplayTextSingular(p: Passengers)
    ensures PassengerDisplayText(p)[|PassengerDisplayText(p)| - 1] != 's' <==> Total(p) == 1
  {
  }

  // ---------------------------------------------------------------------------
  // Cities
  // ---------------------------------------------------------------------------

  datatype City = City(code: string, name: string, country: string, airport: string)

  /** The eight cities offered, in the page's order. */
  const PopularCities: seq<City> := [
    City("MAA", "Chennai", "IN", "Chennai Airport (MAA)"),
    City("COK", "Kochi", "IN", "Cochin International Airport (COK)"),
    City("DEL", "New Delhi", "IN", "Indira Gandhi Airport (DEL)"),
    City("BOM", "Mumbai", "IN", "Chhatrapati Shivaji Airport (BOM)"),
    City("BLR", "Bengaluru", "IN", "Kempegowda International Airport (BLR)"),
    City("HYD", "Hyderabad", "IN", "Rajiv Gandhi International Airport (HYD)"),
    City("CCU", "Kolkata", "IN", "Netaji Subhas Chandra Bose International Airport (CCU)"),
    City("GOI", "Goa", "IN", "Dabolim Airport (GOI)")
  ]

  /** A city matches a term when its name, code or airport contains it, ignoring case. */
  predicate CityMatches(c: City, term: string) {
    ContainsIgnoreCase(c.name, term) || ContainsIgnoreCase(c.code, term) || ContainsIgnoreCase(c.airport, term)
  }

  /** `getFilteredCities`: every city for an empty term, otherwise the matching ones in order. */
  function FilteredCities(term: string): (r: seq<City>)
    ensures term == "" ==> r == PopularCities
    ensures IsSubseq(r, PopularCities)
    ensures forall c :: c in r <==> c in PopularCities && (term == "" || CityMatches(c, term))
  {
    if term == "" then PopularCities else Filter(PopularCities, c => CityMatches(c, term))
  }

  /** The empty term would match every city anyway, so the early return changes nothing. */
  lemma EmptyTermMatchesAll(c: City)
    ensures CityMatches(c, "")
  {
    ContainsEmpty(c.name);
  }

  /** The from/to fields: the chosen code and the text shown in the input. */
  datatype CityFields = CityFields(fromCity: string, fromSearch: string, toCity: string, toSearch: string)

  /** `handleCitySelect`: the code is stored and the input shows `CODE - Name, Country`. */
  function SelectCity(f: CityFields, c: City, isFrom: bool): (r: CityFields)
    ensures isFrom ==> r.fromCity == c.code && r.toCity == f.toCity && r.toSearch == f.toSearch
    ensures !isFrom ==> r.toCity == c.code && r.fromCity == f.fromCity && r.fromSearch == f.fromSearch
  {
    var text := c.code + " - " + c.name + ", " + c.country;
    if isFrom then f.(fromCity := c.code, fromSearch := text) else f.(toCity := c.code, toSearch := text)
  }

  /** `swapCities`: origin and destination trade both code and text. */
  function SwapCities(f: CityFields): (r: CityFields)
    ensures r.fromCity == f.toCity && r.toCity == f.fromCity
    ensures r.fromSearch == f.toSearch && r.toSearch == f.fromSearch
  {
    CityFields(f.toCity, f.toSearch, f.fromCity, f.fromSearch)
  }

  /** Swapping twice restores the form. */
  lemma SwapInvolution(f: CityFields)
    ensures SwapCities(SwapCities(f)) == f
  {
  }

  // ---------------------------------------------------------------------------
  // Calendars and dates
  // ---------------------------------------------------------------------------

  /** `new Date(year, month, 1).getDay()`. */
  function FirstWeekday(year: int, month: int): (w: int)
    requires 0 <= month <= 11
    ensures 0 <= w < 7
  {
    Weekday(Date(year, month, 1))
  }

  /** One day of a calendar page. */
  datatype DayCell = DayCell(day: int, date: string, isToday: bool, isSelected: bool, isPast: bool)

  /** The cell of one day: its number, its date string, and the three flags the page draws. */
  function Cell(year: int, month: int, day: int, today: Date, departDate: string, returnDate: string): DayCell {
    var s := CreateDateString(year, month, day);
    var d := Date(year, month, day);
    DayCell(day, s, d == today, s == departDate || s == returnDate, DateBefore(d, today))
  }

  /** `generateCalendar`: a blank for each weekday before the first, then every day of the
      month in order. `today` is the clock's date; both sides of the past/today tests are
      local midnights, so they compare as calendar dates. */
  function GenerateCalendar(month: int, year: int, today: Date, departDate: string, returnDate: string): (cal: seq<Option<DayCell>>)
    requires 0 <= month <= 11
    ensures |cal| == FirstWeekday(year, month) + DaysInMonth(year, month)
    ensures forall i :: 0 <= i < FirstWeekday(year, month) ==> cal[i].None?
    ensures forall k :: 1 <= k <= DaysInMonth(year, month) ==>
              cal[FirstWeekday(year, month) + k - 1] == Some(Cell(year, month, k, today, departDate, returnDate))
  {
    Page(FirstWeekday(year, month), DaysInMonth(year, month), month, year, today, departDate, returnDate)
  }

  /** `blanks` empty cells followed by the cells of days 1 to `days`. */
  function Page(blanks: nat, days: nat, month: int, year: int, today: Date, departDate: string, returnDate: string): (cal: seq<Option<DayCell>>)
    ensures |cal| == blanks + days
    ensures forall i :: 0 <= i < blanks ==> cal[i].None?
    ensures forall k :: 1 <= k <= days ==> cal[blanks + k - 1] == Some(Cell(year, month, k, today, departDate, returnDate))
  {
    seq(blanks, _ => None) + seq(days, i => Some(Cell(year, month, i + 1, today, departDate, returnDate)))
  }

  /** On a four-digit year the date strings of a calendar page increase strictly down the
      page. `GenerateCalendar` is the page whose blanks are the month's first weekday and whose
      days are the month's length. */
  lemma CalendarDatesIncrease(blanks: nat, days: nat, month: int, year: int, today: Date,
                              departDate: string, returnDate: string, j: int, k: int)
    requires 0 <= month <= 11 && 1000 <= year <= 9999
    requires 1 <= j < k <= days <= 31
    ensures var cal := Page(blanks, days, month, year, today, departDate, returnDate);
            && blanks + k - 1 < |cal| && cal[blanks + j - 1].Some? && cal[blanks + k - 1].Some?
            && StrLess(cal[blanks + j - 1].value.date, cal[blanks + k - 1].value.date)
  {
    var cal := Page(blanks, days, month, year, today, departDate, returnDate);
    assert cal[blanks + j - 1] == Some(Cell(year, month, j, today, departDate, returnDate));
    assert cal[blanks + k - 1] == Some(Cell(year, month, k, today, departDate, returnDate));
    DaysIncrease(year, month, j, k);
  }

  /** Within one month of a four-digit year, a later day's date string is greater. */
  lemma DaysIncrease(year: int, month: int, j: int, k: int)
    requires 0 <= month <= 11 && 1000 <= year <= 9999
    requires 1 <= j < k <= 31
    ensures StrLess(CreateDateString(year, month, j), CreateDateString(year, month, k))
  {
    DateStringOrder(Date(year, month, j), Date(year, month, k));
  }

  /** A calendar cell is disabled when it is past, or, in the return calendar, when its date
      string is less than the departure date. */
  function IsDisabled(cell: Option<DayCell>, isReturn: bool, departDate: string): bool {
    (cell.Some? && cell.value.isPast) || (isReturn && cell.Some? && StrLess(cell.value.date, departDate))
  }

  /** In the return calendar, with a departure date in range, a day is disabled exactly when it
      is past or comes before the departure day on the calendar. */
  lemma ReturnDayDisabled(year: int, month: int, k: int, depart: Date, cell: DayCell)
    requires InRange(year, month, k) && InRange(depart.year, depart.monthIndex, depart.day)
    requires cell.date == CreateDateString(year, month, k)
    ensures IsDisabled(Some(cell), true, FormatDateToString(depart))
            <==> cell.isPast || DateBefore(Date(year, month, k), depart)
  {
    DateStringOrder(Date(year, month, k), depart);
  }

  /** The two chosen dates, as `YYYY-MM-DD` strings (`""` for none). */
  datatype Dates = Dates(depart: string, return_: string)

  /** `handleDateSelect`: a departure replaces the departure date and drops a return date that
      is now string-less than it; a return date is simply stored. */
  function SelectDate(d: Dates, date: string, isDepart: bool): (r: Dates)
    ensures isDepart ==> r.depart == date && (r.return_ == d.return_ || r.return_ == "")
    ensures isDepart ==> (r.return_ == "" <==> d.return_ == "" || StrLess(d.return_, date))
    ensures !isDepart ==> r == d.(return_ := date)
  {
    if isDepart then
      Dates(date, if d.return_ != "" && StrLess(d.return_, date) then "" else d.return_)
    else d.(return_ := date)
  }

  /** On real dates, choosing a departure keeps the return date exactly when it is not before
      the new departure on the calendar. */
  lemma DepartureClearsEarlierReturn(ret: Date, dep: Date)
    requires InRange(ret.year, ret.monthIndex, ret.day) && InRange(dep.year, dep.monthIndex, dep.day)
    ensures var r := SelectDate(Dates("", FormatDateToString(ret)), FormatDateToString(dep), true);
            r.return_ == "" <==> DateBefore(ret, dep)
  {
    DateStringOrder(ret, dep);
    CreateDateStringRoundTrip(ret.year, ret.monthIndex, ret.day);
  }

  // ---------------------------------------------------------------------------
  // Searching
  // ---------------------------------------------------------------------------

  /** The search form as `handleSearch` reads it. */
  datatype SearchForm = SearchForm(roundTrip: bool, fromCity: string, toCity: string,
                                   departDate: string, returnDate: string,
                                   passengers: Passengers, travelClass: string)

  /** `handleSearch`: `None` (an alert, no navigation) when a city or the departure date is
      missing; otherwise the query of the flight list, in order. Infants are not counted, and
      `return` is sent only for a round trip. */
  function SearchParams(f: SearchForm): (r: Option<seq<(string, string)>>)
    ensures r.None? <==> f.fromCity == "" || f.toCity == "" || f.departDate == ""
  {
    if f.fromCity == "" || f.toCity == "" || f.departDate == "" then None
    else
      Some([("from", f.fromCity), ("to", f.toCity), ("departure", f.departDate)]
           + (if f.roundTrip then [("return", f.returnDate)] else [])
           + [("passengers", IntToString(f.passengers.adults + f.passengers.children)),
              ("class", f.travelClass)])
  }

  /** The value of the first parameter with this name. */
  function Param(ps: seq<(string, string)>, name: string): Option<string>
    decreases |ps|
  {
    if |ps| == 0 then None else if ps[0].0 == name then Some(ps[0].1) else Param(ps[1..], name)
  }

  /** The first parameter with a name is the one `Param` finds. */
  lemma {:induction false} ParamAt(ps: seq<(string, string)>, i: int, name: string)
    requires 0 <= i < |ps| && ps[i].0 == name
    requires forall j :: 0 <= j < i ==> ps[j].0 != name
    ensures Param(ps, name) == Some(ps[i].1)
    decreases i
  {
    if i > 0 {
      ParamAt(ps[1..], i - 1, name);
    }
  }

  /** A name no parameter carries is not found. */
  lemma {:induction false} ParamAbsent(ps: seq<(string, string)>, name: string)
    requires forall j :: 0 <= j < |ps| ==> ps[j].0 != name
    ensures Param(ps, name).None?
    decreases |ps|
  {
    if |ps| > 0 {
      ParamAbsent(ps[1..], name);
    }
  }

  /** A complete search carries the cities and date as given, a passenger count without the
      infants, and a return date exactly for round trips. */
  lemma SearchCarriesForm(f: SearchForm)
    requires f.fromCity != "" && f.toCity != "" && f.departDate != ""
    ensures var ps := SearchParams(f).value;
            && Param(ps, "from") == Some(f.fromCity) && Param(ps, "to") == Some(f.toCity)
            && Param(ps, "departure") == Some(f.departDate)
            && Param(ps, "passengers") == Some(IntToString(f.passengers.adults + f.passengers.children))
            && Param(ps, "class") == Some(f.travelClass)
            && (Param(ps, "return").Some? <==> f.roundTrip)
  {
    var ps := SearchParams(f).value;
    var n := if f.roundTrip then 1 else 0;
    assert |ps| == 5 + n;
    ParamAt(ps, 0, "from");
    ParamAt(ps, 1, "to");
    ParamAt(ps, 2, "departure");
    ParamAt(ps, 3 + n, "passengers");
    ParamAt(ps, 4 + n, "class");
    if f.roundTrip { ParamAt(ps, 3, "return"); } else { ParamAbsent(ps, "return"); }
  }

  // ---------------------------------------------------------------------------
  // Role check and log-out
  // ---------------------------------------------------------------------------

  /** What the mount-time role check decides: a redirect to `/login`, or the two role flags
      that show the dashboard links. */
  datatype RoleCheck = ToLogin | Flags(isAdmin: bool, isFlightOwner: bool)

  /** `checkUserRole` (the same code runs on the flight list): no token, user data that is
      not JSON, or a stored `null` (reading its `Role` throws), sends the user to `/login`;
      otherwise the role is compared exactly. */
  function CheckUserRole(local: Storage): (r: RoleCheck)
    ensures !Guards.HasToken(local) ==> r == ToLogin
    ensures ParseItemOrEmpty(local, "userData") == Some(Null) ==> r == ToLogin
  {
    if !Guards.HasToken(local) then ToLogin
    else match ParseItemOrEmpty(local, "userData")
      case None => ToLogin
      case Some(userData) =>
        if userData.Null? then ToLogin
        else Flags(Get(userData, "Role") == Str("Admin"), Get(userData, "Role") == Str("Flightowner"))
  }

  /** The dashboard links appear exactly for the users the dashboards' own gates admit. */
  lemma RoleLinksMatchGates(local: Storage)
    requires CheckUserRole(local).Flags?
    ensures CheckUserRole(local).isAdmin <==> Guards.RoleProtected(local, ["Admin"]) == Guards.Render
    ensures CheckUserRole(local).isFlightOwner <==> Guards.RoleProtected(local, ["Flightowner"]) == Guards.Render
  {
  }

  /** `handleLogout` on the search page and the flight list: the three login entries go,
      the session is cleared, and the page moves to `/login`. */
  function Logout(local: Storage): (r: (Storage, Session, string))
    ensures r.0.Keys == local.Keys - {"userToken", "token", "userData"}
    ensures forall k :: k in r.0 ==> r.0[k] == local[k]
  {
    (local - {"userToken", "token", "userData"}, map[], "/login")
  }

  /** After logging out the login page is open and every guarded page sends the user to it. */
  lemma LogoutLocksGuardedPages(local: Storage, flag: string)
    ensures var (l, s, _) := Logout(local);
            Guards.AuthRoute(l) == Guards.Render && Guards.RouteGuard(l, s, flag).0 == Guards.RedirectTo("/login")
  {
  }
}

=== FILE: js.dfy ===
/** The slice of JavaScript semantics the pages lean on: JSON-shaped values, truthiness and the
    `a || b || c` fallback chains, the browser's two storages, and fetch replies. */
module Js {
  import opened Wrappers
  import opened Strings

  /** A value as it comes out of `JSON.parse` or an API reply. Numbers are integers in this model. */
  datatype JsVal =
    | Undefined
    | Null
    | Bool(b: bool)
    | Num(n: int)
    | Str(s: string)
    | Arr(items: seq<JsVal>)
    | Obj(fields: map<string, JsVal>)

  /** JavaScript truthiness: `undefined`, `null`, `false`, `0` and `""` are falsy. */
  predicate Truthy(v: JsVal) {
    match v
    case Undefined => false
    case Null => false
    case Bool(b) => b
    case Num(n) => n != 0
    case Str(s) => s != ""
    case Arr(_) => true
    case Obj(_) => true
  }

  /** `v[key]`: a missing field, or a field of a non-object, reads as `undefined`. */
  function Get(v: JsVal, key: string): (r: JsVal)
    ensures v.Obj? && key in v.fields ==> r == v.fields[key]
    ensures !(v.Obj? && key in v.fields) ==> r == Undefined
  {
    if v.Obj? && key in v.fields then v.fields[key] else Undefined
  }

  /** The position `a || b || ...` stops at: the first truthy operand, or the last one. */
  function FirstTruthyIndex<T>(xs: seq<T>, truthy: T -> bool): (k: nat)
    requires |xs| > 0
    ensures k < |xs|
    ensures forall j :: 0 <= j < k ==> !truthy(xs[j])
    ensures truthy(xs[k]) || k == |xs| - 1
  {
    if truthy(xs[0]) || |xs| == 1 then 0 else 1 + FirstTruthyIndex(xs[1..], truthy)
  }

  /** `xs[0] || xs[1] || ... ` over any kind of operand with its own notion of truthiness. */
  function FirstTruthy<T>(xs: seq<T>, truthy: T -> bool): T
    requires |xs| > 0
  {
    xs[FirstTruthyIndex(xs, truthy)]
  }

  /** `xs[0] || xs[1] || ...` on JavaScript values. */
  function Or(xs: seq<JsVal>): JsVal
    requires |xs| > 0
  {
    FirstTruthy(xs, Truthy)
  }

  /** The chain yields a truthy operand exactly when one exists; otherwise it yields the last one. */
  lemma OrSpec(xs: seq<JsVal>)
    requires |xs| > 0
    ensures Truthy(Or(xs)) <==> exists i :: 0 <= i < |xs| && Truthy(xs[i])
    ensures (forall i :: 0 <= i < |xs| ==> !Truthy(xs[i])) ==> Or(xs) == xs[|xs| - 1]
    ensures Truthy(xs[0]) ==> Or(xs) == xs[0]
  {
    var k := FirstTruthyIndex(xs, Truthy);
    if exists i :: 0 <= i < |xs| && Truthy(xs[i]) {
      var i :| 0 <= i < |xs| && Truthy(xs[i]);
      assert k <= i;
    }
  }

  /** A chain whose operands before the last are all falsy yields its last operand. */
  lemma OrLast(xs: seq<JsVal>)
    requires |xs| > 0 && forall i :: 0 <= i < |xs| - 1 ==> !Truthy(xs[i])
    ensures Or(xs) == xs[|xs| - 1]
  {
  }

  /** A chain whose first operand is truthy yields that operand. */
  lemma OrFirst(xs: seq<JsVal>)
    requires |xs| > 0 && Truthy(xs[0])
    ensures Or(xs) == xs[0]
  {
  }

  /** `a || b` on strings. */
  function OrStr(a: string, b: string): (r: string)
    ensures r == a || r == b
    ensures r != "" <==> (a != "" || b != "")
    ensures a != "" ==> r == a
  {
    if a != "" then a else b
  }

  /** `a || b` on numbers. */
  function OrInt(a: int, b: int): (r: int)
    ensures r == a || r == b
    ensures r != 0 <==> (a != 0 || b != 0)
    ensures a != 0 ==> r == a
  {
    if a != 0 then a else b
  }

  /** The string inside a value, or `""` when it holds none (used where the pages only ever store strings). */
  function AsStr(v: JsVal): string {
    if v.Str? then v.s else ""
  }

  /** The number inside a value, or `0` when it holds none. */
  function AsNum(v: JsVal): int {
    if v.Num? then v.n else 0
  }

  // ---------------------------------------------------------------------------
  // Browser storage
  // ---------------------------------------------------------------------------

  /** One localStorage entry: a raw string (the tokens) or the text `JSON.stringify(v)` wrote. */
  datatype Item = Text(s: string) | Json(v: JsVal)

  type Storage = map<string, Item>
  type Session = map<string, string>

  /** `localStorage.getItem(key)` is truthy: present and not the empty string. */
  predicate ItemTruthy(st: Storage, key: string) {
    key in st && (st[key].Json? || st[key].s != "")
  }

  /** `JSON.parse(localStorage.getItem(key) || '{}')`; `None` is the exception thrown on text
      that is not JSON. */
  function ParseItemOrEmpty(st: Storage, key: string): (r: Option<JsVal>)
    ensures !ItemTruthy(st, key) ==> r == Some(Obj(map[]))
    ensures key in st && st[key].Json? ==> r == Some(st[key].v)
    ensures r.None? <==> ItemTruthy(st, key) && st[key].Text?
  {
    if !ItemTruthy(st, key) then Some(Obj(map[]))
    else match st[key]
      case Json(v) => Some(v)
      case Text(_) => None
  }

  /** Writing with `JSON.stringify` and reading back with `JSON.parse` returns the value. */
  lemma StoreThenParse(st: Storage, key: string, v: JsVal)
    ensures ParseItemOrEmpty(st[key := Json(v)], key) == Some(v)
  {
  }

  /** `sessionStorage.getItem(key)` is truthy. */
  predicate SessionFlag(ss: Session, key: string) {
    key in ss && ss[key] != ""
  }

  // ---------------------------------------------------------------------------
  // Collections
  // ---------------------------------------------------------------------------

  /** `xs` is an order-preserving selection of elements of `ys`. */
  predicate IsSubseq<T(==)>(xs: seq<T>, ys: seq<T>)
    decreases |ys|
  {
    |xs| == 0 || (|ys| > 0 && ((xs[0] == ys[0] && IsSubseq(xs[1..], ys[1..])) || IsSubseq(xs, ys[1..])))
  }

  /** `xs.filter(p)`. */
  function Filter<T(==)>(xs: seq<T>, p: T -> bool): (r: seq<T>)
    ensures |r| <= |xs|
    ensures forall i :: 0 <= i < |r| ==> p(r[i]) && r[i] in xs
    ensures forall x :: x in xs && p(x) ==> x in r
    ensures IsSubseq(r, xs)
  {
    if |xs| == 0 then []
    else if p(xs[0]) then [xs[0]] + Filter(xs[1..], p)
    else Filter(xs[1..], p)
  }

  /** Filtering twice with the same test changes nothing the second time. */
  lemma {:induction false} FilterIdempotent<T>(xs: seq<T>, p: T -> bool)
    ensures Filter(Filter(xs, p), p) == Filter(xs, p)
  {
    if |xs| > 0 {
      FilterIdempotent(xs[1..], p);
      if p(xs[0]) {
        var r := Filter(xs, p);
        assert r[1..] == Filter(xs[1..], p);
      }
    }
  }

  /** A test every element passes keeps the whole list. */
  lemma {:induction false} KeepAll<T>(xs: seq<T>, p: T -> bool)
    requires forall i :: 0 <= i < |xs| ==> p(xs[i])
    ensures Filter(xs, p) == xs
    decreases |xs|
  {
    if |xs| > 0 {
      KeepAll(xs[1..], p);
    }
  }

  /** `xs.map(f)`. */
  function Map<T, U>(xs: seq<T>, f: T -> U): (r: seq<U>)
    ensures |r| == |xs|
    ensures forall i :: 0 <= i < |xs| ==> r[i] == f(xs[i])
  {
    seq(|xs|, i requires 0 <= i < |xs| => f(xs[i]))
  }

  /** `xs.reduce((s, x) => s + f(x), 0)`. */
  function SumOf<T>(xs: seq<T>, f: T -> int): int
  {
    if |xs| == 0 then 0 else SumOf(xs[..|xs| - 1], f) + f(xs[|xs| - 1])
  }

  /** The sum splits over concatenation, so a running total adds one element at a time. */
  lemma {:induction false} SumOfAppend<T>(xs: seq<T>, ys: seq<T>, f: T -> int)
    ensures SumOf(xs + ys, f) == SumOf(xs, f) + SumOf(ys, f)
    decreases |ys|
  {
    if |ys| > 0 {
      assert (xs + ys)[..|xs + ys| - 1] == xs + ys[..|ys| - 1];
      SumOfAppend(xs, ys[..|ys| - 1], f);
    } else {
      assert xs + ys == xs;
    }
  }

  /** A sum of non-negative terms is non-negative and bounded below by any one term. */
  lemma {:induction false} SumOfNonNegative<T>(xs: seq<T>, f: T -> int)
    requires forall i :: 0 <= i < |xs| ==> f(xs[i]) >= 0
    ensures SumOf(xs, f) >= 0
    ensures forall i :: 0 <= i < |xs| ==> SumOf(xs, f) >= f(xs[i])
  {
    if |xs| > 0 {
      SumOfNonNegative(xs[..|xs| - 1], f);
      forall i | 0 <= i < |xs| - 1
        ensures f(xs[i]) == f(xs[..|xs| - 1][i])
      {
      }
    }
  }

  /** Filtering a concatenation filters each part. */
  lemma {:induction false} FilterAppend<T>(xs: seq<T>, ys: seq<T>, p: T -> bool)
    ensures Filter(xs + ys, p) == Filter(xs, p) + Filter(ys, p)
    decreases |xs|
  {
    if |xs| == 0 {
      assert xs + ys == ys;
    } else {
      assert (xs + ys)[1..] == xs[1..] + ys;
      FilterAppend(xs[1..], ys, p);
    }
  }

  /** A sum splits into the part a test keeps and the part its negation keeps. */
  lemma {:induction false} SumOfPartition<T>(xs: seq<T>, f: T -> int, p: T -> bool, q: T -> bool)
    requires forall x :: q(x) == !p(x)
    ensures SumOf(xs, f) == SumOf(Filter(xs, p), f) + SumOf(Filter(xs, q), f)
    decreases |xs|
  {
    if |xs| > 0 {
      var init := xs[..|xs| - 1];
      var last := xs[|xs| - 1];
      SumOfPartition(init, f, p, q);
      assert xs == init + [last];
      FilterAppend(init, [last], p);
      FilterAppend(init, [last], q);
      SumOfAppend(Filter(init, p), Filter([last], p), f);
      SumOfAppend(Filter(init, q), Filter([last], q), f);
      assert SumOf([last], f) == f(last);
      if p(last) {
        assert Filter([last], p) == [last] && Filter([last], q) == [];
      } else {
        assert Filter([last], p) == [] && Filter([last], q) == [last];
      }
    }
  }

  // ---------------------------------------------------------------------------
  // fetch
  // ---------------------------------------------------------------------------

  /** What a `fetch` settles to: a reply with its status, its body text and that text read as
      JSON (`None` when it is not JSON, so `response.json()` throws), or a rejected promise. */
  datatype Response = Reply(status: int, text: string, body: Option<JsVal>) | NetworkError

  /** `response.ok`: a status in 200..299. */
  predicate Ok(r: Response) {
    r.Reply? && 200 <= r.status <= 299
  }

  /** The message of the `TypeError` a rejected `fetch` carries. */
  const FetchFailed: string := "Failed to fetch"

  /** The message of the `SyntaxError` `response.json()` throws on a body that is not JSON. */
  const NotJson: string := "Unexpected token in JSON"

  /** No element is `null` or `undefined`, so reading a property of each does not throw. */
  predicate NoNullish(xs: seq<JsVal>) {
    forall i :: 0 <= i < |xs| ==> xs[i] != Null && xs[i] != Undefined
  }

  /** The message of the `TypeError` reading a field of `null` throws (the engine appends the
      name of the field read). */
  const NullRead: string := "Cannot read properties of null"

  /** One request a page sends: verb, path below the API root, and JSON body (`Undefined` for
      none). */
  datatype Call = Call(verb: string, path: string, body: JsVal)

  /** `${v}` inside a template literal, `String(v)` and `v.toString()`: an array is its elements
      joined with commas (`Array.prototype.join`), `null` and `undefined` elements written as
      nothing; any other object is `[object Object]`. */
  function Interpolate(v: JsVal): string
    decreases v, 1
  {
    match v
    case Undefined => "undefined"
    case Null => "null"
    case Bool(b) => if b then "true" else "false"
    case Num(n) => IntToString(n)
    case Str(s) => s
    case Arr(items) => Join(seq(|items|, i requires 0 <= i < |items| => ElementText(items[i])), ",")
    case Obj(_) => "[object Object]"
  }

  /** One element as `join` writes it. */
  function ElementText(e: JsVal): string
    decreases e, 2
  {
    if e.Null? || e.Undefined? then "" else Interpolate(e)
  }

  /** A truthy value other than an array never interpolates to the empty string; an empty
      array, though truthy, interpolates to nothing. */
  lemma InterpolateTruthy(v: JsVal)
    requires Truthy(v)
    ensures !v.Arr? ==> Interpolate(v) != ""
    ensures v == Arr([]) ==> Interpolate(v) == ""
  {
  }

  /** `{...fields}` as `JSON.stringify` writes it: keys whose value is `undefined` are dropped. */
  function Defined(fields: map<string, JsVal>): (r: map<string, JsVal>)
    ensures forall k :: k in r <==> k in fields && fields[k] != Undefined
    ensures forall k :: k in r ==> r[k] == fields[k]
  {
    map k | k in fields && fields[k] != Undefined :: fields[k]
  }

  /** The own fields `{...v}` copies from an object. A string or an array would also copy its
      index keys (`{..."ab"}` is `{0: "a", 1: "b"}`); the model copies nothing from them, as it
      does from every other value. */
  function Fields(v: JsVal): map<string, JsVal> {
    if v.Obj? then v.fields else map[]
  }
}

=== FILE: login.dfy ===
/** `pages/Login.jsx`: signing in, reading the user's claims out of the returned JWT, and the
    storage entries every other page relies on. */
module Login {
  import opened Wrappers
  import opened Strings
  import opened Js
  import Guards

  // ---------------------------------------------------------------------------
  // Reading the token
  // ---------------------------------------------------------------------------

  /** `s.replace(/-/g, '+').replace(/_/g, '/')`: base64url back to the standard alphabet. */
  function Base64FromUrl(s: string): (r: string)
    ensures |r| == |s|
    ensures forall i :: 0 <= i < |s| ==> r[i] == (if s[i] == '-' then '+' else if s[i] == '_' then '/' else s[i])
  {
    seq(|s|, i requires 0 <= i < |s| => if s[i] == '-' then '+' else if s[i] == '_' then '/' else s[i])
  }

  /** The result holds no base64url-only character, and converting again changes nothing. */
  lemma Base64FromUrlSettles(s: string)
    ensures forall i :: 0 <= i < |s| ==> Base64FromUrl(s)[i] != '-' && Base64FromUrl(s)[i] != '_'
    ensures Base64FromUrl(Base64FromUrl(s)) == Base64FromUrl(s)
  {
  }

  /** `decodeJWT`: the second dot-separated segment, converted to standard base64, then decoded
      by `decodePayload` — which stands for `atob`, the UTF-8 percent-decoding and `JSON.parse`,
      and yields `null` where any of them throws. A token that is not a string, or has no
      second segment, throws and yields `null` as well. */
  function DecodeJwt(token: JsVal, decodePayload: string -> JsVal): (r: JsVal)
    ensures !token.Str? ==> r == Null
  {
    if !token.Str? then Null
    else
      var parts := Split(token.s, ".");
      if |parts| < 2 then Null else decodePayload(Base64FromUrl(parts[1]))
  }

  /** A well-formed token `header.payload.signature` decodes exactly its payload segment. */
  lemma DecodeJwtPayload(header: string, payload: string, signature: string, decodePayload: string -> JsVal)
    requires FreeOf(header, '.') && FreeOf(payload, '.') && FreeOf(signature, '.')
    ensures DecodeJwt(Str(Join([header, payload, signature], ".")), decodePayload) == decodePayload(Base64FromUrl(payload))
  {
    SplitJoin([header, payload, signature], ".");
  }

  // ---------------------------------------------------------------------------
  // Signing in
  // ---------------------------------------------------------------------------

  const ConnectionFailed: string := "Login failed. Please check your connection and try again."
  const MsRoleClaim: string := "http://schemas.microsoft.com/ws/2008/06/identity/claims/role"

  /** The role claim: `role`, `Role`, `roles`, the Microsoft role claim, else `User`. */
  function RoleClaim(claims: JsVal): JsVal {
    Or([Get(claims, "role"), Get(claims, "Role"), Get(claims, "roles"), Get(claims, MsRoleClaim), Str("User")])
  }

  /** The first truthy role claim wins, and with none the role is `User`. */
  lemma RoleClaimChain(claims: JsVal)
    ensures Truthy(Get(claims, "role")) ==> RoleClaim(claims) == Get(claims, "role")
    ensures (!Truthy(Get(claims, "role")) && !Truthy(Get(claims, "Role")) && !Truthy(Get(claims, "roles"))
             && !Truthy(Get(claims, MsRoleClaim))) ==> RoleClaim(claims) == Str("User")
    ensures Truthy(RoleClaim(claims))
  {
    var chain := [Get(claims, "role"), Get(claims, "Role"), Get(claims, "roles"), Get(claims, MsRoleClaim), Str("User")];
    OrSpec(chain);
    if !Truthy(chain[0]) && !Truthy(chain[1]) && !Truthy(chain[2]) && !Truthy(chain[3]) {
      assert FirstTruthyIndex(chain, Truthy) == 4;
    }
  }

  /** The `userData` object built from the decoded claims, each field from its fallback chain;
      `JSON.stringify` drops an `Id` that ends up `undefined`. */
  function UserDataFromClaims(claims: JsVal, email: string): JsVal {
    Obj(Defined(map["Role" := RoleClaim(claims), "Name" := NameClaim(claims),
                    "Email" := EmailClaim(claims, email), "Id" := IdClaim(claims)]))
  }

  function NameClaim(claims: JsVal): JsVal {
    Or([Get(claims, "name"), Get(claims, "Name"), Get(claims, "unique_name"), Get(claims, "sub"), Str("User")])
  }

  function EmailClaim(claims: JsVal, email: string): JsVal {
    Or([Get(claims, "email"), Get(claims, "Email"), Str(email)])
  }

  function IdClaim(claims: JsVal): JsVal {
    Or([Get(claims, "sub"), Get(claims, "id"), Get(claims, "Id"), Get(claims, "nameid")])
  }

  /** The name and e-mail chains end in a defined value, so they never yield `undefined`. */
  lemma NameEmailDefined(claims: JsVal, email: string)
    ensures NameClaim(claims) != Undefined && EmailClaim(claims, email) != Undefined
  {
    OrSpec([Get(claims, "name"), Get(claims, "Name"), Get(claims, "unique_name"), Get(claims, "sub"), Str("User")]);
    OrSpec([Get(claims, "email"), Get(claims, "Email"), Str(email)]);
  }

  /** The id chain is `undefined` exactly when no id claim is truthy and `nameid` is absent. */
  lemma IdClaimUndefined(claims: JsVal)
    ensures IdClaim(claims) == Undefined
            <==> (!Truthy(Get(claims, "sub")) && !Truthy(Get(claims, "id"))
                  && !Truthy(Get(claims, "Id")) && Get(claims, "nameid") == Undefined)
  {
    var ids := [Get(claims, "sub"), Get(claims, "id"), Get(claims, "Id"), Get(claims, "nameid")];
    OrSpec(ids);
    if !Truthy(ids[0]) && !Truthy(ids[1]) && !Truthy(ids[2]) {
      assert FirstTruthyIndex(ids, Truthy) == 3;
    }
  }

  /** The stored object always has `Role`, `Name` and `Email`, the role being the role claim;
      `Id` is dropped exactly when no id claim is truthy and `nameid` is absent. */
  lemma UserDataKeys(claims: JsVal, email: string)
    ensures var v := UserDataFromClaims(claims, email);
            && v.Obj? && {"Role", "Name", "Email"} <= v.fields.Keys <= {"Role", "Name", "Email", "Id"}
            && v.fields["Role"] == RoleClaim(claims)
            && ("Id" !in v.fields <==> IdClaim(claims) == Undefined)
  {
    RoleClaimChain(claims);
    NameEmailDefined(claims, email);
    DefinedUserData(RoleClaim(claims), NameClaim(claims), EmailClaim(claims, email), IdClaim(claims));
  }

  /** The four `userData` fields with the `undefined` ones dropped. */
  lemma DefinedUserData(role: JsVal, name: JsVal, email: JsVal, id: JsVal)
    requires role != Undefined && name != Undefined && email != Undefined
    ensures var d := Defined(map["Role" := role, "Name" := name, "Email" := email, "Id" := id]);
            && {"Role", "Name", "Email"} <= d.Keys <= {"Role", "Name", "Email", "Id"}
            && d["Role"] == role && ("Id" !in d <==> id == Undefined)
  {
    var m := map["Role" := role, "Name" := name, "Email" := email, "Id" := id];
    assert m.Keys == {"Role", "Name", "Email", "Id"};
    assert m["Role"] == role && m["Id"] == id;
  }

  /** The `userData` stored when the token cannot be read. */
  function FallbackUserData(email: string): JsVal {
    Obj(map["Role" := Str("User"), "Name" := Str("User"), "Email" := Str(email), "Id" := Null])
  }

  /** What submitting the form leaves behind. */
  datatype Outcome = Outcome(local: Storage, calls: seq<Call>, error: Option<string>, navigateTo: Option<string>)

  /** `handleSubmit`. On an OK reply whose body is JSON, `token` and `userToken` both receive
      `data.token` as `setItem` writes it (so a missing token is stored as the text
      `undefined`), `userData` is built from the claims or the fallback, and the page moves to
      `/home`. A refusal shows the reply's `message` or `Invalid credentials`; a network
      failure, a body that is not JSON, or a `null` body (reading a field of it throws), shows
      the connection message. */
  function Submit(local: Storage, email: string, password: string, reply: Response, decodePayload: string -> JsVal): (r: Outcome)
    ensures r.calls == [Call("POST", "/Auth/login", Obj(map["email" := Str(email), "password" := Str(password)]))]
    ensures r.navigateTo.Some? <==> r.error.None?
    ensures r.navigateTo.None? ==> r.local == local
    ensures r.navigateTo.Some? ==> Ok(reply) && r.navigateTo == Some("/home")
    ensures reply.Reply? && reply.body == Some(Null) ==> r.error == Some(ConnectionFailed)
  {
    var calls := [Call("POST", "/Auth/login", Obj(map["email" := Str(email), "password" := Str(password)]))];
    match reply
    case NetworkError => Outcome(local, calls, Some(ConnectionFailed), None)
    case Reply(_, _, body) =>
      if body.None? || body.value.Null? then Outcome(local, calls, Some(ConnectionFailed), None)
      else if !Ok(reply) then
        Outcome(local, calls, Some(Interpolate(Or([Get(body.value, "message"), Str("Invalid credentials")]))), None)
      else
        var token := Get(body.value, "token");
        var decoded := DecodeJwt(token, decodePayload);
        var userData := if Truthy(decoded) then UserDataFromClaims(decoded, email) else FallbackUserData(email);
        var stored := local["token" := Text(Interpolate(token))]["userToken" := Text(Interpolate(token))]
                           ["userData" := Json(userData)];
        Outcome(stored, calls, None, Some("/home"))
  }

  /** After signing in, `token` and `userToken` hold the same text, and the login page is
      then closed, unless the token was written as the empty text (an empty string, or an array
      that joins to nothing). */
  lemma SignedIn(local: Storage, email: string, password: string, reply: Response, decodePayload: string -> JsVal)
    requires Submit(local, email, password, reply, decodePayload).navigateTo.Some?
    requires Interpolate(Get(reply.body.value, "token")) != ""
    ensures var r := Submit(local, email, password, reply, decodePayload);
            && r.local["token"] == r.local["userToken"]
            && Guards.HasToken(r.local) && Guards.AuthRoute(r.local) == Guards.RedirectTo("/home")
  {
  }

  /** The stored `userData` is the object built from the claims, or the fallback. */
  lemma StoredUserData(local: Storage, email: string, password: string, reply: Response, decodePayload: string -> JsVal)
    requires Submit(local, email, password, reply, decodePayload).navigateTo.Some?
    ensures var claims := DecodeJwt(Get(reply.body.value, "token"), decodePayload);
            var stored := Submit(local, email, password, reply, decodePayload).local;
            ParseItemOrEmpty(stored, "userData")
              == Some(if Truthy(claims) then UserDataFromClaims(claims, email) else FallbackUserData(email))
  {
  }

  /** The role the dashboards then read is the first truthy role claim, and `User` when the
      token cannot be read or carries no role. */
  lemma StoredRoleFromClaims(local: Storage, email: string, password: string, reply: Response, decodePayload: string -> JsVal)
    requires Submit(local, email, password, reply, decodePayload).navigateTo.Some?
    ensures var claims := DecodeJwt(Get(reply.body.value, "token"), decodePayload);
            var role := Guards.StoredRole(Submit(local, email, password, reply, decodePayload).local);
            && (!Truthy(claims) ==> role == Some("User"))
            && (Truthy(claims) && Get(claims, "role") == Str("Admin") ==> role == Some("Admin"))
            && ((Truthy(claims) && !Truthy(Get(claims, "role")) && !Truthy(Get(claims, "Role"))
                 && !Truthy(Get(claims, "roles")) && !Truthy(Get(claims, MsRoleClaim))) ==> role == Some("User"))
  {
    var claims := DecodeJwt(Get(reply.body.value, "token"), decodePayload);
    var stored := Submit(local, email, password, reply, decodePayload).local;
    StoredUserData(local, email, password, reply, decodePayload);
    if Truthy(claims) {
      RoleClaimChain(claims);
      UserDataKeys(claims, email);
      RoleOfUserData(stored, UserDataFromClaims(claims, email));
    } else {
      RoleOfUserData(stored, FallbackUserData(email));
    }
  }

  /** The role read back from stored user data is its non-empty string `Role`. */
  lemma RoleOfUserData(local: Storage, userData: JsVal)
    requires ParseItemOrEmpty(local, "userData") == Some(userData)
    ensures var role := Get(userData, "Role");
            Guards.StoredRole(local) == if role.Str? && role.s != "" then Some(role.s) else None
  {
  }

  /** An OK reply without a token still signs the user in: the text `undefined` is a truthy
      token to every guard. */
  lemma MissingTokenStillSignsIn(local: Storage, email: string, password: string, decodePayload: string -> JsVal)
    ensures var r := Submit(local, email, password, Reply(200, "{}", Some(Obj(map[]))), decodePayload);
            && r.local["token"] == Text("undefined")
            && Guards.RouteGuard(r.local, map[], "").0 == Guards.Render
  {
  }

  /** A refusal without its own message reads `Invalid credentials` (a `null` body throws and
      reads as a connection failure), and stores nothing. */
  lemma RefusalMessage(local: Storage, email: string, password: string, reply: Response, decodePayload: string -> JsVal)
    requires reply.Reply? && !Ok(reply) && reply.body.Some? && !Truthy(Get(reply.body.value, "message"))
    ensures Submit(local, email, password, reply, decodePayload) ==
            Outcome(local, [Call("POST", "/Auth/login", Obj(map["email" := Str(email), "password" := Str(password)]))],
                    Some(if reply.body.value.Null? then ConnectionFailed else "Invalid credentials"), None)
  {
    OrSpec([Get(reply.body.value, "message"), Str("Invalid credentials")]);
  }
}

=== FILE: owner.dfy ===
/** `pages/FlightOwner.jsx`, the flight owner dashboard mounted at `/flight-owner`: its role
    check, the normalised user and booking records, the per-flight seat counts and the three
    table searches. */
module FlightOwner {
  import opened Wrappers
  import opened Js
  import opened Dashboards
  import Guards

  // ---------------------------------------------------------------------------
  // Access
  // ---------------------------------------------------------------------------

  /** `checkFlightOwnerRole`: `userToken` is required, then `userData.Role` must be exactly
      `Flightowner`; user data that is not JSON is denied. */
  function CheckAccess(local: Storage): (r: Access)
    ensures !ItemTruthy(local, "userToken") <==> r == ToLogin
  {
    if !ItemTruthy(local, "userToken") then ToLogin
    else match ParseItemOrEmpty(local, "userData")
      case None => Denied
      case Some(userData) => if Get(userData, "Role") == Str("Flightowner") then Granted else Denied
  }

  /** With `userToken` present the page admits exactly the users the route's role gate admits,
      so the denial alert is only reached when the route was entered with `token` alone. */
  lemma AccessMatchesRouteGate(local: Storage)
    requires ItemTruthy(local, "userToken")
    ensures CheckAccess(local) == Granted <==> Guards.RoleProtected(local, ["Flightowner"]) == Guards.Render
  {
  }

  // ---------------------------------------------------------------------------
  // Users and bookings
  // ---------------------------------------------------------------------------

  /** A user row: the record as loaded, with the six fields the page normalises. */
  datatype UserRow = UserRow(raw: JsVal, id: JsVal, firstName: JsVal, lastName: JsVal,
                             email: JsVal, role: JsVal, createdAt: JsVal)

  /** `row[k]` on the spread object `{...user, id, firstName, ...}`. */
  function UserField(r: UserRow, k: string): JsVal {
    if k == "id" then r.id else if k == "firstName" then r.firstName else if k == "lastName" then r.lastName
    else if k == "email" then r.email else if k == "role" then r.role else if k == "createdAt" then r.createdAt
    else Get(r.raw, k)
  }

  /** One user as the table shows it: each field from its camelCase spelling, else its
      PascalCase one; the role defaults to `User`. */
  function NormalizeUser(u: JsVal): UserRow {
    UserRow(u,
            Or([Get(u, "id"), Get(u, "Id")]),
            Or([Get(u, "firstName"), Get(u, "FirstName")]),
            Or([Get(u, "lastName"), Get(u, "LastName")]),
            Or([Get(u, "email"), Get(u, "Email")]),
            Or([Get(u, "role"), Get(u, "Role"), Str("User")]),
            Or([Get(u, "createdAt"), Get(u, "CreatedAt"), Get(u, "dateJoined"), Get(u, "DateJoined")]))
  }

  /** A truthy camelCase field wins; a falsy one gives way to PascalCase; every user has a
      truthy role, `User` when neither spelling is truthy; fields the normalisation does not
      name are kept. */
  lemma NormalizeUserSpec(u: JsVal, k: string)
    ensures Truthy(Get(u, "email")) ==> UserField(NormalizeUser(u), "email") == Get(u, "email")
    ensures !Truthy(Get(u, "email")) ==> UserField(NormalizeUser(u), "email") == Get(u, "Email")
    ensures (!Truthy(Get(u, "role")) && !Truthy(Get(u, "Role"))) ==> UserField(NormalizeUser(u), "role") == Str("User")
    ensures Truthy(UserField(NormalizeUser(u), "role"))
    ensures k !in {"id", "firstName", "lastName", "email", "role", "createdAt"} ==> UserField(NormalizeUser(u), k) == Get(u, k)
  {
    OrSpec([Get(u, "email"), Get(u, "Email")]);
    var roles := [Get(u, "role"), Get(u, "Role"), Str("User")];
    OrSpec(roles);
    if !Truthy(roles[0]) && !Truthy(roles[1]) {
      assert FirstTruthyIndex(roles, Truthy) == 2;
    }
  }

  /** The records a loader normalises: the loaded array, or none at all when an element is
      `null` or `undefined`, since reading its fields throws and the catch empties the table. */
  function Normalisable(data: JsVal): (r: seq<JsVal>)
    ensures NoNullish(r)
  {
    if data.Arr? && NoNullish(data.items) then data.items else []
  }

  /** `loadUsers`: `Admin/users`, else `Auth/users`; the loaded array is normalised, one row per
      record in order, and anything else, or an array holding `null`, leaves the table empty. */
  function LoadUsers(primary: Response, fallback: Response): (r: (seq<UserRow>, seq<Call>))
    ensures var data := LoadWithFallback("/Admin/users", "/Auth/users", primary, fallback).0;
            data.Arr? && NoNullish(data.items) ==>
              |r.0| == |data.items| && forall i :: 0 <= i < |data.items| ==> r.0[i].raw == data.items[i]
    ensures var data := LoadWithFallback("/Admin/users", "/Auth/users", primary, fallback).0;
            !(data.Arr? && NoNullish(data.items)) ==> r.0 == []
  {
    var (data, calls) := LoadWithFallback("/Admin/users", "/Auth/users", primary, fallback);
    (Map(Normalisable(data), NormalizeUser), calls)
  }

  /** A booking row: the record as loaded, with the eight fields the page normalises. */
  datatype BookingRow = BookingRow(raw: JsVal, bookingId: JsVal, userName: JsVal, flightName: JsVal,
                                   flightId: JsVal, passengerCount: JsVal, totalAmount: JsVal,
                                   status: JsVal, bookingDate: JsVal)

  /** One booking as the table shows it, with a passenger count of 1 and status `Confirmed` when
      the record has none, and a flight name built from the flight id when none is given. */
  function NormalizeBooking(b: JsVal): BookingRow {
    var flightId := Or([Get(b, "flightId"), Get(b, "FlightId")]);
    BookingRow(b,
               Or([Get(b, "bookingId"), Get(b, "BookingId"), Get(b, "id"), Get(b, "Id")]),
               Or([Get(b, "userName"), Get(b, "UserName"), Get(b, "customerName"), Get(b, "CustomerName")]),
               Or([Get(b, "flight"), Get(b, "Flight"), Get(b, "flightName"), Get(b, "FlightName"),
                   Str("Flight " + Interpolate(flightId))]),
               flightId,
               Or([Get(b, "passengerCount"), Get(b, "PassengerCount"), Get(b, "passengers"), Get(b, "Passengers"), Num(1)]),
               Or([Get(b, "totalAmount"), Get(b, "TotalAmount"), Get(b, "amount"), Get(b, "Amount")]),
               Or([Get(b, "status"), Get(b, "Status"), Str("Confirmed")]),
               Or([Get(b, "bookingDate"), Get(b, "BookingDate"), Get(b, "createdAt"), Get(b, "CreatedAt")]))
  }

  /** A booking with no count says one passenger. */
  lemma BookingDefaults(b: JsVal)
    ensures (!Truthy(Get(b, "passengerCount")) && !Truthy(Get(b, "PassengerCount"))
             && !Truthy(Get(b, "passengers")) && !Truthy(Get(b, "Passengers")))
            ==> NormalizeBooking(b).passengerCount == Num(1)
  {
    var counts := [Get(b, "passengerCount"), Get(b, "PassengerCount"), Get(b, "passengers"), Get(b, "Passengers"), Num(1)];
    if !Truthy(counts[0]) && !Truthy(counts[1]) && !Truthy(counts[2]) && !Truthy(counts[3]) {
      OrLast(counts);
    }
  }

  /** A booking with no status is `Confirmed`, and a truthy status is kept. */
  lemma BookingStatusDefaults(b: JsVal)
    ensures (!Truthy(Get(b, "status")) && !Truthy(Get(b, "Status"))) ==> NormalizeBooking(b).status == Str("Confirmed")
    ensures Truthy(Get(b, "status")) ==> NormalizeBooking(b).status == Get(b, "status")
  {
    var statuses := [Get(b, "status"), Get(b, "Status"), Str("Confirmed")];
    if !Truthy(statuses[0]) && !Truthy(statuses[1]) {
      OrLast(statuses);
    }
    if Truthy(statuses[0]) {
      OrFirst(statuses);
    }
  }

  /** `loadBookings`: `Admin/bookings`, else `bookings`; the loaded array is normalised, one row
      per record in order, and anything else, or an array holding `null`, leaves the table
      empty. */
  function LoadBookings(primary: Response, fallback: Response): (r: (seq<BookingRow>, seq<Call>))
    ensures var data := LoadWithFallback("/Admin/bookings", "/bookings", primary, fallback).0;
            data.Arr? && NoNullish(data.items) ==>
              |r.0| == |data.items| && forall i :: 0 <= i < |data.items| ==> r.0[i].raw == data.items[i]
    ensures var data := LoadWithFallback("/Admin/bookings", "/bookings", primary, fallback).0;
            !(data.Arr? && NoNullish(data.items)) ==> r.0 == []
  {
    var (data, calls) := LoadWithFallback("/Admin/bookings", "/bookings", primary, fallback);
    (Map(Normalisable(data), NormalizeBooking), calls)
  }

  // ---------------------------------------------------------------------------
  // Seats per flight
  // ---------------------------------------------------------------------------

  /** `flight.id || flight.Id`. */
  function FlightKey(f: JsVal): JsVal {
    if Truthy(Get(f, "id")) then Get(f, "id") else Get(f, "Id")
  }

  /** `booking.flightId || booking.FlightId`. */
  function BookingFlight(b: JsVal): JsVal {
    if Truthy(Get(b, "flightId")) then Get(b, "flightId") else Get(b, "FlightId")
  }

  /** The seat count a booking stands for: `passengerCount || passengers || 1`. */
  function BookedCount(b: JsVal): int {
    if Truthy(Get(b, "passengerCount")) then AsNum(Get(b, "passengerCount"))
    else if Truthy(Get(b, "passengers")) then AsNum(Get(b, "passengers"))
    else 1
  }

  /** The bookings of one flight, in the order loaded: those whose flight id equals the
      flight's. Ids are numbers or strings, so `===` compares them as values. */
  function FlightBookings(f: JsVal, bookings: seq<JsVal>): seq<JsVal> {
    if |bookings| == 0 then []
    else (if BookingFlight(bookings[0]) == FlightKey(f) then [bookings[0]] else []) + FlightBookings(f, bookings[1..])
  }

  /** A booking is listed for a flight exactly when it was loaded and names the flight. */
  lemma {:induction false} FlightBookingsMembers(f: JsVal, bookings: seq<JsVal>)
    ensures forall b :: b in FlightBookings(f, bookings) <==> b in bookings && BookingFlight(b) == FlightKey(f)
  {
    if |bookings| > 0 {
      FlightBookingsMembers(f, bookings[1..]);
      assert bookings == [bookings[0]] + bookings[1..];
    }
  }

  /** A flight no booking names has none listed. */
  lemma {:induction false} NoBookingsListed(f: JsVal, bookings: seq<JsVal>)
    requires forall b :: b in bookings ==> BookingFlight(b) != FlightKey(f)
    ensures FlightBookings(f, bookings) == []
  {
    if |bookings| > 0 {
      assert bookings[0] in bookings;
      NoBookingsListed(f, bookings[1..]);
    }
  }

  /** `totalBooked`: the booked counts of the flight's bookings, summed. */
  function TotalBooked(f: JsVal, bookings: seq<JsVal>): int {
    SumOf(FlightBookings(f, bookings), BookedCount)
  }

  /** A flight row: the flight as loaded plus the columns the page adds. */
  datatype FlightRow = FlightRow(raw: JsVal, totalSeats: int, bookedSeats: int, availableSeats: int,
                                 flightName: JsVal, origin: JsVal, destination: JsVal,
                                 departureTime: JsVal, arrivalTime: JsVal, fare: JsVal)

  /** `Flight {id}`. */
  function DefaultName(f: JsVal): JsVal {
    Str("Flight " + Interpolate(FlightKey(f)))
  }

  /** The flight's first booking, if it has one. */
  function FirstBooking(f: JsVal, bookings: seq<JsVal>): Option<JsVal> {
    var mine := FlightBookings(f, bookings);
    if |mine| > 0 then Some(mine[0]) else None
  }

  /** `firstBooking?.flight || firstBooking?.Flight || Flight {id}`. */
  function RowName(first: Option<JsVal>, f: JsVal): JsVal {
    if first.None? then DefaultName(f)
    else Or([Get(first.value, "flight"), Get(first.value, "Flight"), DefaultName(f)])
  }

  /** A time column: the first booking's time (either spelling), else the flight's own. */
  function RowTime(first: Option<JsVal>, f: JsVal, camel: string, pascal: string): JsVal {
    var fromBooking := if first.Some? then Or([Get(first.value, camel), Get(first.value, pascal)]) else Null;
    Or([fromBooking, Get(f, camel), Get(f, pascal)])
  }

  /** The capacity, the seats booked and left, and name and times from the flight's first
      booking, each falling back to the flight's own fields (or `Flight {id}` for the name). */
  function WithSeats(f: JsVal, bookings: seq<JsVal>): FlightRow {
    var total := TotalBooked(f, bookings);
    var first := FirstBooking(f, bookings);
    FlightRow(f, TotalSeats, total, Available(total), RowName(first, f),
              Or([Get(f, "origin"), Get(f, "Origin")]),
              Or([Get(f, "destination"), Get(f, "Destination")]),
              RowTime(first, f, "departureTime", "DepartureTime"),
              RowTime(first, f, "arrivalTime", "ArrivalTime"),
              Or([Get(f, "fare"), Get(f, "Fare"), Get(f, "price"), Get(f, "Price")]))
  }

  /** `loadFlights`: flights from `Admin/flights` (else `Flights`), bookings from
      `Admin/bookings` (else `bookings`); bookings that are not an array count as none. A
      `null` flight, or a `null` booking the seat count reads, throws and empties the table. */
  function LoadFlights(flightsPrimary: Response, flightsFallback: Response,
                       bookingsPrimary: Response, bookingsFallback: Response): (r: seq<FlightRow>)
    ensures var flights := LoadWithFallback("/Admin/flights", "/Flights", flightsPrimary, flightsFallback).0;
            var bookings := Records(LoadWithFallback("/Admin/bookings", "/bookings", bookingsPrimary, bookingsFallback).0);
            flights.Arr? && NoNullish(flights.items) && NoNullish(bookings) ==>
              |r| == |flights.items| && forall i :: 0 <= i < |flights.items| ==> r[i] == WithSeats(flights.items[i], bookings)
    ensures var flights := LoadWithFallback("/Admin/flights", "/Flights", flightsPrimary, flightsFallback).0;
            var bookings := Records(LoadWithFallback("/Admin/bookings", "/bookings", bookingsPrimary, bookingsFallback).0);
            !(flights.Arr? && NoNullish(flights.items) && NoNullish(bookings)) ==> r == []
  {
    var flights := Normalisable(LoadWithFallback("/Admin/flights", "/Flights", flightsPrimary, flightsFallback).0);
    var bookings := Records(LoadWithFallback("/Admin/bookings", "/bookings", bookingsPrimary, bookingsFallback).0);
    if NoNullish(bookings) then Map(flights, f => WithSeats(f, bookings)) else []
  }

  /** The seat columns: capacity 120; booked and available add up to it while the bookings fit;
      available never drops below zero. A flight with no bookings shows all 120 seats free, the
      name `Flight {id}` and its own times. */
  lemma SeatColumns(f: JsVal, bookings: seq<JsVal>)
    ensures var row := WithSeats(f, bookings);
            && row.totalSeats == TotalSeats && row.availableSeats >= 0
            && (0 <= row.bookedSeats <= TotalSeats ==> row.availableSeats + row.bookedSeats == TotalSeats)
    ensures (forall b :: b in bookings ==> BookingFlight(b) != FlightKey(f)) ==>
              var row := WithSeats(f, bookings);
              && row.bookedSeats == 0 && row.availableSeats == TotalSeats && row.flightName == DefaultName(f)
              && row.departureTime == Or([Get(f, "departureTime"), Get(f, "DepartureTime")])
  {
    if forall b :: b in bookings ==> BookingFlight(b) != FlightKey(f) {
      var mine := FlightBookings(f, bookings);
      NoBookingsListed(f, bookings);
      assert TotalBooked(f, bookings) == 0;
      assert FirstBooking(f, bookings) == None;
      var own := [Get(f, "departureTime"), Get(f, "DepartureTime")];
      assert FirstTruthyIndex([Null] + own, Truthy) == 1 + FirstTruthyIndex(own, Truthy);
    }
  }

  /** Bookings whose counts are positive numbers (or absent, hence 1) book at least one seat
      each, so the booked column is at least the number of the flight's bookings. */
  lemma BookedAtLeastBookings(f: JsVal, bookings: seq<JsVal>)
    requires forall b :: b in bookings ==> BookedCount(b) >= 1
    ensures WithSeats(f, bookings).bookedSeats >= |FlightBookings(f, bookings)|
  {
    var mine := FlightBookings(f, bookings);
    FlightBookingsMembers(f, bookings);
    assert forall i :: 0 <= i < |mine| ==> mine[i] in mine;
    SumAtLeastCount(mine, BookedCount);
  }

  /** A count of `0` is falsy, so such a booking books one seat. */
  lemma ZeroCountIsOne(b: JsVal)
    requires Get(b, "passengerCount") == Num(0) && !Truthy(Get(b, "passengers"))
    ensures BookedCount(b) == 1
  {
  }

  // ---------------------------------------------------------------------------
  // Searching the tables
  // ---------------------------------------------------------------------------

  predicate UserShown(u: UserRow, term: string) {
    FieldMatches(u.firstName, term) || FieldMatches(u.lastName, term)
    || FieldMatches(u.email, term) || FieldMatches(u.role, term)
  }

  predicate FlightShown(f: FlightRow, term: string) {
    FieldMatches(f.flightName, term) || FieldMatches(f.origin, term) || FieldMatches(f.destination, term)
  }

  /** The booking id is searched with case, the names without. */
  predicate BookingShown(b: BookingRow, term: string) {
    IdMatches(b.bookingId, term) || FieldMatches(b.userName, term) || FieldMatches(b.flightName, term)
  }

  /** The three filtered tables. */
  function FilterTables(users: seq<UserRow>, flights: seq<FlightRow>, bookings: seq<BookingRow>,
                        userSearch: string, flightSearch: string, bookingSearch: string): (r: (seq<UserRow>, seq<FlightRow>, seq<BookingRow>))
    ensures IsSubseq(r.0, users) && IsSubseq(r.1, flights) && IsSubseq(r.2, bookings)
    ensures forall u :: u in users ==> (u in r.0 <==> UserShown(u, userSearch))
    ensures forall f :: f in flights ==> (f in r.1 <==> FlightShown(f, flightSearch))
    ensures forall b :: b in bookings ==> (b in r.2 <==> BookingShown(b, bookingSearch))
  {
    (Filter(users, u => UserShown(u, userSearch)),
     Filter(flights, f => FlightShown(f, flightSearch)),
     Filter(bookings, b => BookingShown(b, bookingSearch)))
  }

  /** Empty searches show every row of every table, in order. */
  lemma EmptySearchesShowAll(users: seq<UserRow>, flights: seq<FlightRow>, bookings: seq<BookingRow>)
    ensures FilterTables(users, flights, bookings, "", "", "") == (users, flights, bookings)
  {
    forall v: JsVal { EmptyTermMatches(v); }
    KeepAll(users, u => UserShown(u, ""));
    KeepAll(flights, f => FlightShown(f, ""));
    KeepAll(bookings, b => BookingShown(b, ""));
  }
}

=== FILE: ownernew.dfy ===
/** `pages/FlightOwner.new.jsx`, a second flight owner dashboard that no route mounts: its role
    check, the flight-name and flight-timing indexes, the seat counts read from the bookings'
    seat lists, its searches and its logout. */
module FlightOwnerNew {
  import opened Wrappers
  import opened Strings
  import opened Js
  import opened Dashboards
  import Guards
  import Login

  // ---------------------------------------------------------------------------
  // Access
  // ---------------------------------------------------------------------------

  /** `checkFlightOwnerRole` as written: `userToken` is required, then the lower-case
      `userData.role` must be exactly `Flightowner`; user data that is not JSON is denied. */
  function CheckAccess(local: Storage): (r: Access)
    ensures !ItemTruthy(local, "userToken") <==> r == ToLogin
    ensures r == Granted ==> ParseItemOrEmpty(local, "userData").Some?
  {
    if !ItemTruthy(local, "userToken") then ToLogin
    else match ParseItemOrEmpty(local, "userData")
      case None => Denied
      case Some(userData) => if Get(userData, "role") == Str("Flightowner") then Granted else Denied
  }

  /** The `userData` the login page writes never has a lower-case `role` key, so after any
      sign-in the check as written never admits anyone, whatever the token's claims say. */
  lemma LoginDataNeverAdmitted(local: Storage, email: string, password: string, reply: Response,
                               decodePayload: string -> JsVal)
    requires Login.Submit(local, email, password, reply, decodePayload).navigateTo.Some?
    ensures CheckAccess(Login.Submit(local, email, password, reply, decodePayload).local) != Granted
  {
    var claims := Login.DecodeJwt(Get(reply.body.value, "token"), decodePayload);
    var stored := Login.Submit(local, email, password, reply, decodePayload).local;
    Login.StoredUserData(local, email, password, reply, decodePayload);
    if Truthy(claims) {
      var userData := Login.UserDataFromClaims(claims, email);
      Login.UserDataKeys(claims, email);
      assert "role" !in userData.fields;
      DeniedWithoutLowerRole(stored, userData);
    } else {
      var userData := Login.FallbackUserData(email);
      assert "role" !in userData.fields;
      DeniedWithoutLowerRole(stored, userData);
    }
  }

  /** Stored user data without a lower-case `role` is never admitted. */
  lemma DeniedWithoutLowerRole(local: Storage, userData: JsVal)
    requires ParseItemOrEmpty(local, "userData") == Some(userData)
    requires userData.Obj? && "role" !in userData.fields
    ensures CheckAccess(local) != Granted
  {
  }

  /** The check as the routed dashboard performs it: the key the login page writes, `Role`. */
  function CorrectedAccess(local: Storage): (r: Access)
    ensures !ItemTruthy(local, "userToken") <==> r == ToLogin
  {
    if !ItemTruthy(local, "userToken") then ToLogin
    else match ParseItemOrEmpty(local, "userData")
      case None => Denied
      case Some(userData) => if Get(userData, "Role") == Str("Flightowner") then Granted else Denied
  }

  /** With the corrected key, a sign-in whose token carries the role claim `Flightowner` is
      admitted. */
  lemma CorrectedAdmitsLoginOwner(local: Storage, email: string, password: string, reply: Response,
                                  decodePayload: string -> JsVal)
    requires Login.Submit(local, email, password, reply, decodePayload).navigateTo.Some?
    requires Get(reply.body.value, "token") != Str("")
    requires var claims := Login.DecodeJwt(Get(reply.body.value, "token"), decodePayload);
             Get(claims, "role") == Str("Flightowner")
    ensures CorrectedAccess(Login.Submit(local, email, password, reply, decodePayload).local) == Granted
  {
    var claims := Login.DecodeJwt(Get(reply.body.value, "token"), decodePayload);
    var stored := Login.Submit(local, email, password, reply, decodePayload).local;
    var userData := Login.UserDataFromClaims(claims, email);
    assert Truthy(claims);
    assert ParseItemOrEmpty(stored, "userData") == Some(userData) by {
      Login.StoredUserData(local, email, password, reply, decodePayload);
    }
    assert Get(userData, "Role") == Str("Flightowner") by {
      Login.RoleClaimChain(claims);
      Login.UserDataKeys(claims, email);
    }
    assert ItemTruthy(stored, "userToken") by {
      assert Get(reply.body.value, "token").Str?;
      Login.SignedIn(local, email, password, reply, decodePayload);
    }
    AdmittedWithRole(stored, userData);
  }

  /** Stored user data whose `Role` is `Flightowner` is admitted by the corrected check. */
  lemma AdmittedWithRole(local: Storage, userData: JsVal)
    requires ItemTruthy(local, "userToken") && ParseItemOrEmpty(local, "userData") == Some(userData)
    requires Get(userData, "Role") == Str("Flightowner")
    ensures CorrectedAccess(local) == Granted
  {
  }

  // ---------------------------------------------------------------------------
  // Indexes keyed by flight id
  // ---------------------------------------------------------------------------

  /** An object filled in a `forEach`: each element may give an entry `obj[key] = value`, keys
      being the id as text, and a later entry for a key replaces an earlier one. */
  function Index<T, V>(xs: seq<T>, entry: T -> Option<(string, V)>): map<string, V> {
    if |xs| == 0 then map[]
    else
      var m := Index(xs[..|xs| - 1], entry);
      var e := entry(xs[|xs| - 1]);
      if e.Some? then m[e.value.0 := e.value.1] else m
  }

  /** Element `x` gives an entry for key `k`. */
  predicate EntryFor<T, V>(x: T, entry: T -> Option<(string, V)>, k: string) {
    entry(x).Some? && entry(x).value.0 == k
  }

  /** A key is indexed exactly when some element gives an entry for it, and its value is the
      one given by the last such element. */
  lemma {:induction false} IndexLastWins<T, V>(xs: seq<T>, entry: T -> Option<(string, V)>, k: string)
    ensures k in Index(xs, entry) <==> exists i :: 0 <= i < |xs| && EntryFor(xs[i], entry, k)
    ensures k in Index(xs, entry) ==>
              exists i :: 0 <= i < |xs| && EntryFor(xs[i], entry, k) && Index(xs, entry)[k] == entry(xs[i]).value.1
                          && forall j :: i < j < |xs| ==> !EntryFor(xs[j], entry, k)
  {
    LastEntrySpec(xs, entry, k);
    IndexByLastEntry(xs, entry, k);
  }

  /** The position of the last element giving an entry for `k`, or -1 when none does. */
  function LastEntry<T, V>(xs: seq<T>, entry: T -> Option<(string, V)>, k: string): (i: int)
    ensures -1 <= i < |xs|
  {
    if |xs| == 0 then -1
    else if EntryFor(xs[|xs| - 1], entry, k) then |xs| - 1
    else LastEntry(xs[..|xs| - 1], entry, k)
  }

  /** The last entry for `k` is one, and no later element gives one. */
  lemma {:induction false} LastEntrySpec<T, V>(xs: seq<T>, entry: T -> Option<(string, V)>, k: string)
    ensures var i := LastEntry(xs, entry, k);
            && (i >= 0 ==> EntryFor(xs[i], entry, k))
            && forall j :: i < j < |xs| ==> !EntryFor(xs[j], entry, k)
    decreases |xs|
  {
    if |xs| > 0 && !EntryFor(xs[|xs| - 1], entry, k) {
      var ys := xs[..|xs| - 1];
      LastEntrySpec(ys, entry, k);
      var i := LastEntry(ys, entry, k);
      forall j | i < j < |xs|
        ensures !EntryFor(xs[j], entry, k)
      {
        if j < |ys| {
          assert xs[j] == ys[j];
        }
      }
      if i >= 0 {
        assert xs[i] == ys[i];
      }
    }
  }

  /** The index holds `k` exactly when some element gives an entry for it, with the last such
      element's value. */
  lemma {:induction false} IndexByLastEntry<T, V>(xs: seq<T>, entry: T -> Option<(string, V)>, k: string)
    ensures var i := LastEntry(xs, entry, k);
            && (k in Index(xs, entry) <==> i >= 0)
            && (i >= 0 ==> EntryFor(xs[i], entry, k) && Index(xs, entry)[k] == entry(xs[i]).value.1)
    decreases |xs|
  {
    if |xs| > 0 && !EntryFor(xs[|xs| - 1], entry, k) {
      var ys := xs[..|xs| - 1];
      IndexByLastEntry(ys, entry, k);
      var i := LastEntry(ys, entry, k);
      if i >= 0 {
        assert xs[i] == ys[i];
      }
    }
  }

  /** The elements of an OK JSON array reply whose elements can all be read; `None` when the
      request fails, the reply is not OK or not JSON, or the `forEach` would throw. */
  function ReadableItems(reply: Response): (r: Option<seq<JsVal>>)
    ensures r.Some? ==> Ok(reply) && reply.body == Some(Arr(r.value)) && NoNullish(r.value)
  {
    if !Ok(reply) || reply.body.None? then None
    else match reply.body.value
      case Arr(items) => if NoNullish(items) then Some(items) else None
      case _ => None
  }

  /** `loadFlightNames`: an item with a truthy id and a truthy name maps the id to the name. */
  function NameEntry(item: JsVal): Option<(string, JsVal)> {
    var id := Or([Get(item, "flightId"), Get(item, "FlightId")]);
    var name := Or([Get(item, "flightName"), Get(item, "FlightName")]);
    if Truthy(id) && Truthy(name) then Some((Interpolate(id), name)) else None
  }

  /** `GET /Flights/names`; `None` leaves the names shown before in place. */
  function LoadFlightNames(reply: Response): (r: (Option<map<string, JsVal>>, seq<Call>))
    ensures r.1 == [Call("GET", "/Flights/names", Undefined)]
    ensures r.0.Some? <==> ReadableItems(reply).Some?
  {
    var calls := [Call("GET", "/Flights/names", Undefined)];
    match ReadableItems(reply)
    case None => (None, calls)
    case Some(items) => (Some(Index(items, NameEntry)), calls)
  }

  /** The two times a booking gives its flight. */
  datatype Timing = Timing(departure: JsVal, arrival: JsVal)

  /** `loadFlightTimings`: a booking with a truthy `flightId`, `departureTime` and `arrivalTime`
      maps its flight to those times. */
  function TimingEntry(b: JsVal): Option<(string, Timing)> {
    var id := Get(b, "flightId");
    if Truthy(id) && Truthy(Get(b, "departureTime")) && Truthy(Get(b, "arrivalTime"))
    then Some((Interpolate(id), Timing(Get(b, "departureTime"), Get(b, "arrivalTime"))))
    else None
  }

  /** `GET /Bookings/all`; `None` leaves the timings shown before in place. */
  function LoadFlightTimings(reply: Response): (r: (Option<map<string, Timing>>, seq<Call>))
    ensures r.1 == [Call("GET", "/Bookings/all", Undefined)]
    ensures r.0.Some? <==> ReadableItems(reply).Some?
  {
    var calls := [Call("GET", "/Bookings/all", Undefined)];
    match ReadableItems(reply)
    case None => (None, calls)
    case Some(items) => (Some(Index(items, TimingEntry)), calls)
  }

  /** The name shown for a flight is the name of the last listed item for its id, and the
      flight is shown as loading when no item names it. */
  lemma NamesFromLastItem(items: seq<JsVal>, flightId: JsVal)
    ensures var names := Index(items, NameEntry);
            var k := Interpolate(flightId);
            && (k !in names <==> forall i :: 0 <= i < |items| ==> !EntryFor(items[i], NameEntry, k))
            && (k in names ==> exists i :: 0 <= i < |items| && NameEntry(items[i]) == Some((k, names[k]))
                                           && forall j :: i < j < |items| ==> !EntryFor(items[j], NameEntry, k))
  {
    var k := Interpolate(flightId);
    var i := LastEntry(items, NameEntry, k);
    LastEntrySpec(items, NameEntry, k);
    IndexByLastEntry(items, NameEntry, k);
    if i >= 0 {
      assert NameEntry(items[i]) == Some((k, Index(items, NameEntry)[k]));
    }
  }

  /** The times shown for a flight come from the last booking for it that has both times. */
  lemma TimingsFromLastBooking(bookings: seq<JsVal>, flightId: JsVal)
    ensures var timings := Index(bookings, TimingEntry);
            var k := Interpolate(flightId);
            k in timings ==> exists i :: 0 <= i < |bookings| && Interpolate(Get(bookings[i], "flightId")) == k
                                         && timings[k] == Timing(Get(bookings[i], "departureTime"), Get(bookings[i], "arrivalTime"))
                                         && forall j :: i < j < |bookings| ==> !EntryFor(bookings[j], TimingEntry, k)
  {
    var k := Interpolate(flightId);
    IndexLastWins(bookings, TimingEntry, k);
  }

  // ---------------------------------------------------------------------------
  // Seat counts
  // ---------------------------------------------------------------------------

  /** The seats in a seat list: the text is trimmed; a blank text holds none; otherwise it is
      split at commas and the non-empty trimmed pieces are counted. */
  function SeatCount(text: string): nat {
    var t := Trim(text);
    if t == "" then 0 else |SeatTokens(t)|
  }

  /** The seats one booking holds: none unless it has a truthy `flightId` and `selectedSeats`. */
  function BookingSeats(b: JsVal): nat {
    if Truthy(Get(b, "flightId")) && Truthy(Get(b, "selectedSeats"))
    then SeatCount(Interpolate(Get(b, "selectedSeats")))
    else 0
  }

  /** The key a booking's seats are counted under. */
  function SeatKey(b: JsVal): string {
    Interpolate(Get(b, "flightId"))
  }

  /** `bookedSeatsCount[key] || 0`. */
  function BookedFor(counts: map<string, int>, k: string): int {
    if k in counts then counts[k] else 0
  }

  /** `bookedSeatsCount`, filled booking by booking; a booking with a blank seat list leaves it
      alone. */
  function SeatsBooked(bookings: seq<JsVal>): map<string, int> {
    if |bookings| == 0 then map[]
    else
      var counts := SeatsBooked(bookings[..|bookings| - 1]);
      var b := bookings[|bookings| - 1];
      if Truthy(Get(b, "flightId")) && Truthy(Get(b, "selectedSeats")) && Trim(Interpolate(Get(b, "selectedSeats"))) != ""
      then counts[SeatKey(b) := BookedFor(counts, SeatKey(b)) + BookingSeats(b)]
      else counts
  }

  /** The seats of one flight's bookings, summed. */
  function SeatsOf(k: string): JsVal -> int {
    b => if SeatKey(b) == k then BookingSeats(b) else 0
  }

  /** The count kept for a flight is the sum of the seats of its bookings. */
  lemma {:induction false} SeatsBookedSum(bookings: seq<JsVal>, k: string)
    ensures BookedFor(SeatsBooked(bookings), k) == SumOf(bookings, SeatsOf(k))
    decreases |bookings|
  {
    if |bookings| > 0 {
      SeatsBookedSum(bookings[..|bookings| - 1], k);
    }
  }

  /** `seatMap`: every loaded flight maps its id to the seats left out of 120. */
  function SeatAvailability(flights: seq<JsVal>, counts: map<string, int>): (r: map<string, int>)
    ensures forall i :: 0 <= i < |flights| ==> Interpolate(Get(flights[i], "id")) in r
    ensures forall k :: k in r ==> exists i :: 0 <= i < |flights| && Interpolate(Get(flights[i], "id")) == k
    ensures forall k :: k in r ==> r[k] == Dashboards.Available(BookedFor(counts, k))
  {
    var ids := set i | 0 <= i < |flights| :: Interpolate(Get(flights[i], "id"));
    map k | k in ids :: Dashboards.Available(BookedFor(counts, k))
  }

  /** `loadSeatAvailability` over the flights in scope: no token sends nothing; the bookings
      are fetched; `None` leaves the seats shown before in place. */
  function LoadSeatAvailability(local: Storage, flights: seq<JsVal>, reply: Response): (r: (Option<map<string, int>>, seq<Call>))
    ensures !Guards.HasToken(local) ==> r == (None, [])
    ensures Guards.HasToken(local) ==> r.1 == [Call("GET", "/Bookings/all", Undefined)]
    ensures r.0.Some? <==> Guards.HasToken(local) && ReadableItems(reply).Some? && NoNullish(flights)
  {
    if !Guards.HasToken(local) then (None, [])
    else
      var calls := [Call("GET", "/Bookings/all", Undefined)];
      match ReadableItems(reply)
      case None => (None, calls)
      case Some(bookings) =>
        if NoNullish(flights) then (Some(SeatAvailability(flights, SeatsBooked(bookings))), calls)
        else (None, calls)
  }

  /** Each loaded flight shows between 0 and 120 seats left: 120 less the seats of its
      bookings, and all 120 when none of its bookings lists a seat. */
  lemma SeatsLeft(flights: seq<JsVal>, bookings: seq<JsVal>, i: int)
    requires 0 <= i < |flights|
    ensures var k := Interpolate(Get(flights[i], "id"));
            var seats := SeatAvailability(flights, SeatsBooked(bookings));
            && k in seats && 0 <= seats[k] <= Dashboards.TotalSeats
            && (SumOf(bookings, SeatsOf(k)) <= Dashboards.TotalSeats ==> seats[k] == Dashboards.TotalSeats - SumOf(bookings, SeatsOf(k)))
            && ((forall j :: 0 <= j < |bookings| ==> SeatsOf(k)(bookings[j]) == 0) ==> seats[k] == Dashboards.TotalSeats)
  {
    var k := Interpolate(Get(flights[i], "id"));
    SeatsBookedSum(bookings, k);
    SumOfNonNegative(bookings, SeatsOf(k));
    if forall j :: 0 <= j < |bookings| ==> SeatsOf(k)(bookings[j]) == 0 {
      SumOfZero(bookings, SeatsOf(k));
    }
  }

  /** The seat column of a flight row: `{seats} / 120` from the seat map, or `Loading...` while
      the map has no entry for the flight's id. */
  function SeatCell(seats: map<string, int>, f: JsVal): string {
    var k := Interpolate(Get(f, "id"));
    if k in seats then IntToString(seats[k]) + " / 120" else "Loading..."
  }

  /** The seat map left once `loadFlights` has awaited `loadSeatAvailability`, which computes
      the map over `flights`, starting from the map shown `before`. */
  function SeatsAfterLoad(local: Storage, flights: seq<JsVal>, before: map<string, int>, reply: Response): map<string, int> {
    match LoadSeatAvailability(local, flights, reply).0
    case None => before
    case Some(seats) => seats
  }

  /** As written, `loadSeatAvailability` reads the `flights` of the render that started the
      load, which on the first load is still the initial empty list, although `setFlights` has
      just stored the loaded ones: the seat map stays empty and every loaded flight shows
      `Loading...` whatever the bookings say. */
  lemma AsWrittenFirstLoadShowsLoading(local: Storage, loaded: seq<JsVal>, reply: Response, i: int)
    requires 0 <= i < |loaded|
    ensures SeatCell(SeatsAfterLoad(local, [], map[], reply), loaded[i]) == "Loading..."
  {
    var seats := SeatsAfterLoad(local, [], map[], reply);
    assert Interpolate(Get(loaded[i], "id")) !in seats;
  }

  /** Computed over the flights just loaded, as intended, each of them shows the seats left
      once the token is present and the bookings and flights can be read, whatever was shown
      before. */
  lemma CorrectedLoadShowsSeats(local: Storage, loaded: seq<JsVal>, before: map<string, int>, reply: Response, i: int)
    requires Guards.HasToken(local) && ReadableItems(reply).Some? && NoNullish(loaded)
    requires 0 <= i < |loaded|
    ensures var k := Interpolate(Get(loaded[i], "id"));
            var counts := SeatsBooked(ReadableItems(reply).value);
            SeatCell(SeatsAfterLoad(local, loaded, before, reply), loaded[i])
            == IntToString(Dashboards.Available(BookedFor(counts, k))) + " / 120"
    ensures SeatCell(SeatsAfterLoad(local, loaded, before, reply), loaded[i]) != "Loading..."
  {
    var k := Interpolate(Get(loaded[i], "id"));
    var counts := SeatsBooked(ReadableItems(reply).value);
    var seats := SeatsAfterLoad(local, loaded, before, reply);
    assert seats == SeatAvailability(loaded, counts);
    assert k in seats;
    var cell := SeatCell(seats, loaded[i]);
    assert cell == IntToString(seats[k]) + " / 120";
    assert cell[|cell| - 1] == '0';
  }

  /** A sum of zeros is zero. */
  lemma {:induction false} SumOfZero<T>(xs: seq<T>, f: T -> int)
    requires forall i :: 0 <= i < |xs| ==> f(xs[i]) == 0
    ensures SumOf(xs, f) == 0
    decreases |xs|
  {
    if |xs| > 0 {
      SumOfZero(xs[..|xs| - 1], f);
    }
  }

  /** A seat label as the seat map writes it: non-empty, no white space, no comma. */
  predicate SeatLabel(x: string) {
    |x| > 0 && FreeOf(x, ',') && forall i :: 0 <= i < |x| ==> !IsWhitespace(x[i])
  }

  /** A label after at most one space contains no comma and trims back to the label. */
  lemma PaddedLabel(pad: string, x: string)
    requires pad == "" || pad == " "
    requires SeatLabel(x)
    ensures FreeOf(pad + x, ',') && Trim(pad + x) == x
  {
    assert Trim(x) == x;
    if pad == "" {
      assert pad + x == x;
    } else {
      assert Blank(pad);
      TrimStartPad(pad, x);
      assert Trim(pad + x) == TrimEnd(TrimStart(x));
      assert forall i :: 1 <= i < |pad + x| ==> (pad + x)[i] == x[i - 1];
    }
  }

  /** `xs.map(f)` on a list with a head. */
  lemma MapCons<T, U>(x: T, xs: seq<T>, f: T -> U)
    ensures Map([x] + xs, f) == [f(x)] + Map(xs, f)
  {
  }

  /** `pad + xs.join(", ")` as its first label, a comma, and the rest after a space. */
  lemma JoinCons(pad: string, xs: seq<string>)
    requires |xs| >= 2
    ensures pad + Join(xs, ", ") == (pad + xs[0]) + "," + (" " + Join(xs[1..], ", "))
  {
    assert Join(xs, ", ") == xs[0] + ", " + Join(xs[1..], ", ");
    CommaSpace(pad, xs[0], Join(xs[1..], ", "));
  }

  /** `", "` is a comma followed by a space. */
  lemma CommaSpace(pad: string, x: string, rest: string)
    ensures pad + (x + ", " + rest) == (pad + x) + "," + (" " + rest)
  {
    assert ", " == [',', ' '];
  }

  /** Splitting `", "`-joined labels at commas and trimming the pieces gives the labels back,
      whatever blank text precedes the first one. */
  lemma {:induction false} SplitJoinedLabels(pad: string, xs: seq<string>)
    requires pad == "" || pad == " "
    requires |xs| >= 1 && forall i :: 0 <= i < |xs| ==> SeatLabel(xs[i])
    ensures Map(Split(pad + Join(xs, ", "), ","), Trim) == xs
    decreases |xs|
  {
    var x := xs[0];
    PaddedLabel(pad, x);
    if |xs| == 1 {
      SplitSingle(pad + x, ",");
      MapCons(pad + x, [], Trim);
    } else {
      var rest := Join(xs[1..], ", ");
      var tail := Map(Split(" " + rest, ","), Trim);
      assert tail == xs[1..] by {
        SplitJoinedLabels(" ", xs[1..]);
      }
      assert Map(Split(pad + Join(xs, ", "), ","), Trim) == [x] + tail by {
        JoinCons(pad, xs);
        SplitLabelStep(pad, x, rest);
      }
      HeadTail(xs);
    }
  }

  /** A non-empty sequence is its head followed by its tail. */
  lemma HeadTail<T>(xs: seq<T>)
    requires |xs| >= 1
    ensures xs == [xs[0]] + xs[1..]
  {
  }

  /** The first comma piece of a label followed by `", "` and more trims to the label. */
  lemma SplitLabelStep(pad: string, x: string, rest: string)
    requires FreeOf(pad + x, ',') && Trim(pad + x) == x
    ensures Map(Split((pad + x) + "," + (" " + rest), ","), Trim) == [x] + Map(Split(" " + rest, ","), Trim)
  {
    SplitStep(pad + x, ",", " " + rest);
    MapCons(pad + x, Split(" " + rest, ","), Trim);
  }

  /** The first and last characters of `", "`-joined labels are those of the first and last
      labels. */
  lemma {:induction false} JoinedEnds(xs: seq<string>)
    requires |xs| >= 1 && forall i :: 0 <= i < |xs| ==> SeatLabel(xs[i])
    ensures var s := Join(xs, ", ");
            SeatLabel(xs[0]) && SeatLabel(xs[|xs| - 1])
            && |s| > 0 && s[0] == xs[0][0] && s[|s| - 1] == xs[|xs| - 1][|xs[|xs| - 1]| - 1]
    decreases |xs|
  {
    if |xs| > 1 {
      JoinedEnds(xs[1..]);
      assert xs[1..][|xs| - 2] == xs[|xs| - 1];
    }
  }

  /** The comma pieces of a non-blank seat list, trimmed, empty ones dropped. */
  function SeatTokens(t: string): seq<string> {
    Filter(Map(Split(t, ","), Trim), NonEmpty)
  }

  /** `s.length > 0`. */
  predicate NonEmpty(x: string) {
    x != ""
  }

  /** A seat list written as the booking page writes it, labels joined with `", "`, counts one
      seat per label. */
  lemma JoinedSeatsCount(xs: seq<string>)
    requires |xs| >= 1 && forall i :: 0 <= i < |xs| ==> SeatLabel(xs[i])
    ensures SeatCount(Join(xs, ", ")) == |xs|
  {
    JoinedTrimmed(xs);
    JoinedTokens(xs);
  }

  /** `", "`-joined labels are not blank and survive trimming. */
  lemma JoinedTrimmed(xs: seq<string>)
    requires |xs| >= 1 && forall i :: 0 <= i < |xs| ==> SeatLabel(xs[i])
    ensures Join(xs, ", ") != "" && Trim(Join(xs, ", ")) == Join(xs, ", ")
  {
    var s := Join(xs, ", ");
    JoinedEnds(xs);
    var first, last := xs[0], xs[|xs| - 1];
    assert !IsWhitespace(s[0]) by {
      assert SeatLabel(first) && s[0] == first[0];
    }
    assert !IsWhitespace(s[|s| - 1]) by {
      assert SeatLabel(last) && s[|s| - 1] == last[|last| - 1];
    }
    TrimUnpadded(s);
  }

  /** The tokens of `", "`-joined labels are the labels. */
  lemma JoinedTokens(xs: seq<string>)
    requires |xs| >= 1 && forall i :: 0 <= i < |xs| ==> SeatLabel(xs[i])
    ensures SeatTokens(Join(xs, ", ")) == xs
  {
    var s := Join(xs, ", ");
    assert "" + s == s;
    SplitJoinedLabels("", xs);
    assert Map(Split(s, ","), Trim) == xs;
    assert forall i :: 0 <= i < |xs| ==> NonEmpty(xs[i]);
    KeepAll(xs, NonEmpty);
  }

  /** A blank seat list holds no seats. */
  lemma BlankSeatsCountNothing(text: string)
    requires Blank(text)
    ensures SeatCount(text) == 0
  {
    var r := TrimStart(text);
    assert r == text[|text| - |r|..];
    assert |r| == 0;
  }

  // ---------------------------------------------------------------------------
  // Searching the tables
  // ---------------------------------------------------------------------------

  /** `v?.toLowerCase().includes(term.toLowerCase())` on a text field. */
  predicate TextMatches(v: JsVal, term: string) {
    v.Str? && Contains(Lower(v.s), Lower(term))
  }

  /** `v?.toString().includes(term)`: ids are searched as written, with case. */
  predicate IdText(v: JsVal, term: string) {
    v != Null && v != Undefined && Contains(Interpolate(v), term)
  }

  predicate FlightShown(f: JsVal, term: string) {
    term == "" || TextMatches(Get(f, "origin"), term) || TextMatches(Get(f, "destination"), term)
    || IdText(Get(f, "id"), term)
  }

  predicate UserShown(u: JsVal, term: string) {
    term == "" || TextMatches(Get(u, "name"), term) || TextMatches(Get(u, "email"), term)
    || TextMatches(Get(u, "role"), term)
  }

  predicate BookingShown(b: JsVal, term: string) {
    term == "" || IdText(Get(b, "bookingId"), term) || TextMatches(Get(b, "flight"), term)
    || TextMatches(Get(Get(b, "user"), "email"), term)
  }

  /** The three filtered tables. */
  function FilterTables(flights: seq<JsVal>, users: seq<JsVal>, bookings: seq<JsVal>,
                        flightSearch: string, userSearch: string, bookingSearch: string): (r: (seq<JsVal>, seq<JsVal>, seq<JsVal>))
    ensures IsSubseq(r.0, flights) && IsSubseq(r.1, users) && IsSubseq(r.2, bookings)
    ensures forall f :: f in flights ==> (f in r.0 <==> FlightShown(f, flightSearch))
    ensures forall u :: u in users ==> (u in r.1 <==> UserShown(u, userSearch))
    ensures forall b :: b in bookings ==> (b in r.2 <==> BookingShown(b, bookingSearch))
  {
    (Filter(flights, f => FlightShown(f, flightSearch)),
     Filter(users, u => UserShown(u, userSearch)),
     Filter(bookings, b => BookingShown(b, bookingSearch)))
  }

  /** Empty searches show every row of every table, in order. */
  lemma EmptySearchesShowAll(flights: seq<JsVal>, users: seq<JsVal>, bookings: seq<JsVal>)
    ensures FilterTables(flights, users, bookings, "", "", "") == (flights, users, bookings)
  {
    KeepAll(flights, f => FlightShown(f, ""));
    KeepAll(users, u => UserShown(u, ""));
    KeepAll(bookings, b => BookingShown(b, ""));
  }

  /** A search never shows a user with no text name, email or role. */
  lemma UsersWithoutTextHidden(u: JsVal, term: string)
    requires term != "" && !Get(u, "name").Str? && !Get(u, "email").Str? && !Get(u, "role").Str?
    ensures !UserShown(u, term)
  {
  }

  // ---------------------------------------------------------------------------
  // Logout
  // ---------------------------------------------------------------------------

  /** `handleLogout`: the three login entries and `user` go and the page moves to `/login`;
      the session storage is not touched. */
  function Logout(local: Storage): (r: (Storage, string))
    ensures r.0.Keys == local.Keys - {"userToken", "userData", "token", "user"}
    ensures forall k :: k in r.0 ==> r.0[k] == local[k]
  {
    (local - {"userToken", "userData", "token", "user"}, "/login")
  }

  /** After this logout every guarded page sends the user to `/login`, but the navigation flags
      survive: the next sign-in reopens every page whose flag was set. */
  lemma LogoutKeepsFlags(local: Storage, session: Session, flag: string, token: string)
    requires flag != "" && token != ""
    ensures var l := Logout(local).0;
            && Guards.RouteGuard(l, session, flag).0 == Guards.RedirectTo("/login")
            && (Guards.RouteGuard(l["userToken" := Text(token)], session, flag).0 == Guards.Render
                <==> SessionFlag(session, flag))
  {
  }
}

=== FILE: passengers.dfy ===
/** `pages/PassengerDetails.jsx`: one form per passenger, the ordered per-field validation,
    and the submit protocol that turns the pending draft into the complete booking record. */
module PassengerDetails {
  import opened Wrappers
  import opened Strings
  import opened Js
  import Seats

  /** One passenger form. Every field holds the text of its input; `age` is the value of a
      number input, so the empty string or a decimal numeral. */
  datatype PassengerForm = PassengerForm(
    id: int,
    firstName: string,
    lastName: string,
    age: string,
    gender: string,
    passportNumber: string,
    nationality: string,
    seatNumber: string)

  /** The seat shown on form `index`: the index-th entry of the `seats` parameter split on
      `", "`, or `""` when there is no parameter or no such entry. */
  function SeatFor(seatsParam: string, index: nat): string {
    if seatsParam == "" then ""
    else
      var parts := Split(seatsParam, ", ");
      if index < |parts| then parts[index] else ""
  }

  /** The forms the page starts with: `Array.from({length: count})` (no form for a count
      below one), numbered from 1, all fields empty except the seat. */
  function InitialForms(count: int, seatsParam: string): (forms: seq<PassengerForm>)
    ensures |forms| == if count > 0 then count else 0
    ensures forall i :: 0 <= i < |forms| ==>
              forms[i].id == i + 1 && forms[i].seatNumber == SeatFor(seatsParam, i)
              && forms[i].firstName == forms[i].lastName == forms[i].age == ""
              && forms[i].gender == forms[i].passportNumber == forms[i].nationality == ""
  {
    var n := if count > 0 then count else 0;
    seq(n, i requires 0 <= i < n => PassengerForm(i + 1, "", "", "", "", "", "", SeatFor(seatsParam, i)))
  }

  /** The page's set-up from its query: an error when `flightId` is missing, otherwise the
      forms for `parseInt(passengers) || 1` passengers. */
  function LoadForms(flightIdParam: string, passengersParam: string, seatsParam: string): (r: Option<seq<PassengerForm>>)
    ensures r.None? <==> flightIdParam == ""
    ensures r.Some? ==> |r.value| == if Seats.PassengerCount(passengersParam) > 0 then Seats.PassengerCount(passengersParam) else 0
  {
    if flightIdParam == "" then None
    else Some(InitialForms(Seats.PassengerCount(passengersParam), seatsParam))
  }

  /** A seat id of the grid never contains a comma. */
  lemma SeatIdHasNoComma(row: nat, letter: char)
    requires letter in Seats.Letters
    ensures FreeOf(Seats.SeatId(row, letter), ',')
  {
    var s := Seats.SeatId(row, letter);
    assert s == NatToString(row) + [letter];
    forall i | 0 <= i < |s|
      ensures s[i] != ','
    {
      if i < |NatToString(row)| {
        assert s[i] == NatToString(row)[i];
        assert IsDigit(s[i]);
      }
    }
  }

  /** The seats chosen on the seat map reach the forms in order: form `i` shows the `i`-th chosen
      seat, provided no seat id contains a comma (which grid ids never do). */
  lemma SeatHandoff(sel: seq<string>, i: nat)
    requires |sel| >= 1 && i < |sel|
    requires forall k :: 0 <= k < |sel| ==> FreeOf(sel[k], ',') && sel[k] != ""
    ensures SeatFor(Join(sel, ", "), i) == sel[i]
  {
    var joined := Join(sel, ", ");
    assert ", "[0] == ',';
    SplitJoin(sel, ", ");
    assert joined != "" by {
      JoinNonEmpty(sel, ", ");
    }
  }

  lemma {:induction false} JoinNonEmpty(xs: seq<string>, sep: string)
    requires |xs| >= 1 && xs[0] != ""
    ensures Join(xs, sep) != ""
  {
    if |xs| > 1 {
      assert Join(xs, sep) == xs[0] + sep + Join(xs[1..], sep);
      assert |Join(xs, sep)| >= |xs[0]|;
    }
  }

  // ---------------------------------------------------------------------------
  // Validation
  // ---------------------------------------------------------------------------

  /** A text input holds something: a non-empty string is truthy. */
  predicate Filled(s: string) {
    |s| > 0
  }

  /** The age check: `!age || age < 1 || age > 120` rejects; a text that is not a number
      compares false both ways and so is let through. No integer check is made. */
  predicate AgeAccepted(age: string) {
    Filled(age) && match ToNumber(age)
      case None => true
      case Some(v) => !BelowWhole(v, 1) && !AboveWhole(v, 120)
  }

  /** What a valid passenger is, stated field by field. The passport number is not required. */
  predicate PassengerValid(p: PassengerForm) {
    Filled(Trim(p.firstName)) && Filled(Trim(p.lastName)) && AgeAccepted(p.age)
    && Filled(p.gender) && Filled(Trim(p.nationality))
  }

  /** The fields the page checks, in the order it checks them. */
  datatype Field = FirstName | LastName | Age | Gender | Nationality

  /** The first failing check on one passenger, in the page's order: first name, last name,
      age, gender, nationality. */
  function FirstProblem(p: PassengerForm): Option<Field> {
    if !Filled(Trim(p.firstName)) then Some(FirstName)
    else if !Filled(Trim(p.lastName)) then Some(LastName)
    else if !AgeAccepted(p.age) then Some(Age)
    else if !Filled(p.gender) then Some(Gender)
    else if !Filled(Trim(p.nationality)) then Some(Nationality)
    else None
  }

  /** The message shown for a failing check on the passenger numbered `n`. */
  function Message(f: Field, n: int): string {
    var what := match f
      case FirstName => "enter first name"
      case LastName => "enter last name"
      case Age => "enter a valid age"
      case Gender => "select gender"
      case Nationality => "enter nationality";
    "Please " + what + " for passenger " + IntToString(n)
  }

  /** The checks find nothing exactly when the passenger is valid, and a reported field is one
      that really fails while every field checked before it passes. */
  lemma FirstProblemSpec(p: PassengerForm)
    ensures FirstProblem(p).None? <==> PassengerValid(p)
    ensures FirstProblem(p) == Some(FirstName) <==> !Filled(Trim(p.firstName))
    ensures FirstProblem(p) == Some(LastName) <==> Filled(Trim(p.firstName)) && !Filled(Trim(p.lastName))
    ensures FirstProblem(p) == Some(Age)
            <==> Filled(Trim(p.firstName)) && Filled(Trim(p.lastName)) && !AgeAccepted(p.age)
    ensures FirstProblem(p) == Some(Gender)
            <==> Filled(Trim(p.firstName)) && Filled(Trim(p.lastName)) && AgeAccepted(p.age) && !Filled(p.gender)
    ensures FirstProblem(p) == Some(Nationality)
            <==> Filled(Trim(p.firstName)) && Filled(Trim(p.lastName)) && AgeAccepted(p.age) && Filled(p.gender)
                 && !Filled(Trim(p.nationality))
  {
  }

  /** A whole-number age passes exactly when it lies in 1..120. */
  lemma WholeAgeAccepted(n: nat)
    ensures AgeAccepted(NatToString(n)) <==> 1 <= n <= 120
  {
    ToNumberOfNat(n);
    AgeOfNumeral(NatToString(n), Numeral(false, n, ""));
  }

  /** A filled age that reads as a number is accepted exactly when that number is in 1..120. */
  lemma AgeOfNumeral(age: string, v: Numeral)
    requires Filled(age) && ToNumber(age) == Some(v)
    ensures AgeAccepted(age) <==> !BelowWhole(v, 1) && !AboveWhole(v, 120)
  {
  }

  /** An age is accepted exactly when it is filled and is either not a number or a number
      in 1..120, fractions included. */
  lemma AgeAcceptedValue(age: string)
    ensures AgeAccepted(age)
            <==> Filled(age) && (ToNumber(age).None? || 1.0 <= Value(ToNumber(age).value) <= 120.0)
  {
    if ToNumber(age).Some? {
      CompareWhole(ToNumber(age).value, 1);
      CompareWhole(ToNumber(age).value, 120);
    }
  }

  /** `validatePassengers`: scans the passengers in order and stops at the first failing check,
      reporting it with the 1-based passenger number; `err` is `""` when every passenger passes. */
  method ValidatePassengers(forms: seq<PassengerForm>) returns (ok: bool, err: string)
    ensures ok <==> forall i :: 0 <= i < |forms| ==> PassengerValid(forms[i])
    ensures ok ==> err == ""
    ensures !ok ==> exists i :: 0 <= i < |forms| && FirstProblem(forms[i]).Some?
                     && err == Message(FirstProblem(forms[i]).value, i + 1)
                     && forall k :: 0 <= k < i ==> PassengerValid(forms[k])
  {
    var i := 0;
    while i < |forms|
      invariant 0 <= i <= |forms|
      invariant forall k :: 0 <= k < i ==> PassengerValid(forms[k])
    {
      NoProblemIffValid(forms[i]);
      var problem := FirstProblem(forms[i]);
      if problem.Some? {
        ok, err := false, Message(problem.value, i + 1);
        assert !PassengerValid(forms[i]);
        return;
      }
      forall k | 0 <= k < i + 1
        ensures PassengerValid(forms[k])
      {
        if k == i {
          assert PassengerValid(forms[i]);
        }
      }
      i := i + 1;
    }
    return true, "";
  }

  /** The result of the checks on each passenger, in order. */
  function Problems(forms: seq<PassengerForm>): (ps: seq<Option<Field>>)
    ensures |ps| == |forms|
  {
    seq(|forms|, k requires 0 <= k < |forms| => FirstProblem(forms[k]))
  }

  /** The scan over the check results: the message for the first failing passenger at or after
      `from`. */
  function FirstErrorIn(ps: seq<Option<Field>>, from: nat): Option<string>
    requires from <= |ps|
    decreases |ps| - from
  {
    if from == |ps| then None
    else
      match ps[from]
      case Some(f) => Some(Message(f, from + 1))
      case None => FirstErrorIn(ps, from + 1)
  }

  /** The same scan as a function, used by the submit protocol. */
  function FirstError(forms: seq<PassengerForm>, from: nat): Option<string>
    requires from <= |forms|
  {
    FirstErrorIn(Problems(forms), from)
  }

  /** The scan over check results finds nothing exactly when no result from `from` on fails. */
  lemma {:induction false} FirstErrorInNone(ps: seq<Option<Field>>, from: nat)
    requires from <= |ps|
    ensures FirstErrorIn(ps, from).None? <==> forall k :: from <= k < |ps| ==> ps[k].None?
    decreases |ps| - from
  {
    if from < |ps| {
      FirstErrorInNone(ps, from + 1);
      if ps[from].None? && FirstErrorIn(ps, from + 1).None? {
        forall k | from <= k < |ps|
          ensures ps[k].None?
        {
          if k > from {
            assert from + 1 <= k < |ps|;
          }
        }
      }
    }
  }

  /** The scan over check results moves past a run of passing results. */
  lemma {:induction false} FirstErrorInPasses(ps: seq<Option<Field>>, from: nat, i: nat)
    requires from <= i <= |ps|
    requires forall k :: from <= k < i ==> ps[k].None?
    ensures FirstErrorIn(ps, from) == FirstErrorIn(ps, i)
    decreases i - from
  {
    if from < i {
      assert ps[from].None?;
      FirstErrorInPasses(ps, from + 1, i);
    }
  }

  /** The scan finds no message exactly when every passenger from `from` on is valid. */
  lemma FirstErrorNoneIffValid(forms: seq<PassengerForm>, from: nat)
    requires from <= |forms|
    ensures FirstError(forms, from).None? <==> forall i :: from <= i < |forms| ==> PassengerValid(forms[i])
  {
    var ps := Problems(forms);
    FirstErrorInNone(ps, from);
    forall i | from <= i < |forms|
      ensures ps[i].None? <==> PassengerValid(forms[i])
    {
      NoProblemIffValid(forms[i]);
    }
  }

  /** The loop and the function report the same message. */
  lemma FirstErrorReports(forms: seq<PassengerForm>, from: nat, i: nat)
    requires from <= i < |forms|
    requires forall k :: from <= k < i ==> PassengerValid(forms[k])
    requires FirstProblem(forms[i]).Some?
    ensures FirstError(forms, from) == Some(Message(FirstProblem(forms[i]).value, i + 1))
  {
    var ps := Problems(forms);
    forall k | from <= k < i
      ensures ps[k].None?
    {
      NoProblemIffValid(forms[k]);
    }
    FirstErrorInPasses(ps, from, i);
    assert ps[i] == FirstProblem(forms[i]);
  }

  /** A passenger passes every check exactly when it is valid. */
  lemma NoProblemIffValid(p: PassengerForm)
    ensures FirstProblem(p).None? <==> PassengerValid(p)
  {
    FirstProblemSpec(p);
  }

  // ---------------------------------------------------------------------------
  // Submitting
  // ---------------------------------------------------------------------------

  /** The fields of the draft sent to `POST /Bookings`. */
  const BookingKeys: seq<string> :=
    ["flightId", "flight", "route", "selectedSeats", "passengers", "totalAmount",
     "ticketType", "departureTime", "arrivalTime"]

  /** The booking request body: those draft fields that are defined. */
  function BookingBody(pending: JsVal): (b: JsVal)
    ensures b.Obj?
    ensures forall k :: k in b.fields <==> k in BookingKeys && Get(pending, k) != Undefined
    ensures forall k :: k in b.fields ==> b.fields[k] == Get(pending, k)
  {
    Obj(Defined(map k | k in BookingKeys :: Get(pending, k)))
  }

  /** The record sent for passenger `i`: seat `${i + 1}A` whatever seat was chosen, and the
      age through `parseInt` (`NaN` written as `null`). */
  function PassengerPayload(p: PassengerForm, i: nat): JsVal {
    Obj(map[
      "seatNo" := Str(NatToString(i + 1) + "A"),
      "firstName" := Str(p.firstName),
      "lastName" := Str(p.lastName),
      "age" := (match ParseInt(p.age) case Some(a) => Num(a) case None => Null),
      "gender" := Str(p.gender),
      "passportNumber" := Str(p.passportNumber),
      "nationality" := Str(p.nationality)])
  }

  /** A form as `JSON.stringify` writes it. */
  function FormJson(p: PassengerForm): JsVal {
    Obj(map[
      "id" := Num(p.id), "firstName" := Str(p.firstName), "lastName" := Str(p.lastName),
      "age" := Str(p.age), "gender" := Str(p.gender), "passportNumber" := Str(p.passportNumber),
      "nationality" := Str(p.nationality), "seatNumber" := Str(p.seatNumber)])
  }

  function PassengerPayloads(forms: seq<PassengerForm>): (r: seq<JsVal>)
    ensures |r| == |forms|
    ensures forall i :: 0 <= i < |forms| ==> r[i] == PassengerPayload(forms[i], i)
  {
    seq(|forms|, i requires 0 <= i < |forms| => PassengerPayload(forms[i], i))
  }

  /** The passenger save body `{bookingId, passengers}`. */
  function DetailsBody(bookingId: JsVal, forms: seq<PassengerForm>): JsVal {
    Obj(Defined(map["bookingId" := bookingId, "passengers" := Arr(PassengerPayloads(forms))]))
  }

  /** `{...pending, bookingId, passengers: forms, passengerDetails: result}`. */
  function CompleteRecord(pending: JsVal, bookingId: JsVal, forms: seq<PassengerForm>, result: JsVal): JsVal {
    Obj(Defined(Fields(pending)[
      "bookingId" := bookingId][
      "passengers" := Arr(Map(forms, FormJson))][
      "passengerDetails" := result]))
  }

  const PendingKey: string := "pendingBookingInfo"
  const CompleteKey: string := "completeBookingInfo"
  const FromPassengerDetails: string := "fromPassengerDetails"

  /** What one press of the submit button leaves behind: the storages, the requests sent in
      order, where the page navigates, the error shown, and whether `isSubmitting` was raised. */
  datatype SubmitResult = SubmitResult(
    local: Storage,
    session: Session,
    calls: seq<Call>,
    navigateTo: Option<string>,
    error: string,
    startedSubmitting: bool)

  function Failed(local: Storage, session: Session, calls: seq<Call>, message: string): SubmitResult {
    SubmitResult(local, session, calls, None, "Failed to complete booking: " + message, true)
  }

  /** `handleSubmitPassengerDetails`, given how the two requests are answered. */
  function Submit(forms: seq<PassengerForm>, local: Storage, session: Session,
                  createReply: Response, saveReply: Response): (r: SubmitResult)
    ensures FirstError(forms, 0).Some? ==>
              r == SubmitResult(local, session, [], None, FirstError(forms, 0).value, false)
    ensures r.navigateTo.Some? ==> r.navigateTo.value == "/payment" && Ok(createReply) && Ok(saveReply)
    ensures r.navigateTo.None? ==> r.local == local && r.session == session
    ensures r.navigateTo.Some? ==> r.session == session[FromPassengerDetails := "true"]
    ensures FirstError(forms, 0).None? && ParseItemOrEmpty(local, PendingKey) == Some(Null) ==>
              r == Failed(local, session, [], NullRead)
  {
    match FirstError(forms, 0)
    case Some(msg) => SubmitResult(local, session, [], None, msg, false)
    case None =>
      match ParseItemOrEmpty(local, PendingKey)
      case None => Failed(local, session, [], NotJson)
      case Some(pending) =>
        if pending.Null? then Failed(local, session, [], NullRead)
        else CreateBooking(forms, local, session, pending, createReply, saveReply)
  }

  /** The first request: `createBooking` with the draft, which throws the reply's text (or a
      status message) when the reply is not ok. */
  function CreateBooking(forms: seq<PassengerForm>, local: Storage, session: Session, pending: JsVal,
                         createReply: Response, saveReply: Response): (r: SubmitResult)
    ensures |r.calls| >= 1 && r.calls[0] == Call("POST", "/Bookings", BookingBody(pending))
    ensures r.navigateTo.Some? ==> r.navigateTo.value == "/payment" && Ok(createReply) && Ok(saveReply)
    ensures r.navigateTo.None? ==> r.local == local && r.session == session
    ensures r.navigateTo.Some? ==> r.session == session[FromPassengerDetails := "true"]
    ensures createReply.Reply? && Ok(createReply) && createReply.body == Some(Null) ==>
              r == Failed(local, session, [Call("POST", "/Bookings", BookingBody(pending))], NullRead)
  {
    var calls := [Call("POST", "/Bookings", BookingBody(pending))];
    match createReply
    case NetworkError => Failed(local, session, calls, FetchFailed)
    case Reply(status, text, body) =>
      if !Ok(createReply) then
        Failed(local, session, calls, OrStr(text, "Failed to create booking: " + IntToString(status)))
      else if body.None? then Failed(local, session, calls, NotJson)
      else if body.value.Null? then Failed(local, session, calls, NullRead)
      else SaveDetails(forms, local, session, pending, Get(body.value, "bookingId"), calls, saveReply)
  }

  /** The second request: the passenger details for the new booking id; only its success
      writes anything. */
  function SaveDetails(forms: seq<PassengerForm>, local: Storage, session: Session, pending: JsVal,
                       bookingId: JsVal, sent: seq<Call>, saveReply: Response): (r: SubmitResult)
    ensures r.calls == sent + [Call("POST", "/Passenger/details", DetailsBody(bookingId, forms))]
    ensures r.navigateTo.Some? <==> Ok(saveReply) && saveReply.body.Some?
    ensures r.navigateTo.Some? ==> r.navigateTo.value == "/payment"
    ensures r.navigateTo.None? ==> r.local == local && r.session == session
    ensures r.navigateTo.Some? ==>
              r.local == (local[CompleteKey := Json(CompleteRecord(pending, bookingId, forms, saveReply.body.value))]) - {PendingKey}
              && r.session == session[FromPassengerDetails := "true"]
  {
    var calls := sent + [Call("POST", "/Passenger/details", DetailsBody(bookingId, forms))];
    match saveReply
    case NetworkError => Failed(local, session, calls, FetchFailed)
    case Reply(status, _, result) =>
      if !Ok(saveReply) then
        Failed(local, session, calls, "Failed to save passenger details: " + IntToString(status))
      else if result.None? then Failed(local, session, calls, NotJson)
      else
        SubmitResult(
          (local[CompleteKey := Json(CompleteRecord(pending, bookingId, forms, result.value))]) - {PendingKey},
          session[FromPassengerDetails := "true"],
          calls, Some("/payment"), "", true)
  }

  /** A validation failure sends nothing and changes nothing, and `isSubmitting` is never
      raised. */
  lemma InvalidSendsNothing(forms: seq<PassengerForm>, local: Storage, session: Session,
                            createReply: Response, saveReply: Response, i: nat)
    requires i < |forms| && !PassengerValid(forms[i])
    ensures var r := Submit(forms, local, session, createReply, saveReply);
            r.calls == [] && r.local == local && r.session == session && !r.startedSubmitting
            && r.navigateTo.None?
  {
    FirstErrorNoneIffValid(forms, 0);
  }

  /** Every passenger passes, so validation lets the submit through. */
  lemma AllValidPasses(forms: seq<PassengerForm>)
    requires forall i :: 0 <= i < |forms| ==> PassengerValid(forms[i])
    ensures FirstError(forms, 0).None?
  {
    FirstErrorNoneIffValid(forms, 0);
  }

  /** The complete record keeps every draft field except the three it sets. */
  lemma CompleteRecordSpec(pending: JsVal, bookingId: JsVal, forms: seq<PassengerForm>, result: JsVal)
    requires result != Undefined && bookingId != Undefined
    ensures var c := CompleteRecord(pending, bookingId, forms, result);
            && Get(c, "passengers") == Arr(Map(forms, FormJson))
            && Get(c, "passengerDetails") == result
            && Get(c, "bookingId") == bookingId
            && (forall k :: k != "bookingId" && k != "passengers" && k != "passengerDetails"
                  ==> Get(c, k) == Get(pending, k))
  {
  }

  /** With a draft and a created booking that are not `null` (reading their fields would throw),
      on success the complete record is stored, the draft is removed and the payment page's
      flag is set before navigating to `/payment`; two requests went out. */
  lemma SuccessStoresCompleteRecord(forms: seq<PassengerForm>, local: Storage, session: Session,
                                    pending: JsVal, booking: JsVal, result: JsVal, s1: int, s2: int)
    requires forall i :: 0 <= i < |forms| ==> PassengerValid(forms[i])
    requires ParseItemOrEmpty(local, PendingKey) == Some(pending) && !pending.Null? && !booking.Null?
    requires 200 <= s1 <= 299 && 200 <= s2 <= 299
    ensures var r := Submit(forms, local, session, Reply(s1, "", Some(booking)), Reply(s2, "", Some(result)));
            && r.navigateTo == Some("/payment")
            && PendingKey !in r.local
            && SessionFlag(r.session, FromPassengerDetails)
            && r.local == (local[CompleteKey := Json(CompleteRecord(pending, Get(booking, "bookingId"), forms, result))]) - {PendingKey}
            && |r.calls| == 2
  {
    AllValidPasses(forms);
    var cr, sr := Reply(s1, "", Some(booking)), Reply(s2, "", Some(result));
    assert Submit(forms, local, session, cr, sr) == CreateBooking(forms, local, session, pending, cr, sr);
    assert CreateBooking(forms, local, session, pending, cr, sr)
        == SaveDetails(forms, local, session, pending, Get(booking, "bookingId"),
                       [Call("POST", "/Bookings", BookingBody(pending))], sr);
  }

  /** When the passenger save is refused, nothing is written and no flag is set, yet the
      booking created by the first request is left in place: no request undoes it. */
  lemma SaveFailureLeavesBooking(forms: seq<PassengerForm>, local: Storage, session: Session,
                                 pending: JsVal, booking: JsVal, s1: int, saveReply: Response)
    requires forall i :: 0 <= i < |forms| ==> PassengerValid(forms[i])
    requires ParseItemOrEmpty(local, PendingKey) == Some(pending) && !pending.Null? && !booking.Null?
    requires 200 <= s1 <= 299 && !Ok(saveReply)
    ensures var r := Submit(forms, local, session, Reply(s1, "", Some(booking)), saveReply);
            && r.local == local && r.session == session && r.navigateTo.None?
            && r.calls == [Call("POST", "/Bookings", BookingBody(pending)),
                           Call("POST", "/Passenger/details", DetailsBody(Get(booking, "bookingId"), forms))]
  {
    AllValidPasses(forms);
    var cr := Reply(s1, "", Some(booking));
    assert Submit(forms, local, session, cr, saveReply) == CreateBooking(forms, local, session, pending, cr, saveReply);
    assert CreateBooking(forms, local, session, pending, cr, saveReply)
        == SaveDetails(forms, local, session, pending, Get(booking, "bookingId"),
                       [Call("POST", "/Bookings", BookingBody(pending))], saveReply);
  }

  /** A missing draft is read as `{}` and does not stop the submit: the booking request is
      still sent, with an empty body. */
  lemma MissingDraftStillSubmits(forms: seq<PassengerForm>, local: Storage, session: Session,
                                 createReply: Response, saveReply: Response)
    requires forall i :: 0 <= i < |forms| ==> PassengerValid(forms[i])
    requires PendingKey !in local
    ensures var r := Submit(forms, local, session, createReply, saveReply);
            |r.calls| >= 1 && r.calls[0] == Call("POST", "/Bookings", Obj(map[]))
  {
    AllValidPasses(forms);
    assert Submit(forms, local, session, createReply, saveReply)
        == CreateBooking(forms, local, session, Obj(map[]), createReply, saveReply);
    assert BookingBody(Obj(map[])).fields == map[];
  }
}

=== FILE: payment.dfy ===
/** `pages/Payment.jsx`: loading the complete booking, the payment form's input sanitisers and
    validation, paying, and the clean-up run when the page is left unpaid. */
module Payment {
  import opened Wrappers
  import opened Strings
  import opened Js

  const CompleteKey: string := "completeBookingInfo"

  // ---------------------------------------------------------------------------
  // Loading the booking
  // ---------------------------------------------------------------------------

  /** What the page shows after loading: a redirect home, or the booking it displays. */
  datatype Loaded = RedirectHome | Showing(info: JsVal)

  /** One fetched passenger as the page rebuilds it: `seatNo`, or else the seat at the same
      position of `selectedSeats`. `None` is the `TypeError` of reading a field of `null`, or of
      splitting a `selectedSeats` that is not a string. */
  function RefreshPassenger(p: JsVal, selectedSeats: JsVal, index: nat): (r: Option<JsVal>)
    ensures r.Some? ==> r.value.Obj? && "seatNumber" in r.value.fields
    ensures r.Some? && Truthy(Get(p, "seatNo")) ==> r.value.fields["seatNumber"] == Get(p, "seatNo")
  {
    if p.Null? || p.Undefined? then None
    else
      var seat :=
        if Truthy(Get(p, "seatNo")) then Some(Get(p, "seatNo"))
        else if selectedSeats.Str? then
          var parts := Split(selectedSeats.s, ", ");
          Some(if index < |parts| then Str(parts[index]) else Undefined)
        else None;
      match seat
      case None => None
      case Some(sv) =>
        Some(Obj(map[
          "firstName" := Get(p, "firstName"), "lastName" := Get(p, "lastName"),
          "age" := Get(p, "age"), "gender" := Get(p, "gender"),
          "nationality" := Get(p, "nationality"), "passportNumber" := Get(p, "passportNumber"),
          "seatNumber" := sv]))
  }

  /** `passengerDetails.map(...)` from position `from` on; `None` when any element throws. */
  function RefreshAll(ps: seq<JsVal>, selectedSeats: JsVal, from: nat): (r: Option<seq<JsVal>>)
    requires from <= |ps|
    ensures r.Some? ==> |r.value| == |ps| - from
    ensures r.Some? ==> forall i :: from <= i < |ps| ==>
              RefreshPassenger(ps[i], selectedSeats, i) == Some(r.value[i - from])
    ensures r.None? <==> exists i :: from <= i < |ps| && RefreshPassenger(ps[i], selectedSeats, i).None?
    decreases |ps| - from
  {
    if from == |ps| then Some([])
    else match RefreshPassenger(ps[from], selectedSeats, from)
      case None => None
      case Some(x) =>
        match RefreshAll(ps, selectedSeats, from + 1)
        case None => None
        case Some(rest) => Some([x] + rest)
  }

  /** `loadBookingData`, given the reply to the passenger fetch: no stored booking, or one that
      is not JSON or is `null` (reading its id throws), sends the user home; a booking with an id has its passengers replaced by the
      fetched ones when that succeeds, and is shown as stored otherwise. */
  function LoadBooking(local: Storage, reply: Response): (r: Loaded)
    ensures !ItemTruthy(local, CompleteKey) ==> r == RedirectHome
    ensures r.Showing? ==> ParseItemOrEmpty(local, CompleteKey).Some?
  {
    if !ItemTruthy(local, CompleteKey) then RedirectHome
    else match ParseItemOrEmpty(local, CompleteKey)
      case None => RedirectHome
      case Some(data) =>
        if data.Null? then RedirectHome
        else if !Truthy(Get(data, "bookingId")) then Showing(data)
        else if !Ok(reply) || reply.body.None? || !reply.body.value.Arr? then Showing(data)
        else match RefreshAll(reply.body.value.items, Get(data, "selectedSeats"), 0)
          case None => Showing(data)
          case Some(ps) => Showing(Obj(Fields(data)["passengers" := Arr(ps)]))
  }

  /** The refresh only ever replaces `passengers`: every other field of the stored booking is
      shown as stored, whatever the reply. */
  lemma LoadKeepsOtherFields(local: Storage, reply: Response, data: JsVal, k: string)
    requires ItemTruthy(local, CompleteKey) && local[CompleteKey] == Json(data)
    requires data.Obj? && k != "passengers"
    ensures LoadBooking(local, reply).Showing?
    ensures Get(LoadBooking(local, reply).info, k) == Get(data, k)
  {
  }

  /** A failed fetch, or a booking without an id, shows the booking exactly as stored; a
      stored `null` sends the user home instead. */
  lemma LoadFallsBackToStored(local: Storage, reply: Response, data: JsVal)
    requires ItemTruthy(local, CompleteKey) && local[CompleteKey] == Json(data)
    requires !Ok(reply) || !Truthy(Get(data, "bookingId"))
    ensures LoadBooking(local, reply) == if data.Null? then RedirectHome else Showing(data)
  {
  }

  // ---------------------------------------------------------------------------
  // The form
  // ---------------------------------------------------------------------------

  datatype CardDetails = CardDetails(cardNumber: string, expiryDate: string, cvv: string, cardholderName: string)

  /** The card number input: digits only, at most sixteen. */
  function SanitizeCardNumber(raw: string): (r: string)
    ensures AllDigits(r) && |r| <= 16
    ensures AllDigits(raw) && |raw| <= 16 ==> r == raw
  {
    Take(DigitsOnly(raw), 16)
  }

  /** The CVV input: digits only, at most four. */
  function SanitizeCvv(raw: string): (r: string)
    ensures AllDigits(r) && |r| <= 4
    ensures AllDigits(raw) && |raw| <= 4 ==> r == raw
  {
    Take(DigitsOnly(raw), 4)
  }

  /** The expiry input: digits only; from two digits on, the first two, a slash, and at most
      two more. The month is never range-checked. */
  function FormatExpiry(raw: string): (r: string)
    ensures |r| <= 5
  {
    var v := DigitsOnly(raw);
    if |v| >= 2 then v[..2] + "/" + Take(v[2..], 2) else v
  }

  /** Re-sanitising what the inputs show changes nothing, so a re-render is stable. */
  lemma SanitizersIdempotent(raw: string)
    ensures SanitizeCardNumber(SanitizeCardNumber(raw)) == SanitizeCardNumber(raw)
    ensures SanitizeCvv(SanitizeCvv(raw)) == SanitizeCvv(raw)
    ensures FormatExpiry(FormatExpiry(raw)) == FormatExpiry(raw)
  {
    var v := DigitsOnly(raw);
    if |v| >= 2 {
      var r := FormatExpiry(raw);
      DigitsOnlyAppend(v[..2] + "/", Take(v[2..], 2));
      DigitsOnlyAppend(v[..2], "/");
      assert DigitsOnly("/") == "";
      assert DigitsOnly(r) == v[..2] + Take(v[2..], 2);
      assert (v[..2] + Take(v[2..], 2))[..2] == v[..2];
      assert (v[..2] + Take(v[2..], 2))[2..] == Take(v[2..], 2);
    }
  }

  /** The expiry shape: empty, one digit, or two digits, a slash and up to two digits. Two
      digits alone always come back with the slash appended, so the slash cannot be deleted. */
  lemma ExpiryShape(raw: string)
    ensures var r := FormatExpiry(raw);
            |r| <= 1 || (|r| >= 3 && r[2] == '/' && AllDigits(r[..2]) && AllDigits(r[3..]))
    ensures AllDigits(raw) && |raw| == 2 ==> FormatExpiry(raw) == raw + "/"
  {
    var r := FormatExpiry(raw);
    var v := DigitsOnly(raw);
    if |v| >= 2 {
      assert r[..2] == v[..2];
      assert r[3..] == Take(v[2..], 2);
    }
  }

  const NoMethod: string := "Please select a payment method"
  const MissingCard: string := "Please fill all card details"
  const BadCardNumber: string := "Please enter a valid card number"
  const BadCvv: string := "Please enter a valid CVV"
  const MissingUpi: string := "Please enter UPI ID"

  predicate IsCardMethod(m: string) {
    m == "credit-card" || m == "debit-card"
  }

  /** `validatePayment`: the first failing check's message, or `None` when the payment may go
      ahead. Only the chosen method's fields are checked. */
  function ValidatePayment(payMethod: string, card: CardDetails, upiId: string): (r: Option<string>)
    ensures payMethod == "" ==> r == Some(NoMethod)
    ensures r == Some(BadCvv) ==> IsCardMethod(payMethod) && |card.cardNumber| >= 16
  {
    if payMethod == "" then Some(NoMethod)
    else if IsCardMethod(payMethod) then
      if card.cardNumber == "" || card.expiryDate == "" || card.cvv == "" || card.cardholderName == "" then
        Some(MissingCard)
      else if |card.cardNumber| < 16 then Some(BadCardNumber)
      else if |card.cvv| < 3 then Some(BadCvv)
      else None
    else if payMethod == "upi" then
      if upiId == "" then Some(MissingUpi) else None
    else None
  }

  /** What an acceptable payment is, stated per method. */
  predicate PaymentAcceptable(payMethod: string, card: CardDetails, upiId: string) {
    payMethod != ""
    && (IsCardMethod(payMethod) ==>
          card.expiryDate != "" && card.cardholderName != ""
          && |card.cardNumber| >= 16 && |card.cvv| >= 3)
    && (payMethod == "upi" ==> upiId != "")
  }

  /** Validation lets a payment through exactly when it is acceptable. */
  lemma ValidatePaymentSpec(payMethod: string, card: CardDetails, upiId: string)
    ensures ValidatePayment(payMethod, card, upiId).None? <==> PaymentAcceptable(payMethod, card, upiId)
  {
  }

  /** Through the sanitisers, an accepted card payment carries exactly sixteen card digits and
      a three- or four-digit CVV. */
  lemma AcceptedCardShape(payMethod: string, rawNumber: string, expiry: string, rawCvv: string,
                          holder: string, upiId: string)
    requires IsCardMethod(payMethod)
    requires var card := CardDetails(SanitizeCardNumber(rawNumber), expiry, SanitizeCvv(rawCvv), holder);
             ValidatePayment(payMethod, card, upiId).None?
    ensures |SanitizeCardNumber(rawNumber)| == 16 && AllDigits(SanitizeCardNumber(rawNumber))
    ensures 3 <= |SanitizeCvv(rawCvv)| <= 4 && AllDigits(SanitizeCvv(rawCvv))
  {
  }

  // ---------------------------------------------------------------------------
  // Paying and leaving
  // ---------------------------------------------------------------------------

  /** The page after pressing "Pay": the error shown, whether processing started, the
      `paymentCompleted` flag, where it navigates and the navigation state it passes. */
  datatype PayResult = PayResult(error: string, startedProcessing: bool, completed: bool,
                                 navigateTo: Option<string>, state: JsVal)

  /** `handlePayment`: validation first; then, after the simulated delay, `paymentCompleted` is
      set and the page moves to the confirmation with the booking in navigation state. No
      session flag is written. */
  function Pay(payMethod: string, card: CardDetails, upiId: string, bookingInfo: JsVal, completed: bool): (r: PayResult)
    ensures r.startedProcessing <==> ValidatePayment(payMethod, card, upiId).None?
    ensures !r.startedProcessing ==> r.completed == completed && r.navigateTo.None?
    ensures r.startedProcessing ==>
              && r.completed && r.error == ""
              && r.navigateTo == Some("/booking-confirmation")
              && Get(r.state, "bookingInfo") == bookingInfo
              && Get(r.state, "paymentSuccess") == Bool(true)
              && Get(r.state, "paymentMethod") == Str(payMethod)
  {
    match ValidatePayment(payMethod, card, upiId)
    case Some(msg) => PayResult(msg, false, completed, None, Undefined)
    case None =>
      PayResult("", true, true, Some("/booking-confirmation"),
                Obj(map["bookingInfo" := bookingInfo, "paymentSuccess" := Bool(true),
                        "paymentMethod" := Str(payMethod)]))
  }

  /** Storage and requests after the clean-up ran. */
  datatype Cleanup = Cleanup(local: Storage, calls: seq<Call>)

  /** `handlePaymentAbandonment`, given whether each `DELETE` settles (a rejected fetch throws,
      skipping whatever follows, and so does reading the id of a stored `null`; a non-ok status
      does not throw). The passengers are deleted before the booking, and the stored
      booking is removed only when nothing threw. */
  function Abandon(local: Storage, passengersDeleteSettles: bool, bookingDeleteSettles: bool): (r: Cleanup)
    ensures !ItemTruthy(local, CompleteKey) ==> r == Cleanup(local, [])
    ensures r.local == local || r.local == local - {CompleteKey}
    ensures forall i :: 0 <= i < |r.calls| ==> r.calls[i].verb == "DELETE"
  {
    if !ItemTruthy(local, CompleteKey) then Cleanup(local, [])
    else match ParseItemOrEmpty(local, CompleteKey)
      case None => Cleanup(local, [])
      case Some(data) =>
        if data.Null? then Cleanup(local, [])
        else
          var id := Get(data, "bookingId");
          if !Truthy(id) then Cleanup(local - {CompleteKey}, [])
          else
            var first := [Call("DELETE", "/Passenger/booking/" + Interpolate(id), Undefined)];
            if !passengersDeleteSettles then Cleanup(local, first)
            else
              var both := first + [Call("DELETE", "/Bookings/" + Interpolate(id), Undefined)];
              if !bookingDeleteSettles then Cleanup(local, both)
              else Cleanup(local - {CompleteKey}, both)
  }

  /** The `beforeunload` and `popstate` handlers: clean up only while unpaid. */
  function Leave(completed: bool, local: Storage, passengersDeleteSettles: bool, bookingDeleteSettles: bool): (r: Cleanup)
    ensures completed ==> r == Cleanup(local, [])
  {
    if completed then Cleanup(local, []) else Abandon(local, passengersDeleteSettles, bookingDeleteSettles)
  }

  /** Leaving an unpaid booking that has an id deletes its passengers and then the booking,
      by that id, and forgets it locally. */
  lemma AbandonDeletesInOrder(local: Storage, data: JsVal)
    requires ItemTruthy(local, CompleteKey) && local[CompleteKey] == Json(data)
    requires Truthy(Get(data, "bookingId"))
    ensures var id := Interpolate(Get(data, "bookingId"));
            Leave(false, local, true, true)
              == Cleanup(local - {CompleteKey}, [Call("DELETE", "/Passenger/booking/" + id, Undefined),
                                                 Call("DELETE", "/Bookings/" + id, Undefined)])
  {
  }

  /** A successful payment protects the booking: leaving afterwards deletes nothing and sends
      nothing, while leaving after a refused payment still cleans up. */
  lemma PaidBookingSurvivesLeaving(payMethod: string, card: CardDetails, upiId: string, info: JsVal,
                                   local: Storage, s1: bool, s2: bool)
    ensures var r := Pay(payMethod, card, upiId, info, false);
            r.startedProcessing ==> Leave(r.completed, local, s1, s2) == Cleanup(local, [])
    ensures var r := Pay(payMethod, card, upiId, info, false);
            !r.startedProcessing ==> Leave(r.completed, local, s1, s2) == Abandon(local, s1, s2)
  {
  }

  /** A network failure on the first delete leaves both the booking on the server side and the
      stored copy: nothing is undone and the booking request is never sent. */
  lemma FailedCleanupKeepsRecord(local: Storage, data: JsVal, s2: bool)
    requires ItemTruthy(local, CompleteKey) && local[CompleteKey] == Json(data)
    requires Truthy(Get(data, "bookingId"))
    ensures Abandon(local, false, s2).local == local
    ensures |Abandon(local, false, s2).calls| == 1
  {
  }
}

=== FILE: refunds.dfy ===
/** `pages/FlightOwnerRefunds.jsx`: the flight owner's queue of cancellation requests, and the
    approve and reject actions that take a request off it. */
module FlightOwnerRefunds {
  import opened Wrappers
  import opened Js
  import Guards

  // ---------------------------------------------------------------------------
  // Loading the queue
  // ---------------------------------------------------------------------------

  const Requested: JsVal := Str("RequestedToCancel")
  const LoadFailed: string := "Failed to load cancellation requests. Please try again."

  /** A booking waiting for the owner's decision. */
  predicate IsRequest(b: JsVal) {
    Get(b, "status") == Requested
  }

  /** What the page holds once mounting settles. */
  datatype Loaded = Loaded(calls: seq<Call>, requests: seq<JsVal>, error: Option<string>, navigateTo: Option<string>)

  /** The mount effect: user data that is not JSON, or a role other than `Flightowner`, sends
      the user to `/home` before anything is fetched; a missing `userToken` then sends them to
      `/login`. Every booking is fetched and the requests are kept in order; a failed reply,
      a body that is not JSON or not an array, and an array with a `null` element (reading its
      `status` throws) all end in the retry message. */
  function Mount(local: Storage, reply: Response): (r: Loaded)
    ensures r.navigateTo.Some? <==> r.calls == []
    ensures r.error.Some? ==> r.requests == []
    ensures forall b :: b in r.requests ==> IsRequest(b)
    ensures (r.calls != [] && Ok(reply) && reply.body.Some? && reply.body.value.Arr?
             && !NoNullish(reply.body.value.items)) ==> r.error == Some(LoadFailed)
  {
    match ParseItemOrEmpty(local, "userData")
    case None => Loaded([], [], None, Some("/home"))
    case Some(userData) =>
      if Get(userData, "Role") != Str("Flightowner") then Loaded([], [], None, Some("/home"))
      else if !ItemTruthy(local, "userToken") then Loaded([], [], Some("Please log in to view refund requests"), Some("/login"))
      else
        var calls := [Call("GET", "/Admin/bookings", Undefined)];
        if !Ok(reply) || reply.body.None? || !reply.body.value.Arr? || !NoNullish(reply.body.value.items) then
          Loaded(calls, [], Some(LoadFailed), None)
        else Loaded(calls, Filter(reply.body.value.items, IsRequest), None, None)
  }

  /** A queue is shown only for an array reply without `null` elements, and it is exactly the
      reply's requests, in the reply's order. */
  lemma QueueIsRequests(local: Storage, reply: Response)
    requires Mount(local, reply).error.None? && Mount(local, reply).navigateTo.None?
    ensures reply.Reply? && reply.body.Some? && reply.body.value.Arr? && NoNullish(reply.body.value.items)
    ensures var r := Mount(local, reply);
            && IsSubseq(r.requests, reply.body.value.items)
            && forall b :: b in reply.body.value.items ==> (b in r.requests <==> IsRequest(b))
  {
  }

  /** The page fetches only for stored role `Flightowner` with a `userToken`; that role with a
      token is also what the owner dashboard's gate admits. */
  lemma FetchNeedsOwner(local: Storage, reply: Response)
    requires Mount(local, reply).calls != []
    ensures ItemTruthy(local, "userToken")
    ensures Guards.RoleProtected(local, ["Flightowner"]) == Guards.Render
  {
  }

  // ---------------------------------------------------------------------------
  // Deciding a request
  // ---------------------------------------------------------------------------

  datatype Decision = Approve | Reject

  /** The alert the page raises when a decision settles. The approved amount is shown with the
      `en-IN` number format, which is not modelled: the notice carries the value. */
  datatype Notice = Approved(amount: JsVal) | Rejected | Failed(decision: Decision, message: string)

  /** The page after a decision: the queue, the requests sent, the alert, the booking id whose
      buttons were disabled while the request was in flight, and `processingRefund` once the
      handler has returned. */
  datatype Decided = Decided(requests: seq<JsVal>, calls: seq<Call>, notice: Option<Notice>,
                             processing: Option<JsVal>, settled: JsVal)

  function Verb(d: Decision): string {
    match d
    case Approve => "approve-refund"
    case Reject => "reject-refund"
  }

  function Fallback(d: Decision): string {
    match d
    case Approve => "Failed to approve refund"
    case Reject => "Failed to reject refund"
  }

  /** `handleApproveRefund` / `handleRejectRefund`, from the state `current` of
      `processingRefund`. A declined confirmation does nothing. The PUT goes out even without a
      token. A refusal reads the reply's `message` (or the fallback); approval also reads the
      reply for the refunded amount, rejection does not. Reading a field of a `null` reply
      throws. Success removes every booking with that id; failure leaves the queue alone. The
      `finally` puts `processingRefund` back to `null`. */
  function Decide(requests: seq<JsVal>, id: JsVal, d: Decision, confirmed: bool, reply: Response,
                  current: JsVal): (r: Decided)
    ensures !confirmed ==> r == Decided(requests, [], None, None, current)
    ensures confirmed ==> r.calls == [Call("PUT", "/FlightOwner/bookings/" + Interpolate(id) + "/" + Verb(d), Undefined)]
    ensures confirmed ==> r.processing == Some(id) && r.settled == Null
    ensures r.notice.Some? && r.notice.value.Failed? ==> r.requests == requests
    ensures confirmed && reply.Reply? && reply.body == Some(Null) && (d == Approve || !Ok(reply)) ==>
              r.notice == Some(Failed(d, NullRead)) && r.requests == requests
  {
    if !confirmed then Decided(requests, [], None, None, current)
    else
      var calls := [Call("PUT", "/FlightOwner/bookings/" + Interpolate(id) + "/" + Verb(d), Undefined)];
      var remaining := Filter(requests, b => Get(b, "bookingId") != id);
      var outcome :=
        match reply
        case NetworkError => (Failed(d, FetchFailed), requests)
        case Reply(_, _, body) =>
          if !Ok(reply) then
            match body
            case None => (Failed(d, NotJson), requests)
            case Some(v) =>
              if v.Null? then (Failed(d, NullRead), requests)
              else (Failed(d, Interpolate(Or([Get(v, "message"), Str(Fallback(d))]))), requests)
          else if d == Reject then (Rejected, remaining)
          else match body
            case None => (Failed(d, NotJson), requests)
            case Some(v) =>
              if v.Null? then (Failed(d, NullRead), requests)
              else (Approved(Get(v, "refundAmount")), remaining);
      Decided(outcome.1, calls, Some(outcome.0), Some(id), Null)
  }

  /** A settled decision removes exactly the decided booking: it is gone, every other request
      is still there in order, and nothing else was added. */
  lemma DecisionRemovesOnlyThat(requests: seq<JsVal>, id: JsVal, d: Decision, reply: Response, current: JsVal)
    requires Ok(reply) && (d == Reject || (reply.body.Some? && !reply.body.value.Null?))
    ensures var r := Decide(requests, id, d, true, reply, current);
            && IsSubseq(r.requests, requests)
            && (forall b :: b in r.requests ==> Get(b, "bookingId") != id)
            && (forall b :: b in requests && Get(b, "bookingId") != id ==> b in r.requests)
            && (d == Approve ==> r.notice == Some(Approved(Get(reply.body.value, "refundAmount"))))
  {
  }

  /** A refusal keeps the queue, and a refusal without its own message falls back to the
      action's text. */
  lemma RefusalKeepsQueue(requests: seq<JsVal>, id: JsVal, d: Decision, reply: Response, current: JsVal)
    requires reply.Reply? && !Ok(reply) && reply.body.Some? && !Truthy(Get(reply.body.value, "message"))
    ensures Decide(requests, id, d, true, reply, current).requests == requests
    ensures Decide(requests, id, d, true, reply, current).notice
            == Some(Failed(d, if reply.body.value.Null? then NullRead else Fallback(d)))
  {
    OrSpec([Get(reply.body.value, "message"), Str(Fallback(d))]);
  }

  /** The buttons of a booking are disabled while `processingRefund` equals its id. The state
      starts at `null`, so a booking whose id is `null` is disabled even when idle. */
  predicate ButtonsDisabled(processing: JsVal, b: JsVal) {
    processing == Get(b, "bookingId")
  }

  /** While a decision is in flight only the bookings with that id are disabled; once it
      settles, whatever it ended in, `processingRefund` is back to `null` and only a booking
      whose id is `null` stays disabled. */
  lemma DisabledWhileProcessing(requests: seq<JsVal>, id: JsVal, d: Decision, reply: Response,
                                current: JsVal, b: JsVal)
    ensures var r := Decide(requests, id, d, true, reply, current);
            && r.processing.Some?
            && (ButtonsDisabled(r.processing.value, b) <==> Get(b, "bookingId") == id)
            && (ButtonsDisabled(r.settled, b) <==> Get(b, "bookingId") == Null)
  {
  }
}

=== FILE: routes.dfy ===
/** `App.jsx`: the route table, each path with the chain of wrappers around its page. The
    `ProtectedRoute` wrapper is not part of this model; its verdict is an input. */
module Routes {
  import opened Wrappers
  import opened Js
  import opened Guards

  datatype Page =
    | HomePage | FlightsPage | BookingsPage | PassengerDetailsPage | PaymentPage
    | ConfirmationPage | HistoryPage | AdminPage | OwnerPage | LoginPage | SignupPage

  /** One wrapper: `ProtectedRoute`, a session-flag guard, a role gate, or `AuthRoute`. */
  datatype Gate = Protected | Flag(name: string) | Roles(allowed: seq<string>) | Auth

  /** What a path maps to: a fixed redirect, or a page inside wrappers listed outermost first. */
  datatype Route = Redirect(to: string) | Element(gates: seq<Gate>, page: Page)

  /** The route table; `None` for a path no route matches (nothing is rendered). */
  function RouteFor(path: string): Option<Route> {
    if path == "/" then Some(Redirect("/login"))
    else if path == "/home" then Some(Element([Protected], HomePage))
    else if path == "/flights" then Some(Element([Protected], FlightsPage))
    else if path == "/bookings" then Some(Element([Protected], BookingsPage))
    else if path == "/passenger-details" then Some(Element([Protected, Flag(FromBookings)], PassengerDetailsPage))
    else if path == "/payment" then Some(Element([Protected, Flag(FromPassengerDetails)], PaymentPage))
    else if path == "/booking-confirmation" then Some(Element([Protected, Flag(FromPayment)], ConfirmationPage))
    else if path == "/booking-history" then Some(Element([Protected], HistoryPage))
    else if path == "/my-bookings" then Some(Element([Protected], HistoryPage))
    else if path == "/admin" then Some(Element([Roles(["Admin"])], AdminPage))
    else if path == "/flight-owner" then Some(Element([Roles(["Flightowner"])], OwnerPage))
    else if path == "/login" then Some(Element([Auth], LoginPage))
    else if path == "/signup" then Some(Element([Auth], SignupPage))
    else None
  }

  /** The result of visiting a path. */
  datatype Outcome = NoMatch | Navigate(to: string, session: Session) | Show(page: Page, session: Session)

  /** Runs the wrappers outermost first; the first redirect wins. */
  function RunGates(gates: seq<Gate>, page: Page, local: Storage, session: Session, protectedVerdict: Verdict): (r: Outcome)
    ensures r.NoMatch? == false
    ensures r.Show? ==> r.page == page
    decreases |gates|
  {
    if |gates| == 0 then Show(page, session)
    else
      var (v, session2) := match gates[0]
        case Protected => (protectedVerdict, session)
        case Flag(name) => RouteGuard(local, session, name)
        case Roles(allowed) => (RoleProtected(local, allowed), session)
        case Auth => (AuthRoute(local), session);
      match v
      case RedirectTo(to) => Navigate(to, session2)
      case Render => RunGates(gates[1..], page, local, session2, protectedVerdict)
  }

  /** Visiting `path` with the given storages; `protectedVerdict` is what `ProtectedRoute`
      decides. */
  function Resolve(path: string, local: Storage, session: Session, protectedVerdict: Verdict): Outcome {
    match RouteFor(path)
    case None => NoMatch
    case Some(Redirect(to)) => Navigate(to, session)
    case Some(Element(gates, page)) => RunGates(gates, page, local, session, protectedVerdict)
  }

  /** The root always goes to the login page, whoever visits. */
  lemma RootGoesToLogin(local: Storage, session: Session, pv: Verdict)
    ensures Resolve("/", local, session, pv) == Navigate("/login", session)
  {
  }

  /** A flow page shows exactly when `ProtectedRoute` lets the user in, there is a token and
      the page's flag is set. */
  lemma FlowPageNeedsFlag(local: Storage, session: Session, pv: Verdict)
    ensures Resolve("/payment", local, session, pv).Show?
            <==> pv == Render && HasToken(local) && SessionFlag(session, FromPassengerDetails)
    ensures Resolve("/passenger-details", local, session, pv).Show?
            <==> pv == Render && HasToken(local) && SessionFlag(session, FromBookings)
    ensures Resolve("/booking-confirmation", local, session, pv).Show?
            <==> pv == Render && HasToken(local) && SessionFlag(session, FromPayment)
  {
    ProtectedThenFlag(FromPassengerDetails, PaymentPage, local, session, pv);
    ProtectedThenFlag(FromBookings, PassengerDetailsPage, local, session, pv);
    ProtectedThenFlag(FromPayment, ConfirmationPage, local, session, pv);
  }

  /** A page behind `ProtectedRoute` and then a flag guard shows when both let it through. */
  lemma ProtectedThenFlag(flag: string, page: Page, local: Storage, session: Session, pv: Verdict)
    requires flag != ""
    ensures RunGates([Protected, Flag(flag)], page, local, session, pv).Show?
            <==> pv == Render && HasToken(local) && SessionFlag(session, flag)
  {
    var gates := [Protected, Flag(flag)];
    if pv == Render {
      assert gates[1..] == [Flag(flag)];
      assert RunGates(gates, page, local, session, pv) == RunGates([Flag(flag)], page, local, session, pv);
      assert [Flag(flag)][1..] == [];
    }
  }

  /** The dashboards are behind their role alone: exactly one role each, matched exactly. */
  lemma DashboardsNeedRole(local: Storage, session: Session, pv: Verdict)
    ensures Resolve("/admin", local, session, pv).Show?
            <==> HasToken(local) && StoredRole(local) == Some("Admin")
    ensures Resolve("/flight-owner", local, session, pv).Show?
            <==> HasToken(local) && StoredRole(local) == Some("Flightowner")
    ensures !Resolve("/admin", local, session, pv).Show? ==> Resolve("/admin", local, session, pv) == Navigate("/login", session)
  {
    RoleProtectedSpec(local, ["Admin"]);
    RoleProtectedSpec(local, ["Flightowner"]);
  }

  /** The login and sign-up pages show exactly when no one is logged in. */
  lemma LoginPagesOnlyLoggedOut(local: Storage, session: Session, pv: Verdict)
    ensures Resolve("/login", local, session, pv).Show? <==> !HasToken(local)
    ensures Resolve("/signup", local, session, pv).Show? <==> !HasToken(local)
  {
  }

  /** Both booking-history paths show the same page under the same conditions. */
  lemma HistoryAlias(local: Storage, session: Session, pv: Verdict)
    ensures Resolve("/booking-history", local, session, pv) == Resolve("/my-bookings", local, session, pv)
  {
  }

  /** Neither the path the refunds page links back to nor any refunds path is routed. */
  lemma UnroutedPaths(local: Storage, session: Session, pv: Verdict)
    ensures Resolve("/flightowner", local, session, pv) == NoMatch
    ensures Resolve("/flight-owner-refunds", local, session, pv) == NoMatch
    ensures Resolve("/refunds", local, session, pv) == NoMatch
  {
  }
}

=== FILE: seatmap.dfy ===
/** `pages/Bookings.jsx`: the seat map, seat selection under the passenger cap, the
    available-seat counter and the booking draft handed to the passenger-details page. */
module Seats {
  import opened Wrappers
  import opened Strings
  import opened Js
  import DateUtils

  // ---------------------------------------------------------------------------
  // The seat map
  // ---------------------------------------------------------------------------

  datatype SeatType = Window | Middle | Aisle
  datatype SeatStatus = Available | Occupied

  /** One cell of a row: a seat, or the gap that draws the aisle (never clickable). */
  datatype Cell =
    | Seat(id: string, row: int, letter: char, kind: SeatType, status: SeatStatus)
    | AisleGap(id: string)

  datatype SeatRow = SeatRow(rowNumber: int, cells: seq<Cell>)

  const FirstRow: int := 7
  const RowCount: nat := 20
  /** The column letters of the six seats of a row, left to right. */
  const Letters: string := "ABCDEF"

  /** `${row}${seat}`. */
  function SeatId(row: int, letter: char): string {
    IntToString(row) + [letter]
  }

  /** How the left block (A, B, C) types its seats. */
  function LeftKind(letter: char): SeatType {
    if letter == 'A' then Window else if letter == 'C' then Aisle else Middle
  }

  /** How the right block (D, E, F) types its seats. */
  function RightKind(letter: char): SeatType {
    if letter == 'D' then Aisle else if letter == 'F' then Window else Middle
  }

  /** The cabin plan, independent of how the page writes it: the outer seats are windows,
      the seats next to the aisle are aisle seats, the rest are middle seats. */
  function PlannedKind(letter: char): SeatType {
    if letter == 'A' || letter == 'F' then Window
    else if letter == 'C' || letter == 'D' then Aisle
    else Middle
  }

  /** Whether the booked-seats reply lists `id`; a failed fetch (`None`) lists nothing. */
  predicate IsBooked(booked: Option<seq<string>>, id: string) {
    booked.Some? && id in booked.value
  }

  function MakeSeat(row: int, letter: char, kind: SeatType, booked: Option<seq<string>>): Cell {
    var id := SeatId(row, letter);
    Seat(id, row, letter, kind, if IsBooked(booked, id) then Occupied else Available)
  }

  function BuildRow(row: int, booked: Option<seq<string>>): SeatRow {
    SeatRow(row, [
      MakeSeat(row, 'A', LeftKind('A'), booked),
      MakeSeat(row, 'B', LeftKind('B'), booked),
      MakeSeat(row, 'C', LeftKind('C'), booked),
      AisleGap(IntToString(row) + "-aisle"),
      MakeSeat(row, 'D', RightKind('D'), booked),
      MakeSeat(row, 'E', RightKind('E'), booked),
      MakeSeat(row, 'F', RightKind('F'), booked)
    ])
  }

  /** `generateSeatLayout`: `booked` is the booked-seat list the API returned, or `None` when
      the fetch failed and the page falls back to an all-available map. */
  function GenerateSeatLayout(booked: Option<seq<string>>): (layout: seq<SeatRow>)
    ensures |layout| == RowCount
    ensures forall i :: 0 <= i < |layout| ==> layout[i] == BuildRow(FirstRow + i, booked)
  {
    seq(RowCount, i requires 0 <= i < RowCount => BuildRow(FirstRow + i, booked))
  }

  /** The column of cell `j` of a row (`j != 3`). */
  function LetterAt(j: int): char
    requires 0 <= j < 7 && j != 3
  {
    if j < 3 then Letters[j] else Letters[j - 1]
  }

  /** Every row is A, B, C, the aisle gap, D, E, F; a seat's id is its row number followed by
      its letter, and its type follows the cabin plan. */
  lemma LayoutShape(booked: Option<seq<string>>, i: int, j: int)
    requires 0 <= i < RowCount && 0 <= j < 7
    ensures var c := GenerateSeatLayout(booked)[i].cells[j];
            if j == 3 then c.AisleGap?
            else c.Seat? && c.row == FirstRow + i && c.letter == LetterAt(j)
                 && c.id == SeatId(FirstRow + i, LetterAt(j)) && c.kind == PlannedKind(LetterAt(j))
  {
    assert Letters == ['A', 'B', 'C', 'D', 'E', 'F'];
  }

  /** A seat is occupied exactly when the booked list contains its id. */
  lemma OccupiedIffBooked(booked: Option<seq<string>>, i: int, j: int)
    requires 0 <= i < RowCount && 0 <= j < 7 && j != 3
    ensures var c := GenerateSeatLayout(booked)[i].cells[j];
            c.Seat? && (c.status == Occupied <==> IsBooked(booked, c.id))
  {
    LayoutShape(booked, i, j);
  }

  /** An id the grid can produce. */
  predicate InGrid(id: string) {
    exists r, l :: FirstRow <= r < FirstRow + RowCount && l in Letters && id == SeatId(r, l)
  }

  /** Booked ids that are not seats of the grid make no difference to the map. */
  lemma OutsideIdsIgnored(b1: seq<string>, b2: seq<string>)
    requires forall r, l :: FirstRow <= r < FirstRow + RowCount && l in Letters ==>
               (SeatId(r, l) in b1 <==> SeatId(r, l) in b2)
    ensures GenerateSeatLayout(Some(b1)) == GenerateSeatLayout(Some(b2))
  {
    var L1, L2 := GenerateSeatLayout(Some(b1)), GenerateSeatLayout(Some(b2));
    assert Letters == ['A', 'B', 'C', 'D', 'E', 'F'];
    forall i | 0 <= i < RowCount
      ensures L1[i] == L2[i]
    {
      var r := FirstRow + i;
      assert SeatId(r, 'A') in b1 <==> SeatId(r, 'A') in b2;
      assert SeatId(r, 'B') in b1 <==> SeatId(r, 'B') in b2;
      assert SeatId(r, 'C') in b1 <==> SeatId(r, 'C') in b2;
      assert SeatId(r, 'D') in b1 <==> SeatId(r, 'D') in b2;
      assert SeatId(r, 'E') in b1 <==> SeatId(r, 'E') in b2;
      assert SeatId(r, 'F') in b1 <==> SeatId(r, 'F') in b2;
    }
  }

  /** When the booked-seat fetch fails the map has the same shape, with every seat available:
      exactly the map of a flight with no bookings. */
  lemma FailOpenSameShape()
    ensures GenerateSeatLayout(None) == GenerateSeatLayout(Some([]))
  {
    var L1, L2 := GenerateSeatLayout(None), GenerateSeatLayout(Some([]));
    forall i | 0 <= i < RowCount
      ensures L1[i] == L2[i]
    {
    }
  }

  /** Two seats of the grid with the same id are the same seat. */
  lemma {:induction false} SeatIdInjective(r1: nat, l1: char, r2: nat, l2: char)
    requires SeatId(r1, l1) == SeatId(r2, l2)
    ensures r1 == r2 && l1 == l2
  {
    var s1, s2 := SeatId(r1, l1), SeatId(r2, l2);
    assert |s1| == |NatToString(r1)| + 1 && |s2| == |NatToString(r2)| + 1;
    assert NatToString(r1) == s1[..|s1| - 1] == s2[..|s2| - 1] == NatToString(r2);
    NatToStringInjective(r1, r2);
  }

  // ---------------------------------------------------------------------------
  // Counting seats
  // ---------------------------------------------------------------------------

  function CountStatus(cells: seq<Cell>, st: SeatStatus): nat {
    if |cells| == 0 then 0
    else CountStatus(cells[..|cells| - 1], st)
         + (if cells[|cells| - 1].Seat? && cells[|cells| - 1].status == st then 1 else 0)
  }

  function CountSeats(cells: seq<Cell>): nat {
    if |cells| == 0 then 0
    else CountSeats(cells[..|cells| - 1]) + (if cells[|cells| - 1].Seat? then 1 else 0)
  }

  /** The "Available seats" counter: non-gap cells whose status is available, over all rows. */
  function AvailableSeats(layout: seq<SeatRow>): nat {
    if |layout| == 0 then 0
    else AvailableSeats(layout[..|layout| - 1]) + CountStatus(layout[|layout| - 1].cells, Available)
  }

  function OccupiedSeats(layout: seq<SeatRow>): nat {
    if |layout| == 0 then 0
    else OccupiedSeats(layout[..|layout| - 1]) + CountStatus(layout[|layout| - 1].cells, Occupied)
  }

  function TotalSeats(layout: seq<SeatRow>): nat {
    if |layout| == 0 then 0 else TotalSeats(layout[..|layout| - 1]) + CountSeats(layout[|layout| - 1].cells)
  }

  /** Every seat of a row is either available or occupied. */
  lemma {:induction false} RowStatusSplit(cells: seq<Cell>)
    ensures CountStatus(cells, Available) + CountStatus(cells, Occupied) == CountSeats(cells)
  {
    if |cells| > 0 {
      RowStatusSplit(cells[..|cells| - 1]);
    }
  }

  /** Available plus occupied seats is every seat of the map. */
  lemma {:induction false} LayoutStatusSplit(layout: seq<SeatRow>)
    ensures AvailableSeats(layout) + OccupiedSeats(layout) == TotalSeats(layout)
  {
    if |layout| > 0 {
      LayoutStatusSplit(layout[..|layout| - 1]);
      RowStatusSplit(layout[|layout| - 1].cells);
    }
  }

  lemma SeatsPrefix(cells: seq<Cell>, k: nat)
    requires 0 < k <= |cells|
    ensures CountSeats(cells[..k]) == CountSeats(cells[..k - 1]) + (if cells[k - 1].Seat? then 1 else 0)
  {
    assert cells[..k][..k - 1] == cells[..k - 1];
  }

  lemma StatusPrefix(cells: seq<Cell>, k: nat, st: SeatStatus)
    requires 0 < k <= |cells|
    ensures CountStatus(cells[..k], st)
            == CountStatus(cells[..k - 1], st) + (if cells[k - 1].Seat? && cells[k - 1].status == st then 1 else 0)
  {
    assert cells[..k][..k - 1] == cells[..k - 1];
  }

  /** A generated row has six seats. */
  lemma GeneratedRowSeats(row: int, booked: Option<seq<string>>)
    ensures CountSeats(BuildRow(row, booked).cells) == 6
  {
    var c := BuildRow(row, booked).cells;
    SeatsPrefix(c, 1);
    SeatsPrefix(c, 2);
    SeatsPrefix(c, 3);
    SeatsPrefix(c, 4);
    SeatsPrefix(c, 5);
    SeatsPrefix(c, 6);
    SeatsPrefix(c, 7);
    assert c[..7] == c;
  }

  /** With no seat booked, all six seats of a generated row are available. */
  lemma GeneratedRowAvailable(row: int)
    ensures CountStatus(BuildRow(row, None).cells, Available) == 6
  {
    var c := BuildRow(row, None).cells;
    assert |c| == 7 && !c[3].Seat?;
    assert forall j :: 0 <= j < 7 && j != 3 ==> c[j].Seat? && c[j].status == Available by {
      forall letter: char, kind: SeatType
        ensures MakeSeat(row, letter, kind, None).status == Available
      {
      }
    }
    SixAvailable(c);
  }

  /** Seven cells whose fourth is the aisle and the others available seats count six. */
  lemma SixAvailable(c: seq<Cell>)
    requires |c| == 7 && !c[3].Seat?
    requires forall j :: 0 <= j < 7 && j != 3 ==> c[j].Seat? && c[j].status == Available
    ensures CountStatus(c, Available) == 6
  {
    StatusPrefix(c, 1, Available);
    StatusPrefix(c, 2, Available);
    StatusPrefix(c, 3, Available);
    StatusPrefix(c, 4, Available);
    StatusPrefix(c, 5, Available);
    StatusPrefix(c, 6, Available);
    StatusPrefix(c, 7, Available);
    assert c[..7] == c;
  }

  /** A map of generated rows has six seats per row. */
  lemma {:induction false} GeneratedTotal(booked: Option<seq<string>>, n: nat)
    requires n <= RowCount
    ensures TotalSeats(GenerateSeatLayout(booked)[..n]) == 6 * n
  {
    if n > 0 {
      var L := GenerateSeatLayout(booked);
      assert L[..n][..n - 1] == L[..n - 1];
      GeneratedTotal(booked, n - 1);
      GeneratedRowSeats(FirstRow + n - 1, booked);
    }
  }

  lemma {:induction false} FailOpenAvailable(n: nat)
    requires n <= RowCount
    ensures AvailableSeats(GenerateSeatLayout(None)[..n]) == 6 * n
  {
    if n > 0 {
      var L := GenerateSeatLayout(None);
      assert L[..n][..n - 1] == L[..n - 1];
      FailOpenAvailable(n - 1);
      GeneratedRowAvailable(FirstRow + n - 1);
    }
  }

  /** The map always holds 120 seats, split between the available counter and the occupied
      ones; when the booked-seat fetch fails the counter shows all 120. */
  lemma AvailableCounter(booked: Option<seq<string>>)
    ensures AvailableSeats(GenerateSeatLayout(booked)) + OccupiedSeats(GenerateSeatLayout(booked)) == 120
    ensures AvailableSeats(GenerateSeatLayout(None)) == 120
  {
    var L := GenerateSeatLayout(booked);
    assert L[..RowCount] == L;
    GeneratedTotal(booked, RowCount);
    LayoutStatusSplit(L);
    var N := GenerateSeatLayout(None);
    assert N[..RowCount] == N;
    FailOpenAvailable(RowCount);
  }

  // ---------------------------------------------------------------------------
  // Seat selection
  // ---------------------------------------------------------------------------

  predicate NoDuplicates(s: seq<string>) {
    forall a, b :: 0 <= a < b < |s| ==> s[a] != s[b]
  }

  /** `prev.filter(id => id !== seatId)`. */
  function Without(sel: seq<string>, id: string): (r: seq<string>)
    ensures id !in r
    ensures forall x :: x in sel && x != id ==> x in r
    ensures forall x :: x in r ==> x in sel
    ensures |r| <= |sel| && (id in sel ==> |r| < |sel|)
    ensures IsSubseq(r, sel)
    decreases |sel|
  {
    if |sel| == 0 then []
    else if sel[0] == id then Without(sel[1..], id)
    else
      var rest := Without(sel[1..], id);
      assert ([sel[0]] + rest)[1..] == rest;
      [sel[0]] + rest
  }

  /** Removing an id from a duplicate-free selection leaves it duplicate-free. */
  lemma {:induction false} WithoutKeepsNoDuplicates(sel: seq<string>, id: string)
    requires NoDuplicates(sel)
    ensures NoDuplicates(Without(sel, id))
    decreases |sel|
  {
    if |sel| > 0 {
      WithoutKeepsNoDuplicates(sel[1..], id);
      if sel[0] != id {
        var rest := Without(sel[1..], id);
        assert sel[0] !in sel[1..];
        assert sel[0] !in rest;
        var r := [sel[0]] + rest;
        forall a, b | 0 <= a < b < |r|
          ensures r[a] != r[b]
        {
          if a == 0 { assert r[b] == rest[b - 1]; } else { assert r[a] == rest[a - 1] && r[b] == rest[b - 1]; }
        }
      }
    }
  }

  /** `handleSeatClick(seat)` on a seat cell, with `cap` the passenger count. */
  function ToggleSeat(sel: seq<string>, seat: Cell, cap: int): (r: seq<string>)
    requires seat.Seat?
    ensures seat.status == Occupied ==> r == sel
    ensures seat.status == Available && seat.id in sel ==>
              (forall x :: x in r <==> x in sel && x != seat.id) && IsSubseq(r, sel) && |r| < |sel|
    ensures seat.status == Available && seat.id !in sel && |sel| < cap ==> r == sel + [seat.id]
    ensures seat.id !in sel && |sel| >= cap ==> r == sel
  {
    if seat.status == Occupied then sel
    else if seat.id in sel then Without(sel, seat.id)
    else if |sel| < cap then sel + [seat.id]
    else sel
  }

  /** The seat cell `c` is on the map. */
  predicate OnMap(layout: seq<SeatRow>, c: Cell) {
    exists i, j :: 0 <= i < |layout| && 0 <= j < |layout[i].cells| && layout[i].cells[j] == c
  }

  /** `id` names a seat of the map that is available. */
  predicate AvailableOnMap(layout: seq<SeatRow>, id: string) {
    exists i, j :: 0 <= i < |layout| && 0 <= j < |layout[i].cells|
                   && layout[i].cells[j].Seat? && layout[i].cells[j].status == Available
                   && layout[i].cells[j].id == id
  }

  /** A selection the page can be in: no seat twice, never more seats than passengers, and
      only available seats of the map. */
  predicate ValidSelection(layout: seq<SeatRow>, sel: seq<string>, cap: int) {
    NoDuplicates(sel)
    && (|sel| == 0 || |sel| <= cap)
    && forall k :: 0 <= k < |sel| ==> AvailableOnMap(layout, sel[k])
  }

  /** One click on a seat of the map keeps the selection valid. */
  lemma ToggleKeepsValid(layout: seq<SeatRow>, sel: seq<string>, seat: Cell, cap: int)
    requires seat.Seat? && OnMap(layout, seat)
    requires ValidSelection(layout, sel, cap)
    ensures ValidSelection(layout, ToggleSeat(sel, seat, cap), cap)
  {
    var r := ToggleSeat(sel, seat, cap);
    if seat.status == Available && seat.id !in sel && |sel| < cap {
      var i, j :| 0 <= i < |layout| && 0 <= j < |layout[i].cells| && layout[i].cells[j] == seat;
      assert AvailableOnMap(layout, seat.id);
      forall k | 0 <= k < |r|
        ensures AvailableOnMap(layout, r[k])
      {
        if k < |sel| { assert r[k] == sel[k]; }
      }
    } else if seat.status == Available && seat.id in sel {
      WithoutKeepsNoDuplicates(sel, seat.id);
      forall k | 0 <= k < |r|
        ensures AvailableOnMap(layout, r[k])
      {
        assert r[k] in sel;
        var m :| 0 <= m < |sel| && sel[m] == r[k];
      }
    }
  }

  /** The selection after a run of clicks on seats of the map, starting from `sel`. */
  function Clicks(sel: seq<string>, seats: seq<Cell>, cap: int): seq<string>
    requires forall k :: 0 <= k < |seats| ==> seats[k].Seat?
    decreases |seats|
  {
    if |seats| == 0 then sel else Clicks(ToggleSeat(sel, seats[0], cap), seats[1..], cap)
  }

  /** Whatever the user clicks, starting from no selection, the selection stays valid: at most
      `cap` seats, none twice, none occupied. */
  lemma {:induction false} ClicksKeepValid(layout: seq<SeatRow>, sel: seq<string>, seats: seq<Cell>, cap: int)
    requires forall k :: 0 <= k < |seats| ==> seats[k].Seat? && OnMap(layout, seats[k])
    requires ValidSelection(layout, sel, cap)
    ensures ValidSelection(layout, Clicks(sel, seats, cap), cap)
    decreases |seats|
  {
    if |seats| > 0 {
      ToggleKeepsValid(layout, sel, seats[0], cap);
      ClicksKeepValid(layout, ToggleSeat(sel, seats[0], cap), seats[1..], cap);
    }
  }

  /** `parseInt(searchParams.get('passengers')) || 1`: NaN and 0 fall back to one passenger. */
  function PassengerCount(param: string): (n: int)
    ensures n != 0
    ensures ParseInt(param).Some? && ParseInt(param).value != 0 ==> n == ParseInt(param).value
  {
    match ParseInt(param)
    case None => 1
    case Some(v) => if v == 0 then 1 else v
  }

  /** A count the search page rendered with `String(n)` reads back unchanged. */
  lemma PassengerCountOfRendered(n: nat)
    requires n >= 1
    ensures PassengerCount(NatToString(n)) == n
  {
    ParseIntOfNat(n);
  }

  // ---------------------------------------------------------------------------
  // The booking draft
  // ---------------------------------------------------------------------------

  const HourMs: int := 3600000
  const DayMs: int := 86400000

  /** What the seat page knows about the flight (from `selectedFlightData`, with the page's
      defaults already applied). */
  datatype FlightData = FlightData(airline: string, origin: string, destination: string, departureTime: string)

  /** The `pendingBookingInfo` record. Times are milliseconds; `flightId` is `None` when the id
      parameter does not parse (`NaN`, which JSON writes as `null`). Prices are whole rupees. */
  datatype Draft = Draft(
    flightId: Option<int>,
    flight: string,
    route: string,
    selectedSeats: string,
    passengers: int,
    totalAmount: int,
    ticketType: string,
    departureTime: int,
    arrivalTime: int,
    origin: string,
    destination: string,
    price: int)

  /** The query the page navigates to `/passenger-details` with (the fields later pages read). */
  datatype DetailsQuery = DetailsQuery(flightId: string, passengers: int, seats: string, departureDate: string)

  datatype ConfirmOutcome =
    | WrongSeatCount          // the alert asking for `passengers` seats
    | PrepareFailed           // an invalid date made `toISOString` throw
    | Proceed(draft: Draft, query: DetailsQuery)

  /** The path the confirmation navigates to, its query string aside; the alerts stay put. */
  function NavigatePath(out: ConfirmOutcome): Option<string> {
    if out.Proceed? then Some("/passenger-details") else None
  }

  /** The departure time: the chosen date at 10:30, else the flight's own departure, else two
      hours from now. `parseDate` is `new Date(s).getTime()`, `None` for an invalid date; local
      time is taken to be UTC. */
  function DepartureTime(dateParam: string, flightDeparture: string, now: int,
                         parseDate: string -> Option<int>): (r: Option<int>)
    ensures dateParam != "" && parseDate(dateParam).Some? ==>
              r.Some? && r.value % DayMs == 10 * HourMs + 30 * 60000
              && r.value / DayMs == parseDate(dateParam).value / DayMs
    ensures dateParam == "" && flightDeparture == "" ==> r == Some(now + 2 * HourMs)
  {
    if dateParam != "" then
      match parseDate(dateParam)
      case None => None
      case Some(t) => Some(t - t % DayMs + 10 * HourMs + 30 * 60000)
    else if flightDeparture != "" then parseDate(flightDeparture)
    else Some(now + 2 * HourMs)
  }

  /** `handleConfirmBooking`. */
  function ConfirmBooking(sel: seq<string>, passengers: int, flightIdParam: string, price: int,
                          flight: FlightData, dateParam: string, today: DateUtils.Date, now: int,
                          parseDate: string -> Option<int>): (out: ConfirmOutcome)
    ensures out.Proceed? <==> |sel| == passengers && DepartureTime(dateParam, flight.departureTime, now, parseDate).Some?
    ensures out.Proceed? ==>
              out.draft.totalAmount == price * passengers
              && out.draft.arrivalTime == out.draft.departureTime + 3 * HourMs
              && out.draft.selectedSeats == Join(sel, ", ")
              && out.draft.passengers == passengers
              && out.query.seats == out.draft.selectedSeats
              && out.query.passengers == passengers
  {
    if |sel| != passengers then WrongSeatCount
    else match DepartureTime(dateParam, flight.departureTime, now, parseDate)
      case None => PrepareFailed
      case Some(dep) =>
        var seats := Join(sel, ", ");
        var draft := Draft(
          ParseInt(flightIdParam),
          OrStr(flight.airline, "Unknown Airline"),
          flight.origin + " to " + flight.destination,
          seats, passengers, price * passengers, "Economy",
          dep, dep + 3 * HourMs, flight.origin, flight.destination, price);
        Proceed(draft, DetailsQuery(flightIdParam, passengers, seats,
                                    OrStr(dateParam, DateUtils.FormatDateToString(today))))
  }

  // ---------------------------------------------------------------------------
  // The draft as stored JSON
  // ---------------------------------------------------------------------------

  function OptNum(v: Option<int>): JsVal {
    if v.Some? then Num(v.value) else Null
  }

  /** `JSON.stringify(bookingInfo)` as a value; times stand for their ISO strings. */
  function DraftToJson(d: Draft): JsVal {
    Obj(map[
      "flightId" := OptNum(d.flightId),
      "flight" := Str(d.flight),
      "route" := Str(d.route),
      "selectedSeats" := Str(d.selectedSeats),
      "passengers" := Num(d.passengers),
      "totalAmount" := Num(d.totalAmount),
      "ticketType" := Str(d.ticketType),
      "departureTime" := Num(d.departureTime),
      "arrivalTime" := Num(d.arrivalTime),
      "origin" := Str(d.origin),
      "destination" := Str(d.destination),
      "price" := Num(d.price)])
  }

  /** Reads a stored draft back; `None` when a field is missing or of the wrong kind. */
  function DraftFromJson(v: JsVal): Option<Draft> {
    var f := Get(v, "flightId");
    if (f.Num? || f.Null?)
       && Get(v, "flight").Str? && Get(v, "route").Str? && Get(v, "selectedSeats").Str?
       && Get(v, "passengers").Num? && Get(v, "totalAmount").Num? && Get(v, "ticketType").Str?
       && Get(v, "departureTime").Num? && Get(v, "arrivalTime").Num?
       && Get(v, "origin").Str? && Get(v, "destination").Str? && Get(v, "price").Num?
    then Some(Draft(
      if f.Num? then Some(f.n) else None,
      Get(v, "flight").s, Get(v, "route").s, Get(v, "selectedSeats").s,
      Get(v, "passengers").n, Get(v, "totalAmount").n, Get(v, "ticketType").s,
      Get(v, "departureTime").n, Get(v, "arrivalTime").n,
      Get(v, "origin").s, Get(v, "destination").s, Get(v, "price").n))
    else None
  }

  /** Storing the draft and reading it back loses nothing. */
  lemma DraftRoundTrip(d: Draft)
    ensures DraftFromJson(DraftToJson(d)) == Some(d)
  {
  }
}

=== FILE: signup.dfy ===
/** `pages/Signup.jsx`: registering an account — the server probe, the client-side checks in
    their order, and what each reply leaves on the form. */
module Signup {
  import opened Wrappers
  import opened Strings
  import opened Js

  /** `connectionStatus`. */
  datatype Connection = Checking | Connected | Unreachable

  /** The mount-time probe of the server's `/test` endpoint, outside the API root. */
  function TestConnection(reply: Response): (c: Connection)
    ensures c == Connected <==> Ok(reply)
  {
    if Ok(reply) then Connected else Unreachable
  }

  datatype Form = Form(name: string, email: string, password: string, confirmPassword: string)

  const EmptyForm: Form := Form("", "", "", "")

  const CannotConnect: string := "Cannot connect to server. Please ensure the backend is running."
  const Mismatch: string := "Passwords do not match"
  const TooShort: string := "Password must be at least 6 characters long"

  /** The checks before anything is sent, in order: the server must have answered the probe,
      the two passwords must agree, and the password must have six characters. */
  function FirstProblem(c: Connection, f: Form): (r: Option<string>)
    ensures r.None? <==> c == Connected && f.password == f.confirmPassword && |f.password| >= 6
    ensures c != Connected ==> r == Some(CannotConnect)
    ensures c == Connected && f.password != f.confirmPassword ==> r == Some(Mismatch)
    ensures c == Connected && f.password == f.confirmPassword && |f.password| < 6 ==> r == Some(TooShort)
  {
    if c != Connected then Some(CannotConnect)
    else if f.password != f.confirmPassword then Some(Mismatch)
    else if |f.password| < 6 then Some(TooShort)
    else None
  }

  /** The submit button is disabled while a request is out or the probe has not succeeded, so
      the first check only fires if the form is submitted some other way. */
  predicate ButtonDisabled(loading: bool, c: Connection) {
    loading || c != Connected
  }

  /** What the form shows once `handleSubmit` settles; `loading` is back to false by then.
      `navigateLater` is the redirect the two-second timer performs. */
  datatype Outcome = Outcome(form: Form, calls: seq<Call>, error: string, success: string, navigateLater: Option<string>)

  const Registered: string := "Registration successful! Redirecting to login..."
  const NetworkFailed: string := "Network error. Please check your connection and try again."

  /** The request body: name and e-mail trimmed, password as typed. */
  function RegisterBody(f: Form): JsVal {
    Obj(map["name" := Str(Trim(f.name)), "email" := Str(Trim(f.email)), "password" := Str(f.password)])
  }

  /** `handleSubmit` with the reply of the register call. A failed check sets its message and
      sends nothing, leaving the `success` line as it was. Success clears the form and schedules
      `/login`. A refusal shows the error text's `message` when it is JSON (or `Registration
      failed`), and the status otherwise. */
  function Submit(c: Connection, f: Form, success: string, reply: Response): (r: Outcome)
    ensures FirstProblem(c, f).Some? ==> r == Outcome(f, [], FirstProblem(c, f).value, success, None)
    ensures FirstProblem(c, f).None? ==> r.calls == [Call("POST", "/Auth/register", RegisterBody(f))]
    ensures r.navigateLater.Some? <==> FirstProblem(c, f).None? && Ok(reply)
    ensures r.navigateLater.Some? ==> r.form == EmptyForm && r.error == "" && r.success == Registered
    ensures r.navigateLater.None? ==> r.form == f
    ensures r.navigateLater.None? && FirstProblem(c, f).None? ==> r.success == ""
    ensures r.navigateLater.None? ==>
              r.error != "" || (reply.Reply? && reply.body.Some? && Get(reply.body.value, "message").Arr?)
  {
    match FirstProblem(c, f)
    case Some(msg) => Outcome(f, [], msg, success, None)
    case None =>
      var calls := [Call("POST", "/Auth/register", RegisterBody(f))];
      match reply
      case NetworkError => Outcome(f, calls, NetworkFailed, "", None)
      case Reply(status, _, body) =>
        if Ok(reply) || status == 201 then Outcome(EmptyForm, calls, "", Registered, Some("/login"))
        else match body
          case Some(v) =>
            if v.Null? then Outcome(f, calls, StatusFailure(status), "", None)
            else Outcome(f, calls, RefusalText(v), "", None)
          case None => Outcome(f, calls, StatusFailure(status), "", None)
  }

  /** The catch branch: the error text is not JSON, or is `null` (reading its `message`
      throws). */
  function StatusFailure(status: int): (r: string)
    ensures r != "" && r != "Registration failed"
  {
    "Registration failed (" + IntToString(status) + ")"
  }

  /** `parsedError.message || 'Registration failed'` as the error line shows it: the fallback
      is truthy, so the line is empty only for a message that is an array joining to nothing. */
  function RefusalText(v: JsVal): (r: string)
    ensures !Get(v, "message").Arr? ==> r != ""
    ensures Get(v, "message") == Arr([]) ==> r == ""
  {
    var m := Or([Get(v, "message"), Str("Registration failed")]);
    OrSpec([Get(v, "message"), Str("Registration failed")]);
    InterpolateTruthy(m);
    Interpolate(m)
  }

  /** `response.ok || response.status === 201`: the second test adds nothing, since 201 is an
      OK status. */
  lemma CreatedIsOk(reply: Response)
    ensures (Ok(reply) || (reply.Reply? && reply.status == 201)) <==> Ok(reply)
  {
  }

  /** A refusal whose body carries no message reads `Registration failed`; one whose text is
      not JSON, or is `null`, names the status. */
  lemma RefusalMessages(f: Form, status: int, text: string, v: JsVal)
    requires FirstProblem(Connected, f).None? && !(200 <= status <= 299)
    ensures Submit(Connected, f, "", Reply(status, text, Some(v))).error
            == if v.Null? then StatusFailure(status) else RefusalText(v)
    ensures !Truthy(Get(v, "message")) ==> RefusalText(v) == "Registration failed"
    ensures Truthy(Get(v, "message")) ==> RefusalText(v) == Interpolate(Get(v, "message"))
    ensures Submit(Connected, f, "", Reply(status, text, None)).error == "Registration failed (" + IntToString(status) + ")"
    ensures Submit(Connected, f, "", Reply(status, text, Some(Null))).error == "Registration failed (" + IntToString(status) + ")"
  {
    OrSpec([Get(v, "message"), Str("Registration failed")]);
  }

  /** The name and e-mail sent carry no surrounding white space, and padding them changes
      nothing that is sent. */
  lemma BodyIsTrimmed(f: Form, pad: string)
    requires Blank(pad)
    ensures RegisterBody(f.(name := pad + f.name + pad)) == RegisterBody(f)
  {
    TrimPadding(f.name, pad);
  }
}

=== FILE: strings.dfy ===
/** The JavaScript string operations the pages rely on, over `string` (a sequence of
    characters): `String(n)`, `parseInt`, `toLowerCase`, `includes`, `trim`, `split`,
    `join`, `slice` and the `<` order on strings. */
module Strings {
  import opened Wrappers

  // ---------------------------------------------------------------------------
  // Digits and decimal rendering
  // ---------------------------------------------------------------------------

  predicate IsDigit(c: char) {
    '0' <= c <= '9'
  }

  predicate AllDigits(s: string) {
    forall i :: 0 <= i < |s| ==> IsDigit(s[i])
  }

  function DigitValue(c: char): (d: nat)
    requires IsDigit(c)
    ensures d < 10
  {
    c as int - '0' as int
  }

  function DigitChar(d: nat): (c: char)
    requires d < 10
    ensures IsDigit(c) && DigitValue(c) == d
  {
    (d + '0' as int) as char
  }

  /** `String(n)` for a non-negative integer: its decimal digits without leading zeros. */
  function NatToString(n: nat): (s: string)
    ensures 1 <= |s| && AllDigits(s)
    ensures n > 0 ==> s[0] != '0'
    ensures n < 10 <==> |s| == 1
    decreases n
  {
    if n < 10 then [DigitChar(n)] else NatToString(n / 10) + [DigitChar(n % 10)]
  }

  /** `String(i)` for any integer. */
  function IntToString(i: int): (s: string)
    ensures 1 <= |s|
    ensures i >= 0 ==> s == NatToString(i)
    ensures i < 0 ==> s == "-" + NatToString(-i)
  {
    if i < 0 then "-" + NatToString(-i) else NatToString(i)
  }

  /** The number a string of decimal digits denotes (the empty string denotes 0). */
  function DigitsValue(s: string): nat
    requires AllDigits(s)
  {
    if |s| == 0 then 0 else DigitsValue(s[..|s| - 1]) * 10 + DigitValue(s[|s| - 1])
  }

  /** Reading back the decimal rendering of `n` gives `n`. */
  lemma {:induction false} DigitsValueOfNat(n: nat)
    ensures DigitsValue(NatToString(n)) == n
    decreases n
  {
    if n >= 10 {
      var s := NatToString(n);
      assert s[..|s| - 1] == NatToString(n / 10);
      DigitsValueOfNat(n / 10);
    }
  }

  /** Two naturals with the same decimal rendering are equal. */
  lemma NatToStringInjective(a: nat, b: nat)
    requires NatToString(a) == NatToString(b)
    ensures a == b
  {
    DigitsValueOfNat(a);
    DigitsValueOfNat(b);
  }

  // ---------------------------------------------------------------------------
  // Whitespace and trimming
  // ---------------------------------------------------------------------------

  /** The white-space and line-terminator characters `trim`, `parseInt` and `Number` skip:
      the ASCII ones, the byte-order mark, the two Unicode line separators and every Unicode
      space separator (no-break space, ogham space mark, the en quad to hair space range,
      narrow no-break space, medium mathematical space and ideographic space). */
  predicate IsWhitespace(c: char) {
    c == ' ' || c == '\t' || c == '\n' || c == '\r' || c == '\U{000B}' || c == '\U{000C}'
    || c == '\U{00A0}' || c == '\U{FEFF}' || c == '\U{2028}' || c == '\U{2029}'
    || c == '\U{1680}' || '\U{2000}' <= c <= '\U{200A}' || c == '\U{202F}' || c == '\U{205F}'
    || c == '\U{3000}'
  }

  function TrimStart(s: string): (r: string)
    ensures |r| <= |s| && r == s[|s| - |r|..]
    ensures |r| > 0 ==> !IsWhitespace(r[0])
    ensures forall i :: 0 <= i < |s| - |r| ==> IsWhitespace(s[i])
    decreases |s|
  {
    if |s| > 0 && IsWhitespace(s[0]) then TrimStart(s[1..]) else s
  }

  function TrimEnd(s: string): (r: string)
    ensures |r| <= |s| && r == s[..|r|]
    ensures |r| > 0 ==> !IsWhitespace(r[|r| - 1])
    ensures forall i :: |r| <= i < |s| ==> IsWhitespace(s[i])
    decreases |s|
  {
    if |s| > 0 && IsWhitespace(s[|s| - 1]) then TrimEnd(s[..|s| - 1]) else s
  }

  /** `s.trim()`. */
  function Trim(s: string): (r: string)
    ensures |r| <= |s|
    ensures |r| > 0 ==> !IsWhitespace(r[0]) && !IsWhitespace(r[|r| - 1])
    ensures (forall i :: 0 <= i < |s| ==> !IsWhitespace(s[i])) ==> r == s
  {
    TrimEnd(TrimStart(s))
  }

  /** Trimming keeps the middle of `s`: a slice with only white space before and after it. */
  lemma TrimIsMiddle(s: string)
    ensures exists a, b :: 0 <= a <= b <= |s| && Trim(s) == s[a..b]
              && (forall i :: 0 <= i < a ==> IsWhitespace(s[i]))
              && (forall i :: b <= i < |s| ==> IsWhitespace(s[i]))
  {
    var t := TrimStart(s);
    var a := |s| - |t|;
    TrimMiddle(s, t, TrimEnd(t));
    assert 0 <= a <= a + |TrimEnd(t)| <= |s|;
  }

  /** A prefix `r` of a suffix `t` of `s` sits at offset `|s| - |t|` of `s`, and when the rest
      of `t` is white space, so is everything after it in `s`. */
  lemma TrimMiddle(s: string, t: string, r: string)
    requires |t| <= |s| && t == s[|s| - |t|..]
    requires |r| <= |t| && r == t[..|r|]
    requires forall i :: |r| <= i < |t| ==> IsWhitespace(t[i])
    ensures r == s[|s| - |t|..|s| - |t| + |r|]
    ensures forall i :: |s| - |t| + |r| <= i < |s| ==> IsWhitespace(s[i])
  {
    var a := |s| - |t|;
    forall i | a + |r| <= i < |s|
      ensures IsWhitespace(s[i])
    {
      assert s[i] == t[i - a];
    }
  }

  /** A string that is empty after trimming consists of white space only. */
  lemma TrimEmptyMeansBlank(s: string)
    requires Trim(s) == ""
    ensures forall i :: 0 <= i < |s| ==> IsWhitespace(s[i])
  {
    var t := TrimStart(s);
    assert TrimEnd(t) == "";
    assert |t| == 0;
  }

  /** Trimming leaves a string alone when it neither starts nor ends with white space. */
  lemma TrimUnpadded(s: string)
    requires |s| > 0 && !IsWhitespace(s[0]) && !IsWhitespace(s[|s| - 1])
    ensures Trim(s) == s
  {
    assert TrimStart(s) == s;
  }

  /** White space around a word that neither starts nor ends with white space is all `trim`
      removes. */
  lemma TrimPaddedWord(pad: string, w: string)
    requires Blank(pad)
    requires |w| > 0 && !IsWhitespace(w[0]) && !IsWhitespace(w[|w| - 1])
    ensures Trim(pad + w + pad) == w
  {
    TrimPadding(w, pad);
    TrimUnpadded(w);
  }

  /** Unicode space separators are trimmed like the ASCII space: `trim` turns `Delhi` with an
      ideographic space on either side into plain `Delhi`. */
  lemma TrimsSpaceSeparators()
    ensures Trim("\U{3000}Delhi\U{3000}") == "Delhi"
  {
    var pad, city := "\U{3000}", "Delhi";
    assert Blank(pad);
    assert pad + city + pad == "\U{3000}Delhi\U{3000}";
    TrimPaddedWord(pad, city);
  }

  /** Every character of `s` is white space. */
  predicate Blank(s: string) {
    forall i :: 0 <= i < |s| ==> IsWhitespace(s[i])
  }

  /** Leading white space is skipped by `TrimStart`. */
  lemma {:induction false} TrimStartPad(pad: string, s: string)
    requires Blank(pad)
    ensures TrimStart(pad + s) == TrimStart(s)
    decreases |pad|
  {
    if |pad| > 0 {
      assert (pad + s)[0] == pad[0];
      assert (pad + s)[1..] == pad[1..] + s;
      assert TrimStart(pad + s) == TrimStart(pad[1..] + s);
      TrimStartPad(pad[1..], s);
    } else {
      assert pad + s == s;
    }
  }

  /** Once `s` has a non-blank character, what follows it survives `TrimStart` untouched. */
  lemma {:induction false} TrimStartAppend(s: string, t: string)
    requires !Blank(s)
    ensures TrimStart(s + t) == TrimStart(s) + t
    decreases |s|
  {
    if IsWhitespace(s[0]) {
      assert (s + t)[0] == s[0];
      assert (s + t)[1..] == s[1..] + t;
      assert TrimStart(s + t) == TrimStart(s[1..] + t);
      TrimStartAppend(s[1..], t);
    }
  }

  /** Trailing white space is skipped by `TrimEnd`. */
  lemma {:induction false} TrimEndPad(s: string, pad: string)
    requires Blank(pad)
    ensures TrimEnd(s + pad) == TrimEnd(s)
    decreases |pad|
  {
    if |pad| > 0 {
      assert (s + pad)[|s + pad| - 1] == pad[|pad| - 1];
      assert (s + pad)[..|s + pad| - 1] == s + pad[..|pad| - 1];
      assert TrimEnd(s + pad) == TrimEnd(s + pad[..|pad| - 1]);
      TrimEndPad(s, pad[..|pad| - 1]);
    } else {
      assert s + pad == s;
    }
  }

  /** White space added around a string does not change what `trim` returns. */
  lemma TrimPadding(s: string, pad: string)
    requires Blank(pad)
    ensures Trim(pad + s + pad) == Trim(s)
  {
    var sp := s + pad;
    assert pad + s + pad == pad + sp;
    TrimStartPad(pad, sp);
    assert TrimStart(pad + s + pad) == TrimStart(sp);
    if Blank(s) {
      assert Blank(sp) by {
        forall i | 0 <= i < |sp|
          ensures IsWhitespace(sp[i])
        {
          if i < |s| { assert sp[i] == s[i]; } else { assert sp[i] == pad[i - |s|]; }
        }
      }
      TrimStartPad(sp, "");
      assert sp + "" == sp;
      TrimStartPad(s, "");
      assert s + "" == s;
      assert TrimStart(sp) == "" == TrimStart(s);
    } else {
      TrimStartAppend(s, pad);
      TrimEndPad(TrimStart(s), pad);
    }
  }

  // ---------------------------------------------------------------------------
  // parseInt
  // ---------------------------------------------------------------------------

  /** The longest prefix of `s` made of decimal digits. */
  function LeadingDigits(s: string): (r: string)
    ensures |r| <= |s| && r == s[..|r|] && AllDigits(r)
    ensures |r| < |s| ==> !IsDigit(s[|r|])
    decreases |s|
  {
    if |s| > 0 && IsDigit(s[0]) then [s[0]] + LeadingDigits(s[1..]) else ""
  }

  /** `parseInt(s)` (radix 10): leading white space and one sign are skipped, then the
      longest run of digits is read; `None` stands for `NaN` (no digit at all). */
  function ParseInt(s: string): Option<int> {
    var t := TrimStart(s);
    if |t| > 0 && t[0] == '-' then ParseDigits(t[1..], true)
    else if |t| > 0 && t[0] == '+' then ParseDigits(t[1..], false)
    else ParseDigits(t, false)
  }

  /** The value of the leading digits of `body`, negated on request; `None` when there are none. */
  function ParseDigits(body: string, negative: bool): Option<int> {
    var digits := LeadingDigits(body);
    var v: int := DigitsValue(digits);
    if |digits| == 0 then None else Some(if negative then -v else v)
  }

  /** `parseInt(String(n)) == n` for every natural `n`. */
  lemma ParseIntOfNat(n: nat)
    ensures ParseInt(NatToString(n)) == Some(n)
  {
    var s := NatToString(n);
    assert IsDigit(s[0]) && !IsWhitespace(s[0]);
    assert TrimStart(s) == s;
    assert s[0] != '-' && s[0] != '+';
    assert ParseInt(s) == ParseDigits(s, false);
    LeadingDigitsOfDigits(s);
    DigitsValueOfNat(n);
  }

  lemma {:induction false} LeadingDigitsOfDigits(s: string)
    requires AllDigits(s)
    ensures LeadingDigits(s) == s
    decreases |s|
  {
    if |s| > 0 {
      LeadingDigitsOfDigits(s[1..]);
    }
  }

  function Pow10(n: nat): (p: nat)
    ensures p >= 1
  {
    if n == 0 then 1 else 10 * Pow10(n - 1)
  }

  /** A number written in decimal notation: sign, whole part, and the digits after the point. */
  datatype Numeral = Numeral(negative: bool, whole: nat, fraction: string)

  /** The value a numeral denotes. */
  function Value(n: Numeral): real
    requires AllDigits(n.fraction)
  {
    var magnitude := n.whole as real + (DigitsValue(n.fraction) as real) / (Pow10(|n.fraction|) as real);
    if n.negative then -magnitude else magnitude
  }

  /** `Number(s)` for decimal notation: white space trimmed, the empty string is 0, an
      optional sign, digits with an optional fraction; `None` stands for `NaN`. Exponent
      notation and `Infinity` are not recognised. */
  function ToNumber(s: string): (r: Option<Numeral>)
    ensures r.Some? ==> AllDigits(r.value.fraction)
  {
    var t := Trim(s);
    if t == "" then Some(Numeral(false, 0, ""))
    else if t[0] == '-' then UnsignedDecimal(t[1..], true)
    else if t[0] == '+' then UnsignedDecimal(t[1..], false)
    else UnsignedDecimal(t, false)
  }

  /** Digits, optionally followed by a point and more digits, with at least one digit. */
  function UnsignedDecimal(body: string, negative: bool): (r: Option<Numeral>)
    ensures r.Some? ==> AllDigits(r.value.fraction)
  {
    var whole := LeadingDigits(body);
    var rest := body[|whole|..];
    if rest == "" then
      if |whole| > 0 then Some(Numeral(negative, DigitsValue(whole), "")) else None
    else if rest[0] == '.' && AllDigits(rest[1..]) && |whole| + |rest| > 1 then
      Some(Numeral(negative, DigitsValue(whole), rest[1..]))
    else None
  }

  /** `x < k` for a positive whole `k`, decided on the numeral without arithmetic. */
  predicate BelowWhole(n: Numeral, k: nat) {
    n.negative || n.whole < k
  }

  /** `x > k` for a whole `k`, decided on the numeral without arithmetic. */
  predicate AboveWhole(n: Numeral, k: nat) {
    !n.negative && (n.whole > k || (n.whole == k && exists i :: 0 <= i < |n.fraction| && n.fraction[i] != '0'))
  }

  /** The digits after the point are worth less than one. */
  lemma {:induction false} FractionBelowPower(f: string)
    requires AllDigits(f)
    ensures DigitsValue(f) < Pow10(|f|)
    ensures DigitsValue(f) == 0 <==> forall i :: 0 <= i < |f| ==> f[i] == '0'
    decreases |f|
  {
    if |f| > 0 {
      var g := f[..|f| - 1];
      FractionBelowPower(g);
      assert forall i :: 0 <= i < |g| ==> g[i] == f[i];
    }
  }

  lemma PositiveFactor(x: real, p: real)
    requires p > 0.0
    ensures x * p > 0.0 <==> x > 0.0
    ensures x * p == 0.0 <==> x == 0.0
  {
    if x > 0.0 {
      assert x * p > 0.0 * p;
    } else if x < 0.0 {
      assert x * p < 0.0 * p;
    }
  }

  lemma RatioBelowOne(d: real, p: real)
    requires 0.0 <= d < p
    ensures 0.0 <= d / p < 1.0
    ensures d / p == 0.0 <==> d == 0.0
  {
    var q := d / p;
    assert q * p == d;
    PositiveFactor(1.0 - q, p);
    if d > 0.0 {
      PositiveFactor(q, p);
    }
  }

  /** The two comparisons agree with the value the numeral denotes. */
  lemma CompareWhole(n: Numeral, k: nat)
    requires AllDigits(n.fraction)
    ensures k >= 1 ==> (BelowWhole(n, k) <==> Value(n) < k as real)
    ensures AboveWhole(n, k) <==> Value(n) > k as real
  {
    FractionBelowPower(n.fraction);
    var p := Pow10(|n.fraction|) as real;
    var d := DigitsValue(n.fraction) as real;
    assert d < p;
    RatioBelowOne(d, p);
  }

  /** `Number(String(n)) == n` for every natural `n`. */
  lemma ToNumberOfNat(n: nat)
    ensures ToNumber(NatToString(n)) == Some(Numeral(false, n, ""))
  {
    var s := NatToString(n);
    assert forall i :: 0 <= i < |s| ==> !IsWhitespace(s[i]);
    assert Trim(s) == s;
    assert s[0] != '-' && s[0] != '+';
    LeadingDigitsOfDigits(s);
    assert s[|s|..] == "";
    DigitsValueOfNat(n);
  }

  // ---------------------------------------------------------------------------
  // Case folding, search, slicing
  // ---------------------------------------------------------------------------

  /** `toLowerCase` on one character; only A-Z are folded. */
  function LowerChar(c: char): char {
    if 'A' <= c <= 'Z' then (c as int + 32) as char else c
  }

  function Lower(s: string): (r: string)
    ensures |r| == |s|
    ensures forall i :: 0 <= i < |s| ==> r[i] == LowerChar(s[i])
  {
    seq(|s|, i requires 0 <= i < |s| => LowerChar(s[i]))
  }

  predicate StartsWith(s: string, prefix: string) {
    |prefix| <= |s| && s[..|prefix|] == prefix
  }

  /** `s.includes(t)`: `t` occurs in `s` at some position. */
  predicate Contains(s: string, t: string)
    decreases |s|
  {
    StartsWith(s, t) || (|s| > 0 && Contains(s[1..], t))
  }

  /** `a.toLowerCase().includes(b.toLowerCase())`. */
  predicate ContainsIgnoreCase(s: string, t: string) {
    Contains(Lower(s), Lower(t))
  }

  /** Every string includes the empty string, so an empty search term matches everything. */
  lemma ContainsEmpty(s: string)
    ensures Contains(s, "")
    ensures ContainsIgnoreCase(s, "")
  {
    assert StartsWith(s, "");
    assert Lower("") == "";
    assert StartsWith(Lower(s), "");
  }

  /** Only the characters 0-9 of `s`, in order: `s.replace(/\D/g, '')`. */
  function DigitsOnly(s: string): (r: string)
    ensures AllDigits(r) && |r| <= |s|
    ensures AllDigits(s) ==> r == s
    decreases |s|
  {
    if |s| == 0 then ""
    else if IsDigit(s[0]) then [s[0]] + DigitsOnly(s[1..])
    else DigitsOnly(s[1..])
  }

  /** Dropping the non-digits of a concatenation drops them from each part. */
  lemma {:induction false} DigitsOnlyAppend(a: string, b: string)
    ensures DigitsOnly(a + b) == DigitsOnly(a) + DigitsOnly(b)
    decreases |a|
  {
    if |a| > 0 {
      assert (a + b)[1..] == a[1..] + b;
      DigitsOnlyAppend(a[1..], b);
    } else {
      assert a + b == b;
    }
  }

  /** `s.slice(0, n)`. */
  function Take(s: string, n: nat): (r: string)
    ensures |r| == if |s| < n then |s| else n
    ensures r == s[..|r|]
  {
    if |s| <= n then s else s[..n]
  }

  /** `s.slice(-n)`: the last `n` characters, or all of `s` when it is shorter. */
  function TakeLast(s: string, n: nat): (r: string)
    ensures |r| == if |s| < n then |s| else n
    ensures r == s[|s| - |r|..]
  {
    if |s| <= n then s else s[|s| - n..]
  }

  // ---------------------------------------------------------------------------
  // split and join
  // ---------------------------------------------------------------------------

  /** `sep` occurs in `s` starting at position `j`. */
  predicate OccursAt(s: string, sep: string, j: int) {
    0 <= j && j + |sep| <= |s| && s[j..j + |sep|] == sep
  }

  /** The first position at or after `from` where `sep` occurs in `s`. */
  function FindFrom(s: string, sep: string, from: nat): (r: Option<nat>)
    requires |sep| > 0 && from <= |s|
    ensures r.Some? ==> from <= r.value && OccursAt(s, sep, r.value)
    ensures r.Some? ==> forall j :: from <= j < r.value ==> !OccursAt(s, sep, j)
    ensures r.None? ==> forall j :: from <= j ==> !OccursAt(s, sep, j)
    decreases |s| - from
  {
    if from + |sep| > |s| then None
    else if s[from..from + |sep|] == sep then Some(from)
    else FindFrom(s, sep, from + 1)
  }

  /** `s.split(sep)` for a non-empty separator. */
  function Split(s: string, sep: string): (parts: seq<string>)
    requires |sep| > 0
    ensures |parts| >= 1
    decreases |s|
  {
    match FindFrom(s, sep, 0)
    case None => [s]
    case Some(k) => [s[..k]] + Split(s[k + |sep|..], sep)
  }

  /** `xs.join(sep)`. */
  function Join(xs: seq<string>, sep: string): string
    decreases |xs|
  {
    if |xs| == 0 then ""
    else if |xs| == 1 then xs[0]
    else xs[0] + sep + Join(xs[1..], sep)
  }

  /** `sep` cannot start anywhere inside `x` when `x` lacks the separator's first character. */
  predicate FreeOf(x: string, c: char) {
    forall i :: 0 <= i < |x| ==> x[i] != c
  }

  /** Splitting a joined list gives the list back, provided no element contains the
      separator's first character. */
  lemma {:induction false} SplitJoin(xs: seq<string>, sep: string)
    requires |sep| > 0 && |xs| >= 1
    requires forall i :: 0 <= i < |xs| ==> FreeOf(xs[i], sep[0])
    ensures Split(Join(xs, sep), sep) == xs
    decreases |xs|
  {
    var x := xs[0];
    if |xs| == 1 {
      match FindFrom(x, sep, 0)
      case None =>
      case Some(k) =>
        assert false;
    } else {
      var rest := Join(xs[1..], sep);
      var s := x + sep + rest;
      assert OccursAt(s, sep, |x|);
      match FindFrom(s, sep, 0)
      case None =>
        assert false;
      case Some(k) =>
        if k < |x| {
          assert false;
        }
        assert k == |x|;
        assert s[..k] == x;
        assert s[k + |sep|..] == rest;
        SplitJoin(xs[1..], sep);
    }
  }

  /** The first piece of a split ends at the first separator. */
  lemma SplitStep(x: string, sep: string, rest: string)
    requires |sep| > 0 && FreeOf(x, sep[0])
    ensures Split(x + sep + rest, sep) == [x] + Split(rest, sep)
  {
    var s := x + sep + rest;
    assert OccursAt(s, sep, |x|);
    match FindFrom(s, sep, 0)
    case None =>
      assert false;
    case Some(k) =>
      if k < |x| {
        assert false;
      }
      assert s[..k] == x;
      assert s[k + |sep|..] == rest;
  }

  /** A string without the separator splits into itself. */
  lemma SplitSingle(x: string, sep: string)
    requires |sep| > 0 && FreeOf(x, sep[0])
    ensures Split(x, sep) == [x]
  {
    match FindFrom(x, sep, 0)
    case None =>
    case Some(k) =>
      assert false;
  }

  // ---------------------------------------------------------------------------
  // The `<` order on strings
  // ---------------------------------------------------------------------------

  /** `a < b` on strings: lexicographic by character, a proper prefix coming first. */
  predicate StrLess(a: string, b: string)
    decreases |a|
  {
    |b| > 0 && (|a| == 0 || a[0] < b[0] || (a[0] == b[0] && StrLess(a[1..], b[1..])))
  }

  lemma {:induction false} StrLessIrreflexive(a: string)
    ensures !StrLess(a, a)
    decreases |a|
  {
    if |a| > 0 {
      StrLessIrreflexive(a[1..]);
    }
  }

  /** Two different strings of the same length are ordered one way or the other. */
  lemma {:induction false} StrLessTotal(a: string, b: string)
    requires |a| == |b| && a != b
    ensures StrLess(a, b) || StrLess(b, a)
    decreases |a|
  {
    if a[0] == b[0] {
      assert a[1..] != b[1..];
      StrLessTotal(a[1..], b[1..]);
    }
  }

  /** Comparing two concatenations whose first parts have equal length compares the
      first parts, and on a tie the second parts. */
  lemma {:induction false} StrLessConcat(a: string, b: string, c: string, d: string)
    requires |a| == |c|
    ensures StrLess(a + b, c + d) <==> StrLess(a, c) || (a == c && StrLess(b, d))
    decreases |a|
  {
    if |a| == 0 {
      assert a + b == b && c + d == d;
      assert a == c;
      StrLessIrreflexive(a);
    } else {
      assert (a + b)[0] == a[0] && (c + d)[0] == c[0];
      assert (a + b)[1..] == a[1..] + b && (c + d)[1..] == c[1..] + d;
      StrLessConcat(a[1..], b, c[1..], d);
      if a[0] == c[0] && a[1..] == c[1..] {
        assert a == c;
      }
      if a == c {
        assert a[1..] == c[1..];
      }
    }
  }

  /** On digit strings of the same length, `<` is the numeric order. */
  lemma {:induction false} DigitStringOrder(s: string, t: string)
    requires AllDigits(s) && AllDigits(t) && |s| == |t|
    ensures StrLess(s, t) <==> DigitsValue(s) < DigitsValue(t)
    decreases |s|
  {
    if StrLess(s, t) {
      DigitStringLessValue(s, t);
    } else if s == t {
    } else {
      StrLessTotal(s, t);
      DigitStringLessValue(t, s);
    }
  }

  lemma {:induction false} DigitStringLessValue(s: string, t: string)
    requires AllDigits(s) && AllDigits(t) && |s| == |t|
    requires StrLess(s, t)
    ensures DigitsValue(s) < DigitsValue(t)
    decreases |s|
  {
    var n := |s| - 1;
    var s0, t0 := s[..n], t[..n];
    assert s == s0 + [s[n]] && t == t0 + [t[n]];
    StrLessConcat(s0, [s[n]], t0, [t[n]]);
    if StrLess(s0, t0) {
      DigitStringLessValue(s0, t0);
    } else {
      assert s0 == t0;
    }
  }
}

=== FILE: wrappers.dfy ===
/** The optional-value datatype shared by every module of the model. */
module Wrappers {

  /** A value that may be missing: `null`/`undefined` in the pages, a failed parse, a failed fetch. */
  datatype Option<+T> = None | Some(value: T) {

    /** The carried value, or `default` when there is none. */
    function GetOr(default: T): T {
      match this
      case Some(v) => v
      case None => default
    }
  }
}
